=== FILE: README.md ===
# financeplanner list logic in Dafny

This project models the browser-side list logic of financeplanner, a
personal-finance web application. The server stores transactions,
categories, subcategories, tagging rules and import batches. The front end
filters, sorts, selects, groups and charts them. Two versions of the
components are modelled, with the older one reusing the newer one's
definitions wherever the two behave the same:

- **Newer tree (`frontend/src`)**:
  - The Tagging Rules page: a table of distinct descriptions, the rule that would tag each one, tag filters, search, sorting, and the rule editor.
  - The Batch Review page: a staged import batch, its selection, the rule preview and the confidence dot.
  - The Import page wizard: type, file, parse, select, confirm, "Import more".
  - The transaction list: four filters, sortable columns, a selection and its total.
  - The mass-edit panel: subtype, category and subcategory edits, and bulk delete.
  - The search bar: macrotype chips and the category and subcategory select options.
  - The summary charts: an income/outcome line and the eight largest spending categories.
  - The charts page: spending per month, a category line and sortable rankings.
- **Older tree (`src`)**: the same list, mass edit, search bar, summary charts and charts page in their earlier form.

Every event handler is a pure function from the page state, and the reply
of the request it sends, to the next state. Requests, replies, the current
month and the user's confirmation answer are parameters. Properties are
proved about the model. Each operation has one of these partners:

- an independent reference definition, for example `RuleMap` for the page's double loop;
- an invariant it keeps, for example the selection holding only pending or parsed ids;
- a sum or round-trip lemma, for example series adding up to the rows' total, or month inputs reading back as written.

Shared modules:

- `Collections`: the sequence helpers: filter, map, distinct, sums.
- `Text`: `toLowerCase`, `trim`, `startsWith`, `includes` and string comparison.
- `Ordering`: a stable sort by comparison keys in either direction.
- `Grouping`: the `obj[k] = (obj[k] || 0) + x` dictionaries, as entry lists in insertion order.
- `Calendar`: months, month arithmetic and the `YYYY-MM` input strings.
- `Ledger`: the transaction record.
- `Selection`: the check-box toggle.

## Model

| member | source | states |
|---|---|---|
| TaggingRules.DescriptionKey | frontend/src/pages/TaggingRulesPage/TaggingRulesPage.jsx:61 | The key is the trim of the lower-cased description: it has no white space at either end, only white space around it is dropped, and no upper-case ASCII letter remains |
| TaggingRules.DescriptionKeyUnique | frontend/src/pages/TaggingRulesPage/TaggingRulesPage.jsx:61 | Any string that is a trim of the lower-cased description is the key, so the key is the only such string |
| TaggingRules.DescriptionKeyIdempotent | frontend/src/pages/TaggingRulesPage/TaggingRulesPage.jsx:61 | Normalising a key again leaves it unchanged |
| TaggingRules.Matches | frontend/src/pages/TaggingRulesPage/TaggingRulesPage.jsx:63-65 | exact is equality, startsWith is a prefix, contains is an occurrence at some position, and any other match type never matches |
| TaggingRules.FirstMatch | frontend/src/pages/TaggingRulesPage/TaggingRulesPage.jsx:57-70 | No rule is found exactly when no rule matches; a found rule is one of the list's rules that matches |
| TaggingRules.FirstMatchAppend | frontend/src/pages/TaggingRulesPage/TaggingRulesPage.jsx:67-69 | A rule appended at the end changes only keys that had no match before |
| TaggingRules.FrequencyKeys | frontend/src/pages/TaggingRulesPage/TaggingRulesPage.jsx:60-61 | The key set holds exactly the keys of the table's rows |
| TaggingRules.RuleMap | frontend/src/pages/TaggingRulesPage/TaggingRulesPage.jsx:55-71 | The intended map: a table key is present iff some rule matches it, and it maps to the first matching rule |
| TaggingRules.PartialStart | frontend/src/pages/TaggingRulesPage/TaggingRulesPage.jsx:58-59 | Before a rule's pass over the table, the map is the map of the earlier rules |
| TaggingRules.PartialStep | frontend/src/pages/TaggingRulesPage/TaggingRulesPage.jsx:60-70 | One inner-loop step writes a row's key only when the rule matches it and the key has no rule yet |
| TaggingRules.PartialEnd | frontend/src/pages/TaggingRulesPage/TaggingRulesPage.jsx:58-71 | After a rule's full pass, the map is the reference map of the rules up to and including it |
| TaggingRules.BuildRuleMap | frontend/src/pages/TaggingRulesPage/TaggingRulesPage.jsx:55-71 | Read with own keys only, the double loop builds the reference map, so the first matching rule wins and later matches never overwrite it; the loop as written, whose guard also reads inherited members, is BuildRuleMapAsWritten |
| TaggingRules.FilterFrequency | frontend/src/pages/TaggingRulesPage/TaggingRulesPage.jsx:73-82 | The filtered table is an in-order subsequence holding exactly the rows that pass the tag filter and the search, with multiplicities kept exactly: each kept row as often as in the input, any other row not at all |
| TaggingRules.InRuleMap | frontend/src/pages/TaggingRulesPage/TaggingRulesPage.jsx:55-71 | A row's key is in the built map iff some rule matches it |
| TaggingRules.TaggedIffSomeRuleMatches | frontend/src/pages/TaggingRulesPage/TaggingRulesPage.jsx:77-81 | "tagged" shows exactly the rows that some rule matches and that pass the search |
| TaggingRules.UntaggedIffNoRuleMatches | frontend/src/pages/TaggingRulesPage/TaggingRulesPage.jsx:77-81 | "untagged" shows exactly the rows that no rule matches and that pass the search |
| TaggingRules.TagFilterKeeps | frontend/src/pages/TaggingRulesPage/TaggingRulesPage.jsx:79-81 | For any map, the tagged and untagged filters split the rows that pass the search by whether their key has an entry |
| TaggingRules.AllWithoutSearchKeepsEverything | frontend/src/pages/TaggingRulesPage/TaggingRulesPage.jsx:79-82 | The "all" filter with an empty search shows the whole table |
| TaggingRules.RuleLabel | frontend/src/pages/TaggingRulesPage/TaggingRulesPage.jsx:90-97 | Read with own keys only: a row without a rule has an empty label; otherwise the label is a trim of the "category / subcategory" text of the rule its key maps to. The as-written label is RuleLabelAsWritten |
| TaggingRules.RuleLabelOfFirstMatch | frontend/src/pages/TaggingRulesPage/TaggingRulesPage.jsx:55-97 | Read with own keys only: for a listed row, the label is the trimmed "category / subcategory" of the first rule in list order matching its key, and empty when no rule matches. As written, an inherited name is labelled "/" (RuleLabelAsWrittenOfFirstMatch) |
| TaggingRules.SortFrequency | frontend/src/pages/TaggingRulesPage/TaggingRulesPage.jsx:84-110 | The sorted table is a permutation of the filtered rows, ordered by the chosen column in the chosen direction, with rows of equal column value in their filtered order |
| TaggingRules.NoColumnKeepsOrder | frontend/src/pages/TaggingRulesPage/TaggingRulesPage.jsx:86-87 | Without a sort column, the filtered order is kept |
| TaggingRules.ErrorText | frontend/src/pages/TaggingRulesPage/TaggingRulesPage.jsx:301-302 | The server's message is shown when it is non-empty; otherwise the fallback text is shown |
| TaggingRules.CreateDraft | frontend/src/pages/TaggingRulesPage/TaggingRulesPage.jsx:212-222 | A new draft is a contains rule on the description, with no id, no category, priority 0 and active |
| TaggingRules.EditDraft | frontend/src/pages/TaggingRulesPage/TaggingRulesPage.jsx:224-235 | The draft holds the rule's id, pattern, match type, priority and active flag unchanged, and the ids of its category and subcategory, "" for one not populated |
| TaggingRules.PayloadOf | frontend/src/pages/TaggingRulesPage/TaggingRulesPage.jsx:283-290 | Pattern, match type, category, priority and active flag are sent as drafted; the subcategory is left out exactly when the draft's subcategory is empty, and is otherwise sent as chosen |
| TaggingRules.SavedRules | frontend/src/pages/TaggingRulesPage/TaggingRulesPage.jsx:293-299 | A created rule is appended; an edited rule replaces every rule with its id, and the list length and other rules are kept |
| TaggingRules.SaveRule | frontend/src/pages/TaggingRulesPage/TaggingRulesPage.jsx:277-310 | An empty pattern or category sends nothing and changes nothing; otherwise the payload is sent as a create or an edit; success updates the list and closes the editor; failure sets only the error |
| TaggingRules.DeleteRule | frontend/src/pages/TaggingRulesPage/TaggingRulesPage.jsx:237-245 | Success keeps, in order, exactly the rules with another id, each as often as before and none with the deleted id, and closes an editor open on that rule; failure sets only the error "Failed to delete rule" |
| TaggingRules.NewDraftNeedsCategory | frontend/src/pages/TaggingRulesPage/TaggingRulesPage.jsx:278 | A freshly created draft cannot be saved before a category is chosen |
| TaggingRules.EditDraftPayload | frontend/src/pages/TaggingRulesPage/TaggingRulesPage.jsx:224-235 | Saving an unchanged edit sends the rule's own fields back, and leaves the subcategory out when the rule has none populated |
| TaggingRules.SaveEditReplacesOne | frontend/src/pages/TaggingRulesPage/TaggingRulesPage.jsx:296-297 | With unique rule ids, saving an edit replaces exactly that one rule |
| TaggingRules.CreatedRuleTagsItsRow | frontend/src/pages/TaggingRulesPage/TaggingRulesPage.jsx:212-222 | A contains rule created from a row whose description is already a key tags that row |
| TaggingRules.CreatedRuleMissesCapitalisedRow | frontend/src/pages/TaggingRulesPage/TaggingRulesPage.jsx:65-222 | The contains rule created from the row "Uber" has the pattern "Uber", which does not occur in the row's key "uber", so the new rule does not tag its own row |
| TaggingRules.FilterFrequencyAsWritten | frontend/src/pages/TaggingRulesPage/TaggingRulesPage.jsx:55-77 | The filter as written, reading `ruleMap[desc]` on an object literal, including its inherited members |
| TaggingRules.AsWrittenAgreesElsewhere | frontend/src/pages/TaggingRulesPage/TaggingRulesPage.jsx:77 | The as-written and the own-key readings differ only on inherited member names |
| TaggingRules.ConstructorCountsAsTagged | frontend/src/pages/TaggingRulesPage/TaggingRulesPage.jsx:77-80 | With no rules, the description "Constructor" is listed as tagged and hidden from untagged as written; the own-key map does the opposite |
| TaggingRules.ConstructorAsWritten | frontend/src/pages/TaggingRulesPage/TaggingRulesPage.jsx:77-80 | As written, "Constructor" is listed as tagged whatever rules built the map |
| TaggingRules.InheritedAsWritten | frontend/src/pages/TaggingRulesPage/TaggingRulesPage.jsx:77-80 | A row whose key names an inherited member always reads as tagged and never as untagged, as written |
| TaggingRules.ConstructorOwnKeys | frontend/src/pages/TaggingRulesPage/TaggingRulesPage.jsx:77-80 | The corrected own-key map of no rules lists "Constructor" as untagged |
| TaggingRules.NoRulesNoMap | frontend/src/pages/TaggingRulesPage/TaggingRulesPage.jsx:55-71 | Without rules the map is empty |
| TaggingRules.RuleMapAsWritten | frontend/src/pages/TaggingRulesPage/TaggingRulesPage.jsx:55-71 | The map the loop leaves, read as an object literal: a table key has an own entry iff it is not an inherited member name and some rule matches it, and then the entry is the first matching rule |
| TaggingRules.OwnKeysStep | frontend/src/pages/TaggingRulesPage/TaggingRulesPage.jsx:68-69 | One inner-loop step as written: the rule is stored only when it matches and `ruleMap[desc]` reads nothing, inherited members included |
| TaggingRules.BuildRuleMapAsWritten | frontend/src/pages/TaggingRulesPage/TaggingRulesPage.jsx:55-71 | The double loop with the guard `!ruleMap[desc]` as written builds the as-written map, which never holds an inherited member name |
| TaggingRules.InheritedLabel | frontend/src/pages/TaggingRulesPage/TaggingRulesPage.jsx:92-97 | The label the comparator builds from an inherited function member, which has no category or subcategory, is "/" |
| TaggingRules.RuleLabelAsWritten | frontend/src/pages/TaggingRulesPage/TaggingRulesPage.jsx:88-97 | As written, a row whose key has no own entry is labelled "/" when the key names an inherited member and "" otherwise; a row with an entry gets the trimmed "category / subcategory" of its rule |
| TaggingRules.RuleLabelAsWrittenOfFirstMatch | frontend/src/pages/TaggingRulesPage/TaggingRulesPage.jsx:55-97 | For a listed row, the as-written label is "/" for an inherited member name, and otherwise the trimmed label of the first matching rule, or "" when none matches |
| TaggingRules.SortFrequencyAsWritten | frontend/src/pages/TaggingRulesPage/TaggingRulesPage.jsx:84-110 | With the as-written labels, the sorted table is a permutation of the filtered rows, ordered by the chosen column in the chosen direction, with ties in filtered order |
| TaggingRules.SortAsWrittenAgreesElsewhere | frontend/src/pages/TaggingRulesPage/TaggingRulesPage.jsx:84-110 | When no row's key names an inherited member, the as-written sort and the own-key sort give the same table |
| TaggingRules.NoRuleKeys | frontend/src/pages/TaggingRulesPage/TaggingRulesPage.jsx:90-107 | A row without an own entry sorts by rule under "/" as written when its key is inherited and under "" otherwise; the own-key reading always uses "" |
| TaggingRules.InheritedSortsLast | frontend/src/pages/TaggingRulesPage/TaggingRulesPage.jsx:90-107 | Of two rows without rules, one inherited and one not, ascending by rule puts the inherited row last as written, while the own-key reading keeps the given order |
| TaggingRules.InheritedSortsLastAsWritten | frontend/src/pages/TaggingRulesPage/TaggingRulesPage.jsx:90-107 | Of two rows without rules, one inherited and one not, the as-written ascending sort by rule puts the inherited row, labelled "/", after the other, labelled "" |
| TaggingRules.NoRulesNoMapAsWritten | frontend/src/pages/TaggingRulesPage/TaggingRulesPage.jsx:55-71 | Without rules the as-written map is empty |
| TaggingRules.LowerUberKey | frontend/src/pages/TaggingRulesPage/TaggingRulesPage.jsx:61 | The key of "uber" is "uber" |
| TaggingRules.InheritedLabelReordersSort | frontend/src/pages/TaggingRulesPage/TaggingRulesPage.jsx:57-107 | With no rules, sorting the rows "Constructor" then "uber" ascending by rule puts "uber" first as written, while the own-key reading keeps "Constructor" first |
| BatchReview.PendingIds | frontend/src/pages/BatchReviewPage/BatchReviewPage.jsx:30-34 | The pending ids are exactly the tempIds of pending rows, in batch order |
| BatchReview.PendingIdsAreFilteredIds | frontend/src/pages/BatchReviewPage/BatchReviewPage.jsx:30-34 | The pending ids are the tempIds of the pending rows, one per row, in batch order |
| BatchReview.Load | frontend/src/pages/BatchReviewPage/BatchReviewPage.jsx:24-34 | A loaded batch starts with every pending row selected |
| BatchReview.SelectAll | frontend/src/pages/BatchReviewPage/BatchReviewPage.jsx:73-80 | "Select All" selects the pending rows, and does nothing before the batch is loaded |
| BatchReview.SelectNone | frontend/src/pages/BatchReviewPage/BatchReviewPage.jsx:82-84 | "Select None" empties the selection and nothing else |
| BatchReview.ClickRow | frontend/src/pages/BatchReviewPage/BatchReviewPage.jsx:86-92 | Only a pending row's click flips its membership in the selection; other rows change nothing |
| BatchReview.HeaderChange | frontend/src/pages/BatchReviewPage/BatchReviewPage.jsx:257-262 | Checking the header selects all pending rows; unchecking selects none |
| BatchReview.InitialValid | frontend/src/pages/BatchReviewPage/BatchReviewPage.jsx:11-17 | The initial page satisfies the invariant: the selection holds distinct pending tempIds of the batch |
| BatchReview.LoadValid | frontend/src/pages/BatchReviewPage/BatchReviewPage.jsx:30-34 | Loading a batch yields a valid page |
| BatchReview.SelectAllValid | frontend/src/pages/BatchReviewPage/BatchReviewPage.jsx:73-80 | "Select All" keeps the page valid |
| BatchReview.SelectNoneValid | frontend/src/pages/BatchReviewPage/BatchReviewPage.jsx:82-84 | "Select None" keeps the page valid |
| BatchReview.ClickRowValid | frontend/src/pages/BatchReviewPage/BatchReviewPage.jsx:86-92 | Clicking any row of the batch keeps the page valid |
| BatchReview.HeaderCheckedIffAllPendingSelected | frontend/src/pages/BatchReviewPage/BatchReviewPage.jsx:257-259 | On a valid page with distinct pending ids, the length test checks the header exactly when every pending row is selected |
| BatchReview.HeaderChecked | frontend/src/pages/BatchReviewPage/BatchReviewPage.jsx:257-259 | When the selection is duplicate-free and within the duplicate-free pending ids, the length test is true exactly when every pending id is selected |
| BatchReview.PreviewDescriptions | frontend/src/pages/BatchReviewPage/BatchReviewPage.jsx:36-43 | The preview sends each non-empty description of the rows exactly once, and nothing else, in the order in which the descriptions first appear in the batch |
| BatchReview.PreviewRequest | frontend/src/pages/BatchReviewPage/BatchReviewPage.jsx:44-52 | A preview is requested exactly when there is a description to send |
| BatchReview.PreviewCoversRows | frontend/src/pages/BatchReviewPage/BatchReviewPage.jsx:303-306 | Every row with a description was sent, so its lookup key is the key of a sent description |
| BatchReview.ConfidenceBucket | frontend/src/pages/BatchReviewPage/BatchReviewPage.jsx:327-334 | The dot is high at 0.9 and above, medium from 0.7 up to 0.9, and low below 0.7 |
| BatchReview.BucketMonotone | frontend/src/pages/BatchReviewPage/BatchReviewPage.jsx:327-334 | More confidence never gives a lower bucket |
| ImportWizard.TempIds | frontend/src/pages/ImportPage/ImportPage.jsx:74-75 | The tempIds of the parsed rows, one per row, in parse order |
| ImportWizard.SelectType | frontend/src/pages/ImportPage/ImportPage.jsx:186 | The type select sets the import type and nothing else |
| ImportWizard.Next | frontend/src/pages/ImportPage/ImportPage.jsx:200-201 | "Next" moves from step 1 to step 2 only when a type is chosen |
| ImportWizard.Back | frontend/src/pages/ImportPage/ImportPage.jsx:265 | "Back" moves from step 2 to step 1, and from step 3 to step 2 |
| ImportWizard.PickFile | frontend/src/pages/ImportPage/ImportPage.jsx:31-40 | A picked file replaces the old one and clears the error; cancelling the picker changes nothing |
| ImportWizard.FirstText | frontend/src/pages/ImportPage/ImportPage.jsx:78 | The first non-empty of `msg`, then `message`, is shown; otherwise the fallback |
| ImportWizard.Upload | frontend/src/pages/ImportPage/ImportPage.jsx:56-82 | Without a file or a type, only the guard's error is set; a parse moves to step 3 with every row selected; a failure keeps the step and shows the error |
| ImportWizard.RowsToImport | frontend/src/pages/ImportPage/ImportPage.jsx:94-96 | The rows sent are an in-order subsequence holding exactly the parsed rows whose tempId is selected, with multiplicities kept exactly: each kept row as often as in the input, any other row not at all |
| ImportWizard.Confirm | frontend/src/pages/ImportPage/ImportPage.jsx:84-115 | An empty selection only sets its error and sends nothing; otherwise the selected rows are sent; success moves to step 4 and failure keeps step 3 with the error |
| ImportWizard.SelectAll | frontend/src/pages/ImportPage/ImportPage.jsx:117-121 | "Select All" selects every parsed row, and does nothing before a parse |
| ImportWizard.SelectNone | frontend/src/pages/ImportPage/ImportPage.jsx:123-125 | "Select None" empties the selection and nothing else |
| ImportWizard.ToggleRow | frontend/src/pages/ImportPage/ImportPage.jsx:127-133 | A row click flips that row's membership in the selection |
| ImportWizard.Reset | frontend/src/pages/ImportPage/ImportPage.jsx:135-142 | "Import more" returns to step 1 with everything cleared |
| ImportWizard.InitialValid | frontend/src/pages/ImportPage/ImportPage.jsx:7-14 | The initial wizard satisfies the invariant: later steps hold what the earlier steps chose, and the selection holds parsed tempIds |
| ImportWizard.StepsKeepValid | frontend/src/pages/ImportPage/ImportPage.jsx:186-201 | The type select and the step buttons keep the wizard valid |
| ImportWizard.UploadKeepsValid | frontend/src/pages/ImportPage/ImportPage.jsx:31-82 | Picking and uploading a file keep the wizard valid |
| ImportWizard.ConfirmKeepsValid | frontend/src/pages/ImportPage/ImportPage.jsx:84-115 | Confirming keeps the wizard valid |
| ImportWizard.SelectionKeepsValid | frontend/src/pages/ImportPage/ImportPage.jsx:117-133 | The selection buttons and the toggle of a shown row keep the wizard valid |
| ImportWizard.UploadGuardKeepsStep | frontend/src/pages/ImportPage/ImportPage.jsx:57-60 | The upload guard never moves the wizard |
| ImportWizard.ConfirmAfterParseSendsAll | frontend/src/pages/ImportPage/ImportPage.jsx:74-96 | Right after a parse, confirming sends every parsed row |
| ImportWizard.ConfirmAfterSelectNone | frontend/src/pages/ImportPage/ImportPage.jsx:85-88 | After "Select None", confirming only shows "Please select at least one transaction to import." |
| TransactionBox.FilterTransactions | frontend/src/components/TransactionBox/TransactionBox.jsx:17-33 | The shown rows are an in-order subsequence holding exactly the rows that every active filter lets through, with multiplicities kept exactly: each kept row as often as in the input, any other row not at all |
| TransactionBox.FilterTransactionsIsChain | frontend/src/components/TransactionBox/TransactionBox.jsx:17-33 | The four chained `.filter` calls equal the one combined filter |
| TransactionBox.NoFiltersShowsAll | frontend/src/components/TransactionBox/TransactionBox.jsx:17-33 | With every filter off, the whole list is shown |
| TransactionBox.Shown | frontend/src/components/TransactionBox/TransactionBox.jsx:40-58 | The sorted list is a permutation of the filtered rows, ordered by the column's key in the chosen direction, with rows of equal key in their filtered order |
| TransactionBox.ShownRows | frontend/src/components/TransactionBox/TransactionBox.jsx:17-58 | Every shown row is a listed row that passes the filters, and vice versa |
| TransactionBox.DefaultSortLargestFirst | frontend/src/components/TransactionBox/TransactionBox.jsx:14-51 | Under the default sort, values never increase down the list |
| TransactionBox.OtherColumnKeepsOrder | frontend/src/components/TransactionBox/TransactionBox.jsx:40-58 | An unknown sort column keeps the filtered order |
| TransactionBox.Ids | frontend/src/components/TransactionBox/TransactionBox.jsx:103-112 | One id per row, in order |
| TransactionBox.SelectAllChange | frontend/src/components/TransactionBox/TransactionBox.jsx:103-156 | Checking the header selects the ids of the shown rows; unchecking selects none |
| TransactionBox.ToggleSelected | frontend/src/components/TransactionBox/TransactionBox.jsx:114-120 | A row's check box flips its id's membership in the selection and nothing else |
| TransactionBox.ValueOf | frontend/src/components/TransactionBox/TransactionBox.jsx:122-127 | The value of the first row with that id, or 0 when there is none |
| TransactionBox.ValueOfRow | frontend/src/components/TransactionBox/TransactionBox.jsx:122-127 | With unique ids, looking up a row's id finds that row's value |
| TransactionBox.SelectAllTotal | frontend/src/components/TransactionBox/TransactionBox.jsx:103-127 | After "select all", the total equals the sum of the shown rows' values |
| TransactionBox.ToggleOnAdds | frontend/src/components/TransactionBox/TransactionBox.jsx:114-127 | Ticking an unselected row adds its value to the total |
| TransactionBox.TotalSelected | frontend/src/components/TransactionBox/TransactionBox.jsx:122-127 | Ids that match no row add nothing, and a single selected id gives the value of the first row with that id; its partners are SelectAllTotal, ToggleOnAdds, ToggleOffSubtracts and MassEdit.SelectedRowsTotal |
| TransactionBox.ToggleOffSubtracts | frontend/src/components/TransactionBox/TransactionBox.jsx:114-127 | Unticking a row of a duplicate-free selection takes its value away from the total |
| Selection.Toggle | frontend/src/components/TransactionBox/TransactionBox.jsx:114-120 | Toggling flips the membership of the id and of no other id |
| Selection.ToggleTwice | frontend/src/components/TransactionBox/TransactionBox.jsx:114-120 | Toggling the same id twice restores the selected set |
| Selection.ToggleNoDups | frontend/src/pages/ImportPage/ImportPage.jsx:127-133 | Toggling keeps a selection free of duplicates |
| Selection.ToggleWithin | frontend/src/pages/BatchReviewPage/BatchReviewPage.jsx:86-92 | Toggling an allowed id keeps the selection within the allowed ids |
| MassEdit.Edited | frontend/src/components/MassEdit/MassEdit.jsx:55-61 | An edit sets only the field it names, and a category or subcategory becomes a bare id; id, value, date, description, macrotype and bank are kept |
| MassEdit.ApplyToSelected | frontend/src/components/MassEdit/MassEdit.jsx:55-61 | Selected rows are edited and the other rows are kept, in the same order and number |
| MassEdit.ApplyEdit | frontend/src/components/MassEdit/MassEdit.jsx:47-108 | The placeholder choice sends nothing and changes nothing; otherwise one request goes out per selected id, and the list changes only when every request succeeds |
| MassEdit.ApplyIdempotent | frontend/src/components/MassEdit/MassEdit.jsx:55-61 | Applying the same edit twice equals applying it once |
| MassEdit.ApplyCommutes | frontend/src/components/MassEdit/MassEdit.jsx:47-108 | Edits of different fields commute |
| MassEdit.EditKeepsTotal | frontend/src/components/MassEdit/MassEdit.jsx:55-61 | An edit does not move the selected total of the list |
| MassEdit.ValueOfSameIdsAndValues | frontend/src/components/MassEdit/MassEdit.jsx:55-61 | Two lists with the same ids and values, row by row, report the same value for every id |
| MassEdit.CategoryEditHidesFromCategoryFilter | frontend/src/components/MassEdit/MassEdit.jsx:49-61 | A category edit leaves only an id on the row, so an active category filter, which compares names, hides it |
| MassEdit.Remaining | frontend/src/components/MassEdit/MassEdit.jsx:119 | The rows left after a delete are an in-order subsequence holding exactly the rows whose id is not selected, with multiplicities kept exactly: each kept row as often as in the input, any other row not at all |
| MassEdit.DeleteSelected | frontend/src/components/MassEdit/MassEdit.jsx:110-128 | An empty selection or a declined confirmation does nothing; success drops the selected rows, clears the selection and shows `msg ?? "Transações excluídas."`; failure keeps everything and shows `msg \|\| "Erro ao excluir. Tente novamente."` |
| MassEdit.DeleteKeepsUniqueIds | frontend/src/components/MassEdit/MassEdit.jsx:119 | A delete keeps ids unique |
| MassEdit.DeleteSplitsValues | frontend/src/components/MassEdit/MassEdit.jsx:119-121 | The values left after a delete plus the selected total from before add up to the values of the whole list |
| MassEdit.SelectedRowsTotal | frontend/src/components/TransactionBox/TransactionBox.jsx:122-127 | With unique ids and a distinct selection of listed ids, the selected total is the sum of the selected rows' values |
| SearchBar.SortedNames | frontend/src/components/SearchBar/SearchBar.jsx:21-26 | The options are the non-empty names, as a multiset, in ascending order |
| SearchBar.OptionsFromRows | frontend/src/components/SearchBar/SearchBar.jsx:22-27 | The rows' non-empty names, each exactly once, in strictly ascending order |
| SearchBar.Options | frontend/src/components/SearchBar/SearchBar.jsx:19-27 | A non-empty API list gives its names; an empty one falls back to the rows' names; the options are ascending either way |
| SearchBar.FallbackOptionShowsRows | frontend/src/components/SearchBar/SearchBar.jsx:19-22 | Without an API list, every category option picked in the select shows at least one row |
| SearchBar.EveryNamedCategoryIsAnOption | frontend/src/components/SearchBar/SearchBar.jsx:22 | Without an API list, every row's category name is offered as an option |
| SearchBar.ChipShowsItsMacrotype | frontend/src/components/SearchBar/SearchBar.jsx:39-56 | A chip other than "all" shows exactly the rows of its macrotype |
| Charts.Preset | frontend/src/components/ChartsSummary/ChartsSummary.jsx:68-85 | A preset ends at the current month and starts `monthsBack` months earlier |
| Charts.PresetSpan | frontend/src/pages/ChartsPage/ChartsPage.jsx:64-112 | A month lies within a preset's range iff it is at most `monthsBack` months back and not after the current month |
| Charts.RowsInRange | frontend/src/components/ChartsSummary/ChartsSummary.jsx:46-53 | The kept rows are an in-order subsequence holding exactly the rows whose month lies in the range, with multiplicities kept exactly: each kept row as often as in the input, any other row not at all |
| Charts.SortedMonths | frontend/src/pages/ChartsPage/ChartsPage.jsx:168-172 | The axis holds each month of the rows exactly once, earliest first |
| Charts.MonthKeyOrder | frontend/src/components/ChartsSummary/ChartsSummary.jsx:144-149 | Comparing by year, then month, orders months by their index |
| Charts.Series | frontend/src/components/ChartsSummary/ChartsSummary.jsx:151-154 | Each point is the sum of its month's amounts, or 0 for a month without rows |
| Charts.SeriesSum | frontend/src/components/ChartsSummary/ChartsSummary.jsx:121-154 | Along an axis holding every month of the rows once, the series adds up to the sum over all rows |
| Charts.SubsetOnAxis | frontend/src/components/ChartsSummary/ChartsSummary.jsx:138-154 | The months of a subset of the rows lie on the axis of all the rows |
| Charts.AbsValue | frontend/src/components/ChartsSummary/ChartsSummary.jsx:131 | `Math.abs` of the value is never negative |
| ChartsSummary.FilterByDateRange | frontend/src/components/ChartsSummary/ChartsSummary.jsx:41-54 | No rows or an empty bound return the rows unchanged; otherwise the rows in the range are kept |
| ChartsSummary.ChoosePreset | frontend/src/components/ChartsSummary/ChartsSummary.jsx:68-85 | The i-th preset button sets the range of 2, 5 or 11 months back and highlights its label |
| ChartsSummary.EditStart | frontend/src/components/ChartsSummary/ChartsSummary.jsx:261-269 | Typing a start sets only the start and clears the highlighted preset |
| ChartsSummary.EditEnd | frontend/src/components/ChartsSummary/ChartsSummary.jsx:273-281 | Typing an end sets only the end and clears the highlighted preset |
| ChartsSummary.InitialIsOneYearPreset | frontend/src/components/ChartsSummary/ChartsSummary.jsx:28-61 | The page opens exactly as if "1 year" had been clicked |
| ChartsSummary.OfMacrotype | frontend/src/components/ChartsSummary/ChartsSummary.jsx:123-126 | An in-order subsequence holding exactly the rows of that macrotype, with multiplicities kept exactly: each kept row as often as in the input, any other row not at all |
| ChartsSummary.LineSeries | frontend/src/components/ChartsSummary/ChartsSummary.jsx:121-154 | One point per label: the month's sum of that macrotype's amounts, absolute for outcome |
| ChartsSummary.LineSeriesSum | frontend/src/components/ChartsSummary/ChartsSummary.jsx:121-154 | Each line adds up to the sum over its macrotype's rows, with nothing dropped and nothing counted twice |
| ChartsSummary.OutcomeSeriesNonNegative | frontend/src/components/ChartsSummary/ChartsSummary.jsx:129-133 | The outcome line never goes below zero |
| ChartsSummary.BarNames | frontend/src/components/ChartsSummary/ChartsSummary.jsx:178-185 | The distinct non-empty category names of the outcome rows, each once, in order of first appearance |
| ChartsSummary.AllBars | frontend/src/components/ChartsSummary/ChartsSummary.jsx:186-195 | One bar per name, holding the sum of the absolute values of that category's outcome rows |
| ChartsSummary.RankedBars | frontend/src/components/ChartsSummary/ChartsSummary.jsx:196 | The ranked bars are a permutation of the bars, largest first, with bars of equal total in order of first appearance |
| ChartsSummary.CategoryBars | frontend/src/components/ChartsSummary/ChartsSummary.jsx:196-197 | At most eight bars are shown: a prefix of the ranking, largest first |
| ChartsSummary.BarsAreCategoryTotals | frontend/src/components/ChartsSummary/ChartsSummary.jsx:178-197 | Every shown bar is a spending category with its own total |
| ChartsSummary.DroppedBarsAreSmaller | frontend/src/components/ChartsSummary/ChartsSummary.jsx:196-197 | A category is left out only when eight bars are shown, and then no shown bar is smaller |
| ChartsSummary.RankedPosition | frontend/src/components/ChartsSummary/ChartsSummary.jsx:186-196 | Every spending category's bar appears in the ranking |
| ChartsSummary.ShownAbove | frontend/src/components/ChartsSummary/ChartsSummary.jsx:196-197 | Each shown bar is at least as tall as any ranked bar past the shown ones |
| ChartsPage.MonthFilter | frontend/src/pages/ChartsPage/ChartsPage.jsx:99-117 | The kept rows are exactly the rows in the range, with multiplicities kept exactly: each kept row as often as in the input, any other row not at all, and none while either input is empty |
| ChartsPage.PresetKeepsRecentMonths | frontend/src/pages/ChartsPage/ChartsPage.jsx:64-79 | A preset shows exactly the rows of the current month and of the `monthsBack` months before it |
| ChartsPage.Spending | frontend/src/pages/ChartsPage/ChartsPage.jsx:60-62 | Exactly the outcome rows of the range, in order, with multiplicities kept exactly: each kept row as often as in the input, any other row not at all |
| ChartsPage.ProcessMonthlyData | frontend/src/pages/ChartsPage/ChartsPage.jsx:119-197 | No rows give an empty chart; otherwise each month of the rows appears once, earliest first, with its total and its matching-row total of absolute values |
| ChartsPage.TypeTotalWithinTotal | frontend/src/pages/ChartsPage/ChartsPage.jsx:147-166 | The category line lies between zero and the total line in every month |
| ChartsPage.MonthlyDataSums | frontend/src/pages/ChartsPage/ChartsPage.jsx:147-197 | Both lines add up over the months to the sums over all rows |
| ChartsPage.NamedRows | frontend/src/pages/ChartsPage/ChartsPage.jsx:203-204 | An in-order subsequence holding exactly the rows with a non-empty name, with multiplicities kept exactly: each kept row as often as in the input, any other row not at all |
| ChartsPage.Ranking | frontend/src/pages/ChartsPage/ChartsPage.jsx:200-209 | One entry per non-empty name of the rows, with no duplicates, each holding the sum of its rows' amounts |
| ChartsPage.RankingNonNegative | frontend/src/pages/ChartsPage/ChartsPage.jsx:206 | Every ranked total is non-negative |
| ChartsPage.SortRanking | frontend/src/pages/ChartsPage/ChartsPage.jsx:211-223 | The sorted entries are a permutation, ordered by name or by value in the chosen direction, with entries of equal key in their previous order |
| ChartsPage.TotalAsWritten | frontend/src/pages/ChartsPage/ChartsPage.jsx:259-261 | The `reduce` gives no number exactly when some entry of the object holds a string |
| ChartsPage.AddAsWritten | frontend/src/pages/ChartsPage/ChartsPage.jsx:205-206 | Adding under "__proto__" leaves a well-shaped object as it was; any other name has an entry afterwards |
| ChartsPage.AddKeepsShape | frontend/src/pages/ChartsPage/ChartsPage.jsx:205-206 | Adding keeps the object free of an own "__proto__" and holding a string exactly under the inherited names |
| ChartsPage.AddKeepsOthers | frontend/src/pages/ChartsPage/ChartsPage.jsx:205-206 | Adding leaves every entry of another name as it was, none lost and none gained |
| ChartsPage.TallyAsWritten | frontend/src/pages/ChartsPage/ChartsPage.jsx:201-207 | Every entry is named after some row, every row key but "__proto__" has an entry, and the object keeps its shape |
| ChartsPage.RankingAsWritten | frontend/src/pages/ChartsPage/ChartsPage.jsx:200-208 | The entries are named after non-empty row names, every non-empty name but "__proto__" has one, and a string sits exactly under the inherited names |
| ChartsPage.AddAsWrittenOwn | frontend/src/pages/ChartsPage/ChartsPage.jsx:205-206 | For a name no object inherits, adding to the object literal adds to the entry list like a map |
| ChartsPage.TallyAsWrittenOwn | frontend/src/pages/ChartsPage/ChartsPage.jsx:201-207 | When no row key is an inherited name, the object literal tallies like the entry list |
| ChartsPage.TotalAsWrittenOwn | frontend/src/pages/ChartsPage/ChartsPage.jsx:259-261 | On numbers only, the `reduce` is the sum of the entries |
| ChartsPage.RankingAsWrittenAgrees | frontend/src/pages/ChartsPage/ChartsPage.jsx:200-208 | When no row is named after an inherited member, the object literal gives the same entries as the ranking and the total of all named rows |
| ChartsPage.ConstructorRankedAsString | frontend/src/pages/ChartsPage/ChartsPage.jsx:200-208 | As written, a row of category "constructor" is ranked with a string value and the total is not a number; the corrected ranking holds its amount |
| ChartsPage.ProtoRowDropped | frontend/src/pages/ChartsPage/ChartsPage.jsx:200-208 | As written, a row of category "__proto__" has no entry; the corrected ranking lists it with its amount |
| ChartsPage.SingleNamedRow | frontend/src/pages/ChartsPage/ChartsPage.jsx:200-208 | One named row is the only named row and makes one entry, both as written and corrected |
| ChartsPage.RankingTotal | frontend/src/pages/ChartsPage/ChartsPage.jsx:259-261 | The total under the table is the sum over all named rows, however the table is sorted |
| ChartsPage.TotalRanking | frontend/src/pages/ChartsPage/ChartsPage.jsx:259-261 | The `reduce` from the left: 0 for no entries, and otherwise the total of all but the last entry plus the last one |
| LegacyTransactionBox.Shown | src/components/TransactionBox/TransactionBox.jsx:13-30 | The filtered rows, permuted so that values never increase, with rows of equal value in their filtered order |
| LegacyTransactionBox.SameAsNewerDefault | src/components/TransactionBox/TransactionBox.jsx:13-30 | The older list shows what the newer list shows under its default sort |
| LegacyTransactionBox.SelectAllTotal | src/components/TransactionBox/TransactionBox.jsx:32-56 | After "select all", the total is the sum of the shown values |
| LegacyMassEdit.ApplyAsWritten | src/components/MassEdit/MassEdit.jsx:50-130 | Whatever is chosen, one request goes out per selected id, and the list changes when every request succeeds |
| LegacyMassEdit.AgreesOnRealChoice | src/components/MassEdit/MassEdit.jsx:50-130 | With a real choice, the older panel behaves exactly like the newer one |
| LegacyMassEdit.PlaceholderClearsCategory | src/components/MassEdit/MassEdit.jsx:182-194 | Applying the placeholder "Select Category" sends `category: ""` and clears a selected row's category |
| LegacyMassEdit.PlaceholderIgnoredWhenDisabled | frontend/src/components/MassEdit/MassEdit.jsx:190-196 | The newer panel's disabled button leaves the same row untouched |
| LegacySearchBar.UniqueCategories | src/components/SearchBar/SearchBar.jsx:13-17 | The rows' non-empty category names, each once |
| LegacySearchBar.UniqueSubcategories | src/components/SearchBar/SearchBar.jsx:19-23 | The rows' non-empty subcategory names, each once |
| LegacySearchBar.SameAsNewerWithoutApiLists | src/components/SearchBar/SearchBar.jsx:12-23 | The older options equal the newer bar's options when no API list is given |
| LegacyChartsSummary.Cutoff | src/components/ChartsSummary/ChartsSummary.jsx:56-75 | The cutoff is a real date. `setMonth` / `setFullYear` keep today's day: when that day exists in the month 3, 6 or 12 months back the cutoff is that day of that month, and otherwise it overflows into the next month by the days past that month's end |
| LegacyChartsSummary.ThreeMonthsFromMay31 | src/components/ChartsSummary/ChartsSummary.jsx:56-61 | On May 31 of a common year, "3 months" cuts off at March 3 |
| LegacyChartsSummary.OneYearFromLeapDay | src/components/ChartsSummary/ChartsSummary.jsx:69-74 | On February 29, "1 year" cuts off at March 1 of the year before |
| LegacyChartsSummary.OneYearIsTwelveMonths | src/components/ChartsSummary/ChartsSummary.jsx:69-74 | The month one year back, `setFullYear(y - 1)`, is the month twelve months back |
| LegacyChartsSummary.CutoffMonth | src/components/ChartsSummary/ChartsSummary.jsx:56-75 | The cutoff lies in the month 3, 6 or 12 months before the current month, or in the month after it when the day overflows |
| LegacyChartsSummary.FilterByPeriod | src/components/ChartsSummary/ChartsSummary.jsx:48-78 | The kept rows are an in-order subsequence holding exactly the rows dated on or after the cutoff, with multiplicities kept exactly: each kept row as often as in the input, any other row not at all |
| LegacyChartsSummary.LongerPeriodKeepsMore | src/components/ChartsSummary/ChartsSummary.jsx:48-78 | A longer period keeps every row that a shorter one keeps |
| LegacyChartsSummary.LineSeries | src/components/ChartsSummary/ChartsSummary.jsx:119-161 | One point per month of the rows: the month's sum of raw values of that macrotype |
| LegacyChartsSummary.LineSeriesSum | src/components/ChartsSummary/ChartsSummary.jsx:119-161 | Each line adds up to the sum of its macrotype's raw values |
| LegacyChartsSummary.WithIndex | src/components/ChartsSummary/ChartsSummary.jsx:183-185 | Each row is paired with its position |
| LegacyChartsSummary.CategoryBarsAsWritten | src/components/ChartsSummary/ChartsSummary.jsx:181-202 | One bar per distinct category value under reference identity, in order of first appearance, with a null and a missing category taken as one value |
| LegacyChartsSummary.CategoryBars | src/components/ChartsSummary/ChartsSummary.jsx:181-202 | The corrected bars: one per distinct category, each with the sum of that category's values |
| LegacyChartsSummary.CategoryBarsSum | src/components/ChartsSummary/ChartsSummary.jsx:190-198 | The corrected bars have distinct categories, and together they add up to all the filtered values |
| LegacyChartsSummary.SameCategoryTwoBars | src/components/ChartsSummary/ChartsSummary.jsx:183-197 | As written, two rows of the same populated category make two bars |
| LegacyChartsSummary.TwoRowsTwoIdentities | src/components/ChartsSummary/ChartsSummary.jsx:183-185 | As written, any two rows with populated categories are told apart |
| LegacyChartsSummary.SharedCategoryOneBar | src/components/ChartsSummary/ChartsSummary.jsx:181-202 | Corrected, two rows of one category make one bar holding both values |
| LegacyChartsPage.CalculateDateRange | src/pages/ChartsPage/ChartsPage.jsx:19-24 | The month `monthsAgo` months before the current one |
| LegacyChartsPage.PresetAsWritten | src/pages/ChartsPage/ChartsPage.jsx:154-162 | As written, a button moves only the start; the end keeps what it held |
| LegacyChartsPage.PresetPastEndShowsNothing | src/pages/ChartsPage/ChartsPage.jsx:45-68 | Once the start lies past the untouched end, the preset shows no rows |
| LegacyChartsPage.ThreeMonthsPresetIn2026 | src/pages/ChartsPage/ChartsPage.jsx:154-156 | In October 2026, on the initial inputs, "Últimos 3 Meses" empties the charts whatever the rows |
| LegacyChartsPage.PresetCorrected | src/pages/ChartsPage/ChartsPage.jsx:154-162 | Corrected, the button sets the same start and sets the end to the current month |
| LegacyChartsPage.PresetCorrectedShowsRecentRows | src/pages/ChartsPage/ChartsPage.jsx:45-68 | With the corrected buttons, exactly the rows from the start month to the current month are shown |
| LegacyChartsPage.ProcessMonthlyData | src/pages/ChartsPage/ChartsPage.jsx:70-119 | Each month of the rows appears once, earliest first, with its total and its matching-row total of raw values |
| LegacyChartsPage.MonthlyDataSums | src/pages/ChartsPage/ChartsPage.jsx:70-119 | Both lines add up over the months to the sums over all rows |
| LegacyChartsPage.Ranking | src/pages/ChartsPage/ChartsPage.jsx:121-131 | The per-name sums of raw values, as a permutation, largest first, with entries of equal sum in order of first appearance |
| LegacyChartsPage.RankingEntries | src/pages/ChartsPage/ChartsPage.jsx:121-131 | Every entry holds the sum of its name's rows, and every non-empty name of the rows is ranked |
| LegacyChartsPage.RankingTotal | src/pages/ChartsPage/ChartsPage.jsx:133-135 | The total is the sum of the values of all named rows |
| Calendar.FromMonthIndex | frontend/src/pages/ChartsPage/ChartsPage.jsx:69-73 | `new Date(y, m, 1)` with an out-of-range month lands on the month of that index |
| Calendar.MonthIndexInjective | frontend/src/pages/ChartsPage/ChartsPage.jsx:69-73 | Different months have different indices |
| Calendar.MonthsBefore | frontend/src/pages/ChartsPage/ChartsPage.jsx:69-73 | Going k months back lowers the month index by k, and 0 months back is the current month |
| Calendar.NotBeforeIff | frontend/src/pages/ChartsPage/ChartsPage.jsx:105-108 | The year-then-month test is index order |
| Calendar.InRangeIff | frontend/src/pages/ChartsPage/ChartsPage.jsx:105-112 | A month lies in the range iff its index lies between the bounds' indices |
| Calendar.DayOrdinalOrder | src/components/ChartsSummary/ChartsSummary.jsx:60-61 | A date is on or after the cutoff iff its day number is not smaller, so the test is year, then month, then day order |
| Calendar.DateNotBefore | src/components/ChartsSummary/ChartsSummary.jsx:60-61 | A date is on or after the cutoff iff its month is later, or it is the same month and its day is not earlier |
| Calendar.DaysIn | src/components/ChartsSummary/ChartsSummary.jsx:60-61 | A month has 28 to 31 days: February 29 in a Gregorian leap year and 28 otherwise, April, June, September and November 30 |
| Calendar.OnDay | src/components/ChartsSummary/ChartsSummary.jsx:60-61 | `Date` with a day of the month 1 to 31 gives a real date: that day when the month has it, and otherwise the day past the month's end in the next month |
| Calendar.Decimal | frontend/src/pages/ChartsPage/ChartsPage.jsx:65 | `String(n)` of a non-negative number is a non-empty string of digits |
| Calendar.DecimalRoundTrip | frontend/src/pages/ChartsPage/ChartsPage.jsx:65-103 | `Number` of a decimal rendering gives the number back |
| Calendar.Pad2 | frontend/src/pages/ChartsPage/ChartsPage.jsx:65-68 | `padStart(2, "0")` gives at least two characters, all digits |
| Calendar.Split | frontend/src/pages/ChartsPage/ChartsPage.jsx:103 | `split` always yields at least one part, the empty string giving [""] |
| Calendar.SplitNoSep | frontend/src/pages/ChartsPage/ChartsPage.jsx:103 | A string without the separator splits into itself alone |
| Calendar.SplitOnce | frontend/src/pages/ChartsPage/ChartsPage.jsx:103 | Two separator-free strings joined by one separator split back into those two strings |
| Calendar.ParseMonthInput | frontend/src/pages/ChartsPage/ChartsPage.jsx:103 | A string without a dash gives no year and month, and a parsed year and month are never negative |
| Calendar.FormatMonthInput | frontend/src/pages/ChartsPage/ChartsPage.jsx:74-76 | The "YYYY-MM" string contains the dash that the filter splits on |
| Calendar.MonthInputRoundTrip | frontend/src/pages/ChartsPage/ChartsPage.jsx:74-104 | Reading a formatted month input back with `split("-").map(Number)` gives the year and month |
| Text.LowerChar | frontend/src/pages/TaggingRulesPage/TaggingRulesPage.jsx:61 | Maps A-Z to a-z and leaves every other character alone |
| Text.ToLower | frontend/src/pages/TaggingRulesPage/TaggingRulesPage.jsx:61 | Lower-cases each character and keeps the length |
| Text.TrimStart | frontend/src/pages/TaggingRulesPage/TaggingRulesPage.jsx:61 | The longest suffix not starting with white space |
| Text.TrimEnd | frontend/src/pages/TaggingRulesPage/TaggingRulesPage.jsx:61 | A prefix not ending with white space, after which the input holds only white space |
| Text.Trim | frontend/src/pages/TaggingRulesPage/TaggingRulesPage.jsx:61-91 | The trim of the input: a substring with no white space at either end, with only white space before and after it |
| Text.TrimUnique | frontend/src/pages/TaggingRulesPage/TaggingRulesPage.jsx:61 | A string with those properties is the trim, so the trim is unique |
| Text.TrimIdempotent | frontend/src/pages/TaggingRulesPage/TaggingRulesPage.jsx:61 | Trimming twice equals trimming once |
| Text.ToLowerIdempotent | frontend/src/pages/TaggingRulesPage/TaggingRulesPage.jsx:61 | Lower-casing twice equals lower-casing once |
| Text.IncludesIff | frontend/src/pages/TaggingRulesPage/TaggingRulesPage.jsx:65-81 | `includes` holds exactly when the pattern occurs at some position |
| Text.IncludesEmpty | frontend/src/components/TransactionBox/TransactionBox.jsx:29-32 | The empty string is included in every string |
| Text.Compare | frontend/src/pages/ChartsPage/ChartsPage.jsx:217 | The comparison is zero exactly on equal strings, and otherwise -1 or 1 |
| Text.CompareAntisymmetric | frontend/src/pages/ChartsPage/ChartsPage.jsx:217 | Swapping the arguments negates the comparison |
| Text.CompareTransitive | frontend/src/pages/ChartsPage/ChartsPage.jsx:217 | The comparison is transitive |
| Ordering.LeTotal | frontend/src/components/TransactionBox/TransactionBox.jsx:40-58 | Any two keys are ordered one way or the other |
| Ordering.LeTransitive | frontend/src/components/TransactionBox/TransactionBox.jsx:40-58 | The key order is transitive |
| Ordering.DescReversesAsc | frontend/src/components/TransactionBox/TransactionBox.jsx:57 | `-cmp` reverses the ascending order |
| Ordering.SortBy | frontend/src/components/TransactionBox/TransactionBox.jsx:40-58 | The sorted sequence is a permutation of the input, ordered by the key in the chosen direction, and elements of equal key keep their input order |
| Ordering.WithKey | frontend/src/components/TransactionBox/TransactionBox.jsx:40-58 | The elements with one key, in order: at most the input's length, all with that key |
| Ordering.InsertStable | frontend/src/components/TransactionBox/TransactionBox.jsx:40-58 | Inserting an element puts it after the elements of equal key, and leaves the order of every other key as it was |
| Ordering.SortByNoKeyKeepsOrder | frontend/src/pages/TaggingRulesPage/TaggingRulesPage.jsx:86-87 | A comparator that is always 0 keeps the order |
| Ordering.SortTwo | frontend/src/pages/TaggingRulesPage/TaggingRulesPage.jsx:86-110 | Two rows end up in the given order exactly when the first may precede the second under the comparator, and swapped otherwise |
| Collections.IndexOf | frontend/src/pages/BatchReviewPage/BatchReviewPage.jsx:36-43 | The position of the first occurrence |
| Collections.DistinctOrder | frontend/src/pages/BatchReviewPage/BatchReviewPage.jsx:36-43 | Removing duplicates lists the values in the order of their first occurrence |
| Collections.FilterIndexOrder | frontend/src/pages/BatchReviewPage/BatchReviewPage.jsx:36-43 | A filter keeps the first-occurrence order of the values it keeps |
| Grouping.TallyKeys | frontend/src/pages/ChartsPage/ChartsPage.jsx:200-208 | The dictionary's keys are the distinct row keys, in order of first appearance |
| Grouping.TallyGet | frontend/src/components/ChartsSummary/ChartsSummary.jsx:133 | A key of some row holds the sum of the amounts of its rows; any other key is absent |
| Grouping.TallyGetOrZero | frontend/src/components/ChartsSummary/ChartsSummary.jsx:151-154 | `grouped[k] \|\| 0` is the sum of the amounts of k's rows, which is 0 without rows |
| Grouping.TallyTotal | frontend/src/pages/ChartsPage/ChartsPage.jsx:259-261 | The entries add up to the sum over all rows |
| Grouping.TotalPermutation | frontend/src/pages/ChartsPage/ChartsPage.jsx:401-427 | Reordering the entries does not change their total |
| Ledger.Abs | frontend/src/pages/ChartsPage/ChartsPage.jsx:148 | `Math.abs`: non-negative, and equal to the value or its negation |

## Left out

- The server, the API client, authentication, routing, and every page outside the core (forms, detail boxes, navigation). Requests are modelled by the reply they get, as a parameter.
- Loading and deleting flags, alerts, console logging, CSS and chart styling (colours, tension, the bar colour palette).
- The clock: the current month and day are parameters. The time of day, time zones and daylight saving are not modelled. Dates are calendar days.
- Text.ToLower: only ASCII A-Z is lower-cased. Unicode case mapping is not modelled.
- Text.Compare: `localeCompare` and the default `Array.prototype.sort` order are both modelled as code-point order. Locale collation is not modelled.
- Ordering.SortBy: `Array.prototype.sort` is modelled as a stable insertion sort. Engines are stable since ECMAScript 2019; the comparator results the source builds are modelled through comparison keys.
- Calendar.FormatMonthInput: years below 0 are not formatted.
- Ledger.Transaction: values are exact integer cents. The source adds floating-point numbers, which can round: 0.1 + 0.2 exceeds 0.3 there, so a ranking tie can break differently and a total can differ from the model's exact sum in the last digits. The sum equalities (Charts.SeriesSum, ChartsPage.RankingTotal, TransactionBox.SelectAllTotal, TransactionBox.ToggleOnAdds, TransactionBox.ToggleOffSubtracts, MassEdit.DeleteSplitsValues, ChartsPage.MonthlyDataSums and their older-page counterparts) hold for exact sums only.
- LegacyChartsSummary.FilterByPeriod: the cutoff `new Date(new Date().setMonth(...))` keeps the current time of day, while a "YYYY-MM-DD" date parses as midnight UTC. So the source can drop a row dated on the cutoff day, which the model keeps; the model compares calendar days only.
- Calendar.OnDay: a day is at most 31, so an overflow reaches only the next month; `Date` of larger day counts is not needed here.
- JavaScript object key order for integer-like keys: the month keys ("jan. 2024", "YYYY-MM") are never integer-like, so their order is insertion order as modelled.
- ChartsPage.Ranking: a category or subcategory name is free text, and an integer-like name such as "2024" is listed first by `Object.entries`, in ascending numeric order. The model lists every name in insertion order, so the unsorted ranking and the order of ties after sorting can differ for such names.
- LegacyChartsPage.Ranking: the same integer-like name order of `Object.entries` is not modelled; it changes only the order of entries with equal sums.
- ChartsPage.RankingAsWritten: the entries it yields are modelled, but not how the sort orders an entry holding a string, for which the comparator gives NaN.
- TaggingRules.CreatedRuleTagsItsRow: the rule is created with the pattern as typed, and only a description already in key form is shown to be tagged. Whether the server lower-cases patterns is not part of this model; TaggingRules.CreatedRuleMissesCapitalisedRow shows the miss on the page's own matching.
- Calendar.ParseMonthInput: `Number()` of other syntaxes (white space, signs, exponents) is not read; only digit strings are. An `<input type="month">` produces nothing else.
- BatchReview.ConfidenceBucket: an undefined confidence is not modelled. The confidence is a real number.
- The refreshed transaction list the Import page hands to its parent after a confirmed import, the category and subcategory creation handlers, the rule "reapply" and "activate all" buttons, and the initial data fetches.
- MassEdit.ApplyEdit: the partial success of `Promise.all`, where some PUT requests succeed before one fails, is collapsed into one success flag. The optional `setTransactions` is taken as present.
- The fixed list of twelve transaction subtypes offered by the mass-edit panel, because it only fills a select.
- Legacy "Últimos 3 Meses" computes three months back from the current month, so it spans four months. This is the source's arithmetic and the model keeps it.
- Whether the rule preview request succeeds: the preview map is taken as given once requested.
- TaggingRules.BuildRuleMap: it builds the map read with own keys only. The guard `!ruleMap[desc]` as written also reads inherited members, so no rule is ever stored under "constructor" or "__proto__"; that loop is BuildRuleMapAsWritten, and its effect is in the findings.
- TaggingRules.RuleLabel: it gives the own-key label, "" for a row without a rule. As written, the comparator reads the inherited function member for "constructor" and "__proto__" and labels the row "/"; that label is RuleLabelAsWritten.
- TaggingRules.RuleLabelOfFirstMatch: it states the intended label, not the "/" the source gives a row whose key names an inherited member; the as-written label is RuleLabelAsWrittenOfFirstMatch, and the reordering it causes is InheritedLabelReordersSort.
- LegacyChartsSummary.CategoryBarsAsWritten: a null category and a missing one are both the absent reference, so the model draws one bar where the source's `Set` holds two values, `null` and `undefined`, and draws two.
- Ledger.Transaction: a description is assumed present. With a non-empty search, both transaction lists call `description.toLowerCase()` and throw on a row without one; the model has no such row, so it never shows that failure.

## Findings

| source | as written | input that shows it | evidently intended | confidence | as-written member | corrected member |
|---|---|---|---|---|---|---|
| frontend/src/pages/TaggingRulesPage/TaggingRulesPage.jsx:55-82 | `ruleMap` is an object literal, so `!!ruleMap[desc]` is true for inherited names such as "constructor" | a row with description "Constructor" and no rules | a row is tagged only when some rule matched it (an own key, or a `Map`) | medium; not executed | TaggingRules.ConstructorCountsAsTagged | TaggingRules.TaggedIffSomeRuleMatches |
| frontend/src/pages/TaggingRulesPage/TaggingRulesPage.jsx:68-107 | `!ruleMap[desc]` never stores a rule under an inherited name such as "constructor", and the sort comparator then reads the inherited function member, whose label is "/" | rows "Constructor" and "uber", no rules, sort by "Rule" ascending | a row without a matching rule is labelled "", so the two rows tie and keep their order | medium; not executed | TaggingRules.InheritedLabelReordersSort | TaggingRules.RuleLabelOfFirstMatch |
| src/pages/ChartsPage/ChartsPage.jsx:154-162 | the preset buttons set only the start input, leaving the end input at "2024-12" | in October 2026, on the initial inputs, click "Últimos 3 Meses" | the range from N months back to the current month, as the newer page does | high; not executed | LegacyChartsPage.ThreeMonthsPresetIn2026 | LegacyChartsPage.PresetCorrectedShowsRecentRows |
| src/components/MassEdit/MassEdit.jsx:189-194 | "Apply" is enabled while the placeholder "Select Category" is chosen, sending `category: ""` | select a row with a category and click the category "Apply" without choosing one | the button is disabled until a value is chosen, as the newer panel does | high; not executed | LegacyMassEdit.PlaceholderClearsCategory | LegacyMassEdit.PlaceholderIgnoredWhenDisabled |
| src/components/ChartsSummary/ChartsSummary.jsx:183-197 | bars are keyed by the `transaction.category` object, which `new Set` and `===` compare by reference | two rows whose populated category is the same category | one bar per category, holding the sum of its rows | medium; not executed | LegacyChartsSummary.SameCategoryTwoBars | LegacyChartsSummary.SharedCategoryOneBar |
| frontend/src/pages/ChartsPage/ChartsPage.jsx:200-208 | `ranking` is an object literal, so for an inherited name such as "constructor" `!ranking[name]` is false and `+=` joins a function's text and the amount into a string; for "__proto__" the entry is dropped | one outcome row whose category is named "constructor" (or "__proto__") | one numeric entry per category name, as an own key or a `Map` would give | medium; not executed | ChartsPage.ConstructorRankedAsString | ChartsPage.Ranking |
| src/pages/ChartsPage/ChartsPage.jsx:122-130 | the same object literal in the older page, with raw values | one row whose category is named "constructor" (or "__proto__") | one numeric entry per category name | medium; not executed | ChartsPage.ProtoRowDropped | LegacyChartsPage.Ranking |

=== FILE: batch_review.dfy ===
/** The batch review page: the staged rows of one import batch, the
    selection of pending rows with its header check box, the descriptions
    sent for a rule preview, and the confidence dot of every row. */
module BatchReview {
  import opened Collections
  import Selection
  import TaggingRules

  datatype ImportStatus = Pending | Imported | Duplicate | OtherStatus(name: string)

  /** A staged row; a missing description is "". */
  datatype StagedRow = StagedRow(tempId: string, description: string, status: ImportStatus, confidence: real)

  /** The page: the batch once loaded (`null` before, or when loading
      failed) and the selected tempIds. */
  datatype Review = Review(batch: Option<seq<StagedRow>>, selected: seq<string>)

  const Initial := Review(None, [])

  predicate IsPending(row: StagedRow) {
    row.status == Pending
  }

  function TempId(row: StagedRow): string {
    row.tempId
  }

  /** `pendingIds` is `filter` by status, then `map` to the tempId. */
  lemma {:induction false} PendingIdsAreFilteredIds(rows: seq<StagedRow>)
    ensures PendingIds(rows) == Map(Filter(rows, IsPending), TempId)
    decreases |rows|
  {
    if rows != [] {
      PendingIdsAreFilteredIds(rows[1..]);
      FilterCons(rows, IsPending);
      if IsPending(rows[0]) {
        MapCons(rows[0], Filter(rows[1..], IsPending), TempId);
      }
    }
  }

  /** The tempIds of the pending rows, in batch order. */
  function PendingIds(rows: seq<StagedRow>): (r: seq<string>)
    ensures |r| <= |rows|
    ensures forall id :: id in r <==> exists row :: row in rows && IsPending(row) && row.tempId == id
    ensures IsSubseq(r, Map(rows, (x: StagedRow) => x.tempId))
    decreases |rows|
  {
    if rows == [] then []
    else
      var rest := PendingIds(rows[1..]);
      assert forall row :: row in rows <==> row == rows[0] || row in rows[1..];
      assert Map(rows, (x: StagedRow) => x.tempId)[1..] == Map(rows[1..], (x: StagedRow) => x.tempId);
      if IsPending(rows[0]) then [rows[0].tempId] + rest
      else
        SubseqTail(rest, Map(rows, (x: StagedRow) => x.tempId));
        rest
  }

  /** `fetchBatch` succeeded: every pending row starts selected. */
  function Load(rows: seq<StagedRow>): (r: Review)
    ensures r.batch == Some(rows)
    ensures forall id :: id in r.selected <==> exists row :: row in rows && IsPending(row) && row.tempId == id
  {
    Review(Some(rows), PendingIds(rows))
  }

  /** "Select All": the pending rows again; nothing happens before the batch
      is there. */
  function SelectAll(v: Review): (r: Review)
    ensures r.batch == v.batch
    ensures v.batch.None? ==> r == v
    ensures v.batch.Some? ==> r == Load(v.batch.value)
  {
    match v.batch
    case None => v
    case Some(rows) => Review(v.batch, PendingIds(rows))
  }

  /** "Select None". */
  function SelectNone(v: Review): (r: Review)
    ensures r.batch == v.batch && r.selected == []
  {
    v.(selected := [])
  }

  /** A click on a row or on its check box: only a pending row toggles (the
      check box of any other row is disabled). */
  function ClickRow(v: Review, row: StagedRow): (r: Review)
    ensures r.batch == v.batch
    ensures !IsPending(row) ==> r == v
    ensures IsPending(row) ==> (row.tempId in r.selected <==> row.tempId !in v.selected)
    ensures forall id :: id != row.tempId ==> (id in r.selected <==> id in v.selected)
  {
    if IsPending(row) then v.(selected := Selection.Toggle(v.selected, row.tempId)) else v
  }

  /** The header check box is checked when as many rows are selected as are
      pending; for a duplicate-free selection of pending ids, that is when
      every pending row is selected. */
  function HeaderChecked(rows: seq<StagedRow>, selected: seq<string>): (r: bool)
    ensures NoDups(selected) && NoDups(PendingIds(rows)) && Selection.Within(selected, PendingIds(rows)) ==>
      (r <==> forall id :: id in PendingIds(rows) ==> id in selected)
  {
    SameSizeIffAll(selected, PendingIds(rows));
    |selected| == |PendingIds(rows)|
  }

  /** Checking the header selects all pending rows, unchecking selects none. */
  function HeaderChange(v: Review, checked: bool): (r: Review)
    ensures checked ==> r == SelectAll(v)
    ensures !checked ==> r == SelectNone(v)
  {
    if checked then SelectAll(v) else SelectNone(v)
  }

  /** The selection holds distinct pending tempIds of the loaded batch. */
  ghost predicate Valid(v: Review) {
    match v.batch
    case None => v.selected == []
    case Some(rows) => Selection.Within(v.selected, PendingIds(rows)) && NoDups(v.selected)
  }

  lemma InitialValid()
    ensures Valid(Initial)
  {
  }

  lemma LoadValid(rows: seq<StagedRow>)
    requires NoDups(PendingIds(rows))
    ensures Valid(Load(rows))
  {
  }

  lemma SelectAllValid(v: Review)
    requires Valid(v)
    requires v.batch.Some? ==> NoDups(PendingIds(v.batch.value))
    ensures Valid(SelectAll(v))
  {
  }

  lemma SelectNoneValid(v: Review)
    requires Valid(v)
    ensures Valid(SelectNone(v))
  {
  }

  /** Clicking any row of the batch keeps the selection valid. */
  lemma ClickRowValid(v: Review, row: StagedRow)
    requires Valid(v) && v.batch.Some? && row in v.batch.value
    ensures Valid(ClickRow(v, row))
  {
    if IsPending(row) {
      var rows := v.batch.value;
      assert row.tempId in PendingIds(rows);
      Selection.ToggleWithin(v.selected, row.tempId, PendingIds(rows));
      Selection.ToggleNoDups(v.selected, row.tempId);
    }
  }

  /** The elements of a duplicate-free sequence are as many as its length. */
  lemma {:induction false} CardinalityOfNoDups(s: seq<string>)
    requires NoDups(s)
    ensures |set x | x in s| == |s|
    decreases |s|
  {
    if s != [] {
      var t := s[1..];
      assert NoDups(t) by {
        forall i, j | 0 <= i < j < |t| ensures t[i] != t[j] {
          assert t[i] == s[i + 1] && t[j] == s[j + 1];
        }
      }
      CardinalityOfNoDups(t);
      assert s[0] !in t by {
        forall j | 0 <= j < |t| ensures t[j] != s[0] {
          assert t[j] == s[j + 1];
        }
      }
      assert (set x | x in s) == (set x | x in t) + {s[0]};
    }
  }

  /** A subset is no larger than the set. */
  lemma {:induction false} SubsetSize(a: set<string>, b: set<string>)
    requires a <= b
    ensures |a| <= |b|
    decreases |b|
  {
    if b != {} {
      var y :| y in b;
      SubsetSize(a - {y}, b - {y});
      assert |a| <= |a - {y}| + 1;
    }
  }

  /** A subset as large as the set is the set. */
  lemma SubsetOfSameSize(a: set<string>, b: set<string>)
    requires a <= b && |a| == |b|
    ensures a == b
  {
    if a != b {
      var x :| x in b && x !in a;
      SubsetSize(a, b - {x});
    }
  }

  /** On a valid page whose pending tempIds are distinct, the header is
      checked exactly when every pending row is selected. */
  lemma HeaderCheckedIffAllPendingSelected(v: Review)
    requires Valid(v) && v.batch.Some?
    requires NoDups(PendingIds(v.batch.value))
    ensures HeaderChecked(v.batch.value, v.selected) <==>
      forall id :: id in PendingIds(v.batch.value) ==> id in v.selected
  {
  }

  /** Two duplicate-free sequences, the first within the second, have the
      same length exactly when the second is within the first. */
  lemma SameSizeIffAll(selected: seq<string>, pending: seq<string>)
    ensures NoDups(selected) && NoDups(pending) && Selection.Within(selected, pending) ==>
      (|selected| == |pending| <==> forall id :: id in pending ==> id in selected)
  {
    if NoDups(selected) && NoDups(pending) && Selection.Within(selected, pending) {
      var a := set x | x in selected;
      var b := set x | x in pending;
      CardinalityOfNoDups(selected);
      CardinalityOfNoDups(pending);
      assert a <= b;
      if |selected| == |pending| {
        SubsetOfSameSize(a, b);
        assert forall id :: id in pending ==> id in b;
      }
      if forall id :: id in pending ==> id in selected {
        assert b <= a;
        assert a == b;
      }
    }
  }

  function Description(row: StagedRow): string {
    row.description
  }

  /** The descriptions sent for a rule preview: the distinct non-empty
      descriptions, in order of first appearance. */
  function PreviewDescriptions(rows: seq<StagedRow>): (r: seq<string>)
    ensures NoDups(r)
    ensures forall d :: d in r <==> d != "" && d in Map(rows, Description)
    ensures forall d :: d in r <==> d != "" && exists row :: row in rows && row.description == d
    ensures forall i, j :: 0 <= i < j < |r| ==>
      IndexOf(Map(rows, Description), r[i]) < IndexOf(Map(rows, Description), r[j])
  {
    var ds := Map(rows, Description);
    forall d ensures d in ds <==> exists row :: row in rows && row.description == d {
      MapMember(rows, Description, d);
    }
    var nonEmpty := (d: string) => d != "";
    var r := Distinct(Filter(ds, nonEmpty));
    DistinctOrder(Filter(ds, nonEmpty));
    forall i, j | 0 <= i < j < |r| ensures IndexOf(ds, r[i]) < IndexOf(ds, r[j]) {
      FilterIndexOrder(ds, nonEmpty, r[i], r[j]);
    }
    r
  }

  /** The preview is requested only when there is some description to send. */
  function PreviewRequest(rows: seq<StagedRow>): (r: Option<seq<string>>)
    ensures r.Some? <==> exists row :: row in rows && row.description != ""
    ensures r.Some? ==> r.value == PreviewDescriptions(rows)
  {
    var ds := PreviewDescriptions(rows);
    if |ds| > 0 then Some(ds)
    else
      assert forall row :: row in rows ==> row.description !in ds;
      None
  }

  /** The key a row looks its preview up under. */
  function PreviewKey(row: StagedRow): string {
    TaggingRules.DescriptionKey(row.description)
  }

  /** Every row with a description was sent, so its key is the key of a
      sent description. */
  lemma PreviewCoversRows(rows: seq<StagedRow>, row: StagedRow)
    requires row in rows && row.description != ""
    ensures exists d :: d in PreviewDescriptions(rows) && TaggingRules.DescriptionKey(d) == PreviewKey(row)
  {
    assert row.description in PreviewDescriptions(rows);
  }

  datatype Bucket = Low | Medium | High

  function BucketRank(b: Bucket): int {
    match b
    case Low => 0
    case Medium => 1
    case High => 2
  }

  /** The colour of the confidence dot. */
  function ConfidenceBucket(c: real): (b: Bucket)
    ensures b == High <==> c >= 0.9
    ensures b == Medium <==> 0.7 <= c < 0.9
    ensures b == Low <==> c < 0.7
  {
    if c >= 0.9 then High else if c >= 0.7 then Medium else Low
  }

  /** More confidence never gives a lower bucket. */
  lemma BucketMonotone(c1: real, c2: real)
    requires c1 <= c2
    ensures BucketRank(ConfidenceBucket(c1)) <= BucketRank(ConfidenceBucket(c2))
  {
  }
}

=== FILE: calendar.dfy ===
/** Months, dates and the month arithmetic the chart components do with
    `new Date(year, month - k, 1)`, plus the "YYYY-MM" strings of an
    `<input type="month">`. */
module Calendar {
  import opened Collections

  type Month = m: int | 1 <= m <= 12 witness 1
  type Day = d: int | 1 <= d <= 31 witness 1

  /** A calendar month, as `getFullYear()` and `getMonth() + 1` give it. */
  datatype YearMonth = YearMonth(year: int, month: Month)

  /** A calendar day in local time; the time of day is not modelled. */
  datatype Date = Date(year: int, month: Month, day: Day) {
    function Ym(): YearMonth {
      YearMonth(year, month)
    }
  }

  /** Months since January of year 0. */
  function MonthIndex(ym: YearMonth): int {
    ym.year * 12 + (ym.month - 1)
  }

  /** The month with the given index; `Date` normalises an out-of-range
      month into the neighbouring years the same way. */
  function FromMonthIndex(n: int): (r: YearMonth)
    ensures MonthIndex(r) == n
  {
    YearMonth(n / 12, n % 12 + 1)
  }

  lemma MonthIndexInjective(a: YearMonth, b: YearMonth)
    requires MonthIndex(a) == MonthIndex(b)
    ensures a == b
  {
  }

  /** `new Date(now.getFullYear(), now.getMonth() - k, 1)`, as a month. */
  function MonthsBefore(now: YearMonth, k: int): (r: YearMonth)
    ensures MonthIndex(r) == MonthIndex(now) - k
    ensures k == 0 ==> r == now
  {
    var r := FromMonthIndex(MonthIndex(now) - k);
    if k == 0 then MonthIndexInjective(r, now); r else r
  }

  /** `y > startYear || (y === startYear && m >= startMonth)`. */
  predicate NotBefore(ym: YearMonth, start: YearMonth) {
    ym.year > start.year || (ym.year == start.year && ym.month >= start.month)
  }

  /** `y < endYear || (y === endYear && m <= endMonth)`. */
  predicate NotAfter(ym: YearMonth, end: YearMonth) {
    ym.year < end.year || (ym.year == end.year && ym.month <= end.month)
  }

  /** The inclusive month-range test of the chart filters. */
  predicate InRange(ym: YearMonth, start: YearMonth, end: YearMonth) {
    NotBefore(ym, start) && NotAfter(ym, end)
  }

  /** The year/month comparison is the order of month indices. */
  lemma NotBeforeIff(ym: YearMonth, start: YearMonth)
    ensures NotBefore(ym, start) <==> MonthIndex(start) <= MonthIndex(ym)
  {
    if ym.year > start.year {
      assert start.year * 12 + 12 <= ym.year * 12;
    } else if ym.year < start.year {
      assert ym.year * 12 + 12 <= start.year * 12;
    }
  }

  lemma InRangeIff(ym: YearMonth, start: YearMonth, end: YearMonth)
    ensures InRange(ym, start, end) <==> MonthIndex(start) <= MonthIndex(ym) <= MonthIndex(end)
  {
    NotBeforeIff(ym, start);
    NotBeforeIff(end, ym);
  }

  /** A leap year of the Gregorian calendar. */
  predicate LeapYear(year: int) {
    year % 4 == 0 && (year % 100 != 0 || year % 400 == 0)
  }

  /** The number of days of a month. */
  function DaysIn(ym: YearMonth): (n: int)
    ensures 28 <= n <= 31
    ensures ym.month == 2 ==> (n == 29 <==> LeapYear(ym.year))
    ensures ym.month != 2 ==> (n == 30 <==> ym.month in {4, 6, 9, 11})
  {
    if ym.month == 2 then (if LeapYear(ym.year) then 29 else 28)
    else if ym.month in {4, 6, 9, 11} then 30
    else 31
  }

  /** A date whose day lies within its month. */
  predicate IsRealDate(d: Date) {
    d.day <= DaysIn(d.Ym())
  }

  /** The date `Date` makes of day `day` of month `ym`: that day when the
      month has it, otherwise the days past the month's end counted on into
      the next month. */
  function OnDay(ym: YearMonth, day: Day): (r: Date)
    ensures IsRealDate(r)
    ensures day <= DaysIn(ym) ==> r.Ym() == ym && r.day == day
    ensures day > DaysIn(ym) ==> MonthIndex(r.Ym()) == MonthIndex(ym) + 1 && DaysIn(ym) + r.day == day
  {
    if day <= DaysIn(ym) then Date(ym.year, ym.month, day)
    else
      var next := MonthsBefore(ym, -1);
      Date(next.year, next.month, day - DaysIn(ym))
  }

  /** Day-level order of two dates: `d` falls on the day of `cutoff` or
      later, that is in a later month or on a day not before it in the same
      month. */
  function DateNotBefore(d: Date, cutoff: Date): (r: bool)
    ensures r <==> MonthIndex(cutoff.Ym()) < MonthIndex(d.Ym()) || (d.Ym() == cutoff.Ym() && cutoff.day <= d.day)
  {
    NotBeforeIff(d.Ym(), cutoff.Ym());
    NotBeforeIff(cutoff.Ym(), d.Ym());
    || d.year > cutoff.year
    || (d.year == cutoff.year && d.month > cutoff.month)
    || (d.year == cutoff.year && d.month == cutoff.month && d.day >= cutoff.day)
  }

  /** Days since the start of year 0, counting every month as 31 days: it
      orders dates exactly as the calendar does. */
  function DayOrdinal(d: Date): int {
    MonthIndex(d.Ym()) * 31 + (d.day - 1)
  }

  lemma DayOrdinalOrder(d: Date, cutoff: Date)
    ensures DateNotBefore(d, cutoff) <==> DayOrdinal(cutoff) <= DayOrdinal(d)
  {
    NotBeforeIff(d.Ym(), cutoff.Ym());
    var a, b := MonthIndex(d.Ym()), MonthIndex(cutoff.Ym());
    if a < b {
      assert a * 31 + 31 <= b * 31;
    } else if a > b {
      assert b * 31 + 31 <= a * 31;
    } else {
      MonthIndexInjective(d.Ym(), cutoff.Ym());
    }
  }

  // ---------------------------------------------------------------------
  // "YYYY-MM" strings: `${year}-${String(month).padStart(2, "0")}` and
  // `s.split("-").map(Number)`.

  function DigitChar(d: int): char
    requires 0 <= d <= 9
  {
    "0123456789"[d]
  }

  predicate IsDigit(c: char) {
    '0' <= c <= '9'
  }

  function DigitValue(c: char): int
    requires IsDigit(c)
  {
    c as int - '0' as int
  }

  /** `String(n)` for a non-negative integer. */
  function Decimal(n: nat): (r: string)
    ensures |r| > 0
    ensures forall i :: 0 <= i < |r| ==> IsDigit(r[i])
  {
    if n < 10 then [DigitChar(n)] else Decimal(n / 10) + [DigitChar(n % 10)]
  }

  /** `Number(s)` for a non-empty string of digits. */
  function DecimalValue(s: string): nat
    requires forall i :: 0 <= i < |s| ==> IsDigit(s[i])
  {
    if s == [] then 0 else DecimalValue(s[..|s| - 1]) * 10 + DigitValue(s[|s| - 1])
  }

  lemma {:induction false} DecimalRoundTrip(n: nat)
    ensures DecimalValue(Decimal(n)) == n
  {
    if n >= 10 {
      DecimalRoundTrip(n / 10);
      var s := Decimal(n);
      assert s[..|s| - 1] == Decimal(n / 10);
    }
  }

  /** `String(m).padStart(2, "0")`. */
  function Pad2(m: nat): (r: string)
    ensures |r| >= 2
    ensures forall i :: 0 <= i < |r| ==> IsDigit(r[i])
  {
    if m < 10 then "0" + Decimal(m) else Decimal(m)
  }

  /** `s.split(sep)`. */
  function Split(s: string, sep: char): (r: seq<string>)
    ensures |r| >= 1
    decreases |s|
  {
    if s == [] then [""]
    else
      var rest := Split(s[1..], sep);
      if s[0] == sep then [""] + rest else [[s[0]] + rest[0]] + rest[1..]
  }

  lemma {:induction false} SplitNoSep(s: string, sep: char)
    requires sep !in s
    ensures Split(s, sep) == [s]
    decreases |s|
  {
    if s != [] {
      SplitNoSep(s[1..], sep);
      assert s == [s[0]] + s[1..];
    }
  }

  lemma {:induction false} SplitOnce(a: string, b: string, sep: char)
    requires sep !in a && sep !in b
    ensures Split(a + [sep] + b, sep) == [a, b]
    decreases |a|
  {
    if a == [] {
      assert a + [sep] + b == [sep] + b;
      assert ([sep] + b)[1..] == b;
      SplitNoSep(b, sep);
    } else {
      SplitOnce(a[1..], b, sep);
      assert (a + [sep] + b)[1..] == a[1..] + [sep] + b;
      assert [a[0]] + a[1..] == a;
    }
  }

  /** The value of an `<input type="month">` for a month of a year >= 0. */
  function FormatMonthInput(ym: YearMonth): (r: string)
    requires ym.year >= 0
    ensures '-' in r
  {
    var r := Decimal(ym.year) + "-" + Pad2(ym.month);
    assert r[|Decimal(ym.year)|] == '-';
    r
  }

  /** `const [y, m] = s.split("-").map(Number)`, for two parts made of digits;
      anything else is `None`. */
  function ParseMonthInput(s: string): (r: Option<(int, int)>)
    ensures '-' !in s ==> r.None?
    ensures r.Some? ==> r.value.0 >= 0 && r.value.1 >= 0
  {
    NoDashOnePart(s);
    var parts := Split(s, '-');
    if |parts| >= 2 && parts[0] != [] && parts[1] != []
       && (forall i :: 0 <= i < |parts[0]| ==> IsDigit(parts[0][i]))
       && (forall i :: 0 <= i < |parts[1]| ==> IsDigit(parts[1][i]))
    then Some((DecimalValue(parts[0]), DecimalValue(parts[1])))
    else None
  }

  /** Without a dash there is one part, so `m` is `undefined`. */
  lemma NoDashOnePart(s: string)
    ensures '-' !in s ==> Split(s, '-') == [s]
  {
    if '-' !in s {
      SplitNoSep(s, '-');
    }
  }

  lemma DigitsHaveNoDash(s: string)
    requires forall i :: 0 <= i < |s| ==> IsDigit(s[i])
    ensures '-' !in s
  {
  }

  /** Reading back a formatted month input gives the year and month. */
  lemma MonthInputRoundTrip(ym: YearMonth)
    requires ym.year >= 0
    ensures ParseMonthInput(FormatMonthInput(ym)) == Some((ym.year, ym.month))
  {
    var y, m := Decimal(ym.year), Pad2(ym.month);
    DigitsHaveNoDash(y);
    DigitsHaveNoDash(m);
    assert FormatMonthInput(ym) == y + ['-'] + m;
    SplitOnce(y, m, '-');
    DecimalRoundTrip(ym.year);
    DecimalRoundTrip(ym.month);
    if ym.month < 10 {
      assert m == "0" + Decimal(ym.month);
      LeadingZero(Decimal(ym.month));
    }
  }

  /** A leading zero does not change the value of a digit string. */
  lemma {:induction false} LeadingZero(s: string)
    requires forall i :: 0 <= i < |s| ==> IsDigit(s[i])
    ensures DecimalValue("0" + s) == DecimalValue(s)
    decreases |s|
  {
    if s != [] {
      var t := "0" + s;
      assert t[..|t| - 1] == "0" + s[..|s| - 1];
      LeadingZero(s[..|s| - 1]);
    }
  }
}

=== FILE: charts.dfy ===
/** What the chart components share: the month range picked with two
    `<input type="month">` fields and the "last N months" presets, the
    month axis built from the rows, and the per-month series read from a
    running-sum dictionary. A month label ("YYYY-MM", or "mmm. YYYY") is
    represented by its `YearMonth`; both label formats encode the month
    one-to-one and their comparators order by year, then month. */
module Charts {
  import opened Collections
  import Ordering
  import Calendar
  import Ledger
  import Grouping

  type Transaction = Ledger.Transaction
  type YearMonth = Calendar.YearMonth

  /** The month a row falls in. */
  function MonthOf(t: Transaction): YearMonth {
    t.date.Ym()
  }

  /** An inclusive month range; a bound is `None` while its input is empty. */
  datatype Range = Range(start: Option<YearMonth>, end: Option<YearMonth>)

  /** `setPresetRange(monthsBack)`: from `monthsBack` months ago to the
      current month. */
  function Preset(now: YearMonth, monthsBack: int): (r: Range)
    ensures r.start.Some? && r.end == Some(now)
    ensures Calendar.MonthIndex(r.start.value) == Calendar.MonthIndex(now) - monthsBack
  {
    Range(Some(Calendar.MonthsBefore(now, monthsBack)), Some(now))
  }

  /** `getDefaultMonthRange()`: the last twelve months, this one included. */
  function DefaultRange(now: YearMonth): Range {
    Preset(now, 11)
  }

  /** The `monthsBack` of the "3 months", "6 months" and "1 year" presets. */
  const PresetMonthsBack: seq<int> := [2, 5, 11]

  /** A preset spans `monthsBack + 1` months ending with the current one. */
  lemma PresetSpan(now: YearMonth, monthsBack: int, ym: YearMonth)
    ensures var r := Preset(now, monthsBack);
      Calendar.InRange(ym, r.start.value, r.end.value) <==>
      Calendar.MonthIndex(now) - monthsBack <= Calendar.MonthIndex(ym) <= Calendar.MonthIndex(now)
  {
    var r := Preset(now, monthsBack);
    Calendar.InRangeIff(ym, r.start.value, now);
  }

  /** The row's month lies within both bounds. */
  predicate InRange(t: Transaction, start: YearMonth, end: YearMonth) {
    Calendar.InRange(MonthOf(t), start, end)
  }

  function RowsInRange(rows: seq<Transaction>, start: YearMonth, end: YearMonth): (r: seq<Transaction>)
    ensures IsSubseq(r, rows)
    ensures forall t :: t in r <==> t in rows && InRange(t, start, end)
    ensures forall t :: multiset(r)[t] == if InRange(t, start, end) then multiset(rows)[t] else 0
  {
    var keep := (t: Transaction) => InRange(t, start, end);
    FilterSubseq(rows, keep);
    Filter(rows, keep)
  }

  // ---------------------------------------------------------------------
  // The month axis

  /** Months compare by year, then month. */
  function MonthKey(ym: YearMonth): Ordering.Key {
    Ordering.PairKey(ym.year, ym.month)
  }

  /** The distinct months of the rows, earliest first. */
  function SortedMonths(rows: seq<Transaction>): (r: seq<YearMonth>)
    ensures NoDups(r)
    ensures forall m :: m in r <==> exists t :: t in rows && MonthOf(t) == m
    ensures forall i, j :: 0 <= i < j < |r| ==> Calendar.MonthIndex(r[i]) < Calendar.MonthIndex(r[j])
  {
    var months := Map(rows, MonthOf);
    var distinct := Distinct(months);
    var r := Ordering.SortBy(distinct, MonthKey, Ordering.Asc);
    NoDupsPermutation(distinct, r);
    forall m ensures m in r <==> exists t :: t in rows && MonthOf(t) == m {
      assert m in r <==> m in multiset(r);
      MapMember(rows, MonthOf, m);
    }
    forall i, j | 0 <= i < j < |r| ensures Calendar.MonthIndex(r[i]) < Calendar.MonthIndex(r[j]) {
      assert Ordering.Le(Ordering.Asc, MonthKey(r[i]), MonthKey(r[j]));
      MonthKeyOrder(r[i], r[j]);
    }
    r
  }

  /** Ascending month keys of different months mean an earlier month. */
  lemma MonthKeyOrder(a: YearMonth, b: YearMonth)
    requires a != b && Ordering.Le(Ordering.Asc, MonthKey(a), MonthKey(b))
    ensures Calendar.MonthIndex(a) < Calendar.MonthIndex(b)
  {
    if a.year < b.year {
      assert a.year * 12 + 12 <= b.year * 12;
    }
  }

  // ---------------------------------------------------------------------
  // Per-month series

  /** The dictionary `grouped[month] = (grouped[month] || 0) + amount`. */
  function ByMonth(rows: seq<Transaction>, amount: Transaction -> int): Grouping.Entries<YearMonth> {
    Grouping.Tally(rows, MonthOf, amount)
  }

  /** The sum of `amount` over the rows of month `m`. */
  function MonthSum(rows: seq<Transaction>, amount: Transaction -> int, m: YearMonth): int {
    Grouping.SumWhere(rows, MonthOf, amount, m)
  }

  /** `labels.map(label => grouped[label] || 0)`: each point is the sum of
      its month, zero for a month without rows. */
  function Series(rows: seq<Transaction>, amount: Transaction -> int, labels: seq<YearMonth>): (r: seq<int>)
    ensures |r| == |labels|
    ensures forall i :: 0 <= i < |labels| ==> r[i] == MonthSum(rows, amount, labels[i])
  {
    var t := ByMonth(rows, amount);
    forall i | 0 <= i < |labels| ensures Grouping.GetOrZero(t, labels[i]) == MonthSum(rows, amount, labels[i]) {
      Grouping.TallyGetOrZero(rows, MonthOf, amount, labels[i]);
    }
    Map(labels, m => Grouping.GetOrZero(t, m))
  }

  /** Along an axis holding every month of the rows once, the series adds
      up to the sum over all rows. */
  lemma SeriesSum(rows: seq<Transaction>, amount: Transaction -> int, labels: seq<YearMonth>)
    requires NoDups(labels)
    requires forall t :: t in rows ==> MonthOf(t) in labels
    ensures SumOver(Series(rows, amount, labels), (x: int) => x) == Grouping.SumAll(rows, amount)
  {
    var f := k => Grouping.SumWhere(rows, MonthOf, amount, k);
    assert Series(rows, amount, labels) == Map(labels, f);
    SumOverMap(labels, f, (x: int) => x, f);
    Grouping.SumOverCoveringKeys(rows, MonthOf, amount, labels);
  }

  /** The months of a subset of the rows lie on the axis of all rows. */
  lemma SubsetOnAxis(rows: seq<Transaction>, sub: seq<Transaction>)
    requires forall t :: t in sub ==> t in rows
    ensures forall t :: t in sub ==> MonthOf(t) in SortedMonths(rows)
  {
  }

  /** `Math.abs(t.value)`. */
  function AbsValue(t: Transaction): (r: int)
    ensures r >= 0
  {
    Ledger.Abs(t.value)
  }

  /** `t.value`. */
  function RawValue(t: Transaction): int {
    t.value
  }
}

=== FILE: charts_page.dfy ===
/** The charts page: spending per month against the spending of one chosen
    category, and a ranking of categories by spending with a sortable table
    and its total, over a month range chosen with two inputs or a preset. */
module ChartsPage {
  import opened Collections
  import Text
  import Ordering
  import Calendar
  import Ledger
  import Grouping
  import Charts

  type Transaction = Ledger.Transaction
  type YearMonth = Calendar.YearMonth

  /** The month filter: a row is kept when its month lies in the range, and
      no row at all is kept while either input is empty. */
  function MonthFilter(rows: seq<Transaction>, range: Charts.Range): (r: seq<Transaction>)
    ensures IsSubseq(r, rows)
    ensures forall t :: t in r <==>
      && range.start.Some? && range.end.Some?
      && t in rows && Charts.InRange(t, range.start.value, range.end.value)
    ensures forall t :: multiset(r)[t] == if range.start.Some? && range.end.Some? && Charts.InRange(t, range.start.value, range.end.value)
                                         then multiset(rows)[t] else 0
  {
    if range.start.Some? && range.end.Some? then Charts.RowsInRange(rows, range.start.value, range.end.value)
    else []
  }

  /** A preset keeps every row of the current month and of the `monthsBack`
      months before it, and nothing else. */
  lemma PresetKeepsRecentMonths(rows: seq<Transaction>, now: YearMonth, monthsBack: int, t: Transaction)
    ensures t in MonthFilter(rows, Charts.Preset(now, monthsBack)) <==>
      t in rows && Calendar.MonthIndex(now) - monthsBack <= Calendar.MonthIndex(Charts.MonthOf(t)) <= Calendar.MonthIndex(now)
  {
    Charts.PresetSpan(now, monthsBack, Charts.MonthOf(t));
  }

  /** `spendingTransactions`: the outcome rows of the range. */
  function Spending(filtered: seq<Transaction>): (r: seq<Transaction>)
    ensures IsSubseq(r, filtered)
    ensures forall t :: t in r <==> t in filtered && t.macrotype == Ledger.Outcome
    ensures forall t :: multiset(r)[t] == if t.macrotype == Ledger.Outcome then multiset(filtered)[t] else 0
  {
    var keep := (t: Transaction) => t.macrotype == Ledger.Outcome;
    FilterSubseq(filtered, keep);
    Filter(filtered, keep)
  }

  // ---------------------------------------------------------------------
  // Monthly data

  /** The second line follows either the selected category or the selected
      subcategory. */
  datatype LineType = CategoryLine | SubcategoryLine

  /** `transaction.category?.name === selectedCategory` (or the subcategory
      counterpart): only a populated reference has a name to compare. */
  predicate Matches(line: LineType, selected: string, t: Transaction) {
    match line
    case CategoryLine => t.category.Named? && t.category.name == selected
    case SubcategoryLine => t.subcategory.Named? && t.subcategory.name == selected
  }

  /** What a row adds to `typeTotal`: its absolute value when it matches. */
  function TypeAmount(line: LineType, selected: string): Transaction -> int {
    t => if Matches(line, selected, t) then Ledger.Abs(t.value) else 0
  }

  /** The chart's labels and its two datasets. */
  datatype MonthlyData = MonthlyData(labels: seq<YearMonth>, total: seq<int>, typeTotal: seq<int>)

  /** `processMonthlyData`: no rows give an empty chart; otherwise each month
      of the rows, earliest first, with the absolute values of all its rows
      and of its matching rows. */
  function ProcessMonthlyData(filtered: seq<Transaction>, line: LineType, selected: string): (r: MonthlyData)
    ensures filtered == [] ==> r == MonthlyData([], [], [])
    ensures |r.total| == |r.labels| && |r.typeTotal| == |r.labels|
    ensures NoDups(r.labels)
    ensures forall m :: m in r.labels <==> exists t :: t in filtered && Charts.MonthOf(t) == m
    ensures forall i, j :: 0 <= i < j < |r.labels| ==> Calendar.MonthIndex(r.labels[i]) < Calendar.MonthIndex(r.labels[j])
    ensures forall i :: 0 <= i < |r.labels| ==> r.total[i] == Charts.MonthSum(filtered, Charts.AbsValue, r.labels[i])
    ensures forall i :: 0 <= i < |r.labels| ==>
      r.typeTotal[i] == Charts.MonthSum(filtered, TypeAmount(line, selected), r.labels[i])
  {
    if filtered == [] then MonthlyData([], [], [])
    else
      var labels := Charts.SortedMonths(filtered);
      MonthlyData(labels, Charts.Series(filtered, Charts.AbsValue, labels),
                  Charts.Series(filtered, TypeAmount(line, selected), labels))
  }

  /** The selected category's line never rises above the total line, and
      neither goes below zero. */
  lemma TypeTotalWithinTotal(filtered: seq<Transaction>, line: LineType, selected: string)
    ensures var r := ProcessMonthlyData(filtered, line, selected);
      forall i :: 0 <= i < |r.labels| ==> 0 <= r.typeTotal[i] <= r.total[i]
  {
    var r := ProcessMonthlyData(filtered, line, selected);
    var zero := (t: Transaction) => 0;
    forall i | 0 <= i < |r.labels| ensures 0 <= r.typeTotal[i] <= r.total[i] {
      Grouping.SumWhereMonotone(filtered, Charts.MonthOf, zero, TypeAmount(line, selected), r.labels[i]);
      Grouping.SumWhereMonotone(filtered, Charts.MonthOf, TypeAmount(line, selected), Charts.AbsValue, r.labels[i]);
      Grouping.SumWhereZero(filtered, Charts.MonthOf, zero, r.labels[i]);
    }
  }

  /** Both lines add up over the months to the sums over all rows. */
  lemma MonthlyDataSums(filtered: seq<Transaction>, line: LineType, selected: string)
    ensures var r := ProcessMonthlyData(filtered, line, selected);
      && SumOver(r.total, (x: int) => x) == Grouping.SumAll(filtered, Charts.AbsValue)
      && SumOver(r.typeTotal, (x: int) => x) == Grouping.SumAll(filtered, TypeAmount(line, selected))
  {
    if filtered != [] {
      var labels := Charts.SortedMonths(filtered);
      Charts.SeriesSum(filtered, Charts.AbsValue, labels);
      Charts.SeriesSum(filtered, TypeAmount(line, selected), labels);
    }
  }

  // ---------------------------------------------------------------------
  // The ranking

  /** The ranking groups by `transaction.category?.name` or by
      `transaction.subcategory?.name`. */
  datatype Field = CategoryField | SubcategoryField

  function NameOf(field: Field): Transaction -> string {
    (t: Transaction) => if field == CategoryField then Ledger.RefName(t.category) else Ledger.RefName(t.subcategory)
  }

  /** The rows `generateRanking` counts: those with a non-empty name. */
  function NamedRows(filtered: seq<Transaction>, field: Field): (r: seq<Transaction>)
    ensures forall t :: t in r <==> t in filtered && NameOf(field)(t) != ""
    ensures IsSubseq(r, filtered)
    ensures forall t :: multiset(r)[t] == if NameOf(field)(t) != "" then multiset(filtered)[t] else 0
  {
    FilterSubseq(filtered, t => NameOf(field)(t) != "");
    Filter(filtered, t => NameOf(field)(t) != "")
  }

  /** `generateRanking`: the entries `[name, total]` of the ranking object,
      one per name in order of first appearance, each with the `amount` of
      its rows added up (`Math.abs(transaction.value)` on this page). */
  function Ranking(filtered: seq<Transaction>, field: Field, amount: Transaction -> int): (r: Grouping.Entries<string>)
    ensures NoDups(Grouping.Keys(r))
    ensures forall n :: n in Grouping.Keys(r) <==> n != "" && exists t :: t in filtered && NameOf(field)(t) == n
    ensures forall i :: 0 <= i < |r| ==>
      r[i].1 == Grouping.SumWhere(NamedRows(filtered, field), NameOf(field), amount, r[i].0)
  {
    var named := NamedRows(filtered, field);
    var r := Grouping.Tally(named, NameOf(field), amount);
    Grouping.TallyKeys(named, NameOf(field), amount);
    Grouping.TallyEntries(named, NameOf(field), amount);
    forall n ensures n in Grouping.Keys(r) <==> n in Map(named, NameOf(field)) {
    }
    forall n ensures n in Map(named, NameOf(field)) <==> n != "" && exists t :: t in filtered && NameOf(field)(t) == n {
      MapMember(named, NameOf(field), n);
    }
    r
  }

  /** Every ranked total is non-negative. */
  lemma RankingNonNegative(filtered: seq<Transaction>, field: Field)
    ensures forall i :: 0 <= i < |Ranking(filtered, field, Charts.AbsValue)| ==> Ranking(filtered, field, Charts.AbsValue)[i].1 >= 0
  {
    var r := Ranking(filtered, field, Charts.AbsValue);
    var named := NamedRows(filtered, field);
    forall i | 0 <= i < |r| ensures r[i].1 >= 0 {
      Grouping.SumWhereMonotone(named, NameOf(field), t => 0, Charts.AbsValue, r[i].0);
      Grouping.SumWhereZero(named, NameOf(field), t => 0, r[i].0);
    }
  }

  /** The ranking table sorts by name or by value. */
  datatype SortColumn = ByName | ByValue

  function EntryKey(column: SortColumn): ((string, int)) -> Ordering.Key {
    (e: (string, int)) => if column == ByName then Ordering.StrKey(e.0) else Ordering.IntKey(e.1)
  }

  /** `sortRanking`: a reordering of the entries by name (code-point order
      standing for `localeCompare`) or by value, ascending or descending;
      ties keep their order. */
  function SortRanking(entries: Grouping.Entries<string>, column: SortColumn, dir: Ordering.Direction): (r: Grouping.Entries<string>)
    ensures multiset(r) == multiset(entries)
    ensures column == ByValue && dir == Ordering.Desc ==> forall i, j :: 0 <= i < j < |r| ==> r[i].1 >= r[j].1
    ensures column == ByValue && dir == Ordering.Asc ==> forall i, j :: 0 <= i < j < |r| ==> r[i].1 <= r[j].1
    ensures column == ByName && dir == Ordering.Asc ==> forall i, j :: 0 <= i < j < |r| ==> Text.Compare(r[i].0, r[j].0) <= 0
    ensures column == ByName && dir == Ordering.Desc ==> forall i, j :: 0 <= i < j < |r| ==> Text.Compare(r[i].0, r[j].0) >= 0
    ensures forall k :: Ordering.WithKey(r, EntryKey(column), k) == Ordering.WithKey(entries, EntryKey(column), k)
  {
    var r := Ordering.SortBy(entries, EntryKey(column), dir);
    assert forall i, j :: 0 <= i < j < |r| ==> Ordering.Le(dir, EntryKey(column)(r[i]), EntryKey(column)(r[j]));
    r
  }

  /** `calculateTotalRanking`: `reduce((sum, [, total]) => sum + total, 0)`,
      which adds the totals from the first entry to the last. */
  function TotalRanking(entries: Grouping.Entries<string>): (r: int)
    ensures entries == [] ==> r == 0
    ensures entries != [] ==> r == TotalRanking(entries[..|entries| - 1]) + entries[|entries| - 1].1
    decreases |entries|
  {
    Grouping.TotalSnoc(entries);
    Grouping.Total(entries)
  }

  /** The total under the table is the sum over all named rows, however
      the table is sorted. */
  lemma RankingTotal(filtered: seq<Transaction>, field: Field, amount: Transaction -> int, column: SortColumn, dir: Ordering.Direction)
    ensures TotalRanking(SortRanking(Ranking(filtered, field, amount), column, dir)) ==
      Grouping.SumAll(NamedRows(filtered, field), amount)
    ensures TotalRanking(Ranking(filtered, field, amount)) == Grouping.SumAll(NamedRows(filtered, field), amount)
  {
    var ranking := Ranking(filtered, field, amount);
    var sorted := SortRanking(ranking, column, dir);
    Grouping.TallyTotal(NamedRows(filtered, field), NameOf(field), amount);
    Grouping.TotalPermutation(sorted, ranking);
  }

  // ---------------------------------------------------------------------
  // The ranking object as written. `ranking` is an object literal, so
  // `ranking[name]` also reads the members every object inherits from the
  // Object prototype object (section 20.1.3 of ECMA-262, with `__proto__`
  // and the `__defineGetter__` family of section B.2.2). For such a name
  // `!ranking[name]` finds a function, so no 0 is stored first, and `+=`
  // joins the function's source text and the amount into a string; for
  // `__proto__` the assignment of a string is ignored and no entry appears.

  /** A value of the ranking object: a number, or the string `+=` made. */
  datatype Slot = Num(n: int) | Str

  /** A member name of the Object prototype object. */
  predicate InheritedName(name: string) {
    name in {"constructor", "hasOwnProperty", "isPrototypeOf", "propertyIsEnumerable",
             "toLocaleString", "toString", "valueOf", "__defineGetter__", "__defineSetter__",
             "__lookupGetter__", "__lookupSetter__", "__proto__"}
  }

  /** The own properties of the object as numbers, oldest first. */
  function Lift(t: Grouping.Entries<string>): (r: seq<(string, Slot)>)
    ensures |r| == |t|
    ensures forall i :: 0 <= i < |t| ==> r[i] == (t[i].0, Num(t[i].1))
  {
    Map(t, (e: (string, int)) => (e.0, Num(e.1)))
  }

  /** What the object literal can hold: no own `__proto__` property, and a
      string exactly under an inherited name. */
  ghost predicate ObjectShape(s: seq<(string, Slot)>) {
    forall i :: 0 <= i < |s| ==> s[i].0 != "__proto__" && (InheritedName(s[i].0) <==> s[i].1.Str?)
  }

  /** `if (!ranking[name]) ranking[name] = 0; ranking[name] += amount` on
      the object literal, whose own properties `s` lists oldest first. The
      name gets an entry unless it is `__proto__`, which leaves the object
      as it was. */
  function AddAsWritten(s: seq<(string, Slot)>, name: string, amount: int): (r: seq<(string, Slot)>)
    ensures name == "__proto__" && ObjectShape(s) ==> r == s
    ensures name != "__proto__" ==> HasName(r, name)
    decreases |s|
  {
    if s == [] then
      if name == "__proto__" then []
      else
        var r := [(name, if InheritedName(name) then Str else Num(amount))];
        assert r[0].0 == name;
        r
    else if s[0].0 == name then
      var r := [(name, if s[0].1.Num? then Num(s[0].1.n + amount) else Str)] + s[1..];
      assert r[0].0 == name;
      r
    else
      var rest := AddAsWritten(s[1..], name, amount);
      var r := [s[0]] + rest;
      assert forall i :: 0 <= i < |rest| ==> r[i + 1] == rest[i];
      assert ObjectShape(s) ==> ObjectShape(s[1..]) by {
        assert forall i :: 1 <= i < |s| ==> s[i] == s[1..][i - 1];
      }
      r
  }

  /** Adding keeps the object's shape. */
  lemma {:induction false} AddKeepsShape(s: seq<(string, Slot)>, name: string, amount: int)
    requires ObjectShape(s)
    ensures ObjectShape(AddAsWritten(s, name, amount))
    decreases |s|
  {
    if s != [] {
      var tail := s[1..];
      assert forall i :: 0 <= i < |tail| ==> tail[i] == s[i + 1];
      if s[0].0 != name {
        AddKeepsShape(tail, name, amount);
        var rest := AddAsWritten(tail, name, amount);
        assert forall i :: 0 <= i < |rest| ==> ([s[0]] + rest)[i + 1] == rest[i];
      }
    }
  }

  /** Adding leaves the entries of every other name as they were. */
  lemma {:induction false} AddKeepsOthers(s: seq<(string, Slot)>, name: string, amount: int)
    ensures forall e :: e in AddAsWritten(s, name, amount) && e.0 != name ==> e in s
    ensures forall e :: e in s && e.0 != name ==> e in AddAsWritten(s, name, amount)
    decreases |s|
  {
    if s != [] {
      assert s == [s[0]] + s[1..];
      if s[0].0 != name {
        AddKeepsOthers(s[1..], name, amount);
      }
    }
  }

  /** The object has an own property of that name. */
  ghost predicate HasName(s: seq<(string, Slot)>, name: string) {
    exists i :: 0 <= i < |s| && s[i].0 == name
  }

  /** The `forEach` of `generateRanking` on the object literal: every entry
      is named after some row, every row key but `__proto__` has an entry,
      and the object keeps its shape. */
  function TallyAsWritten(rows: seq<Transaction>, key: Transaction -> string, amount: Transaction -> int): (r: seq<(string, Slot)>)
    ensures ObjectShape(r)
    ensures forall e :: e in r ==> exists t :: t in rows && key(t) == e.0
    ensures forall t :: t in rows && key(t) != "__proto__" ==> HasName(r, key(t))
    decreases |rows|
  {
    if rows == [] then []
    else
      var prev := TallyAsWritten(rows[..|rows| - 1], key, amount);
      TallyStep(rows, prev, key, amount);
      AddAsWritten(prev, key(rows[|rows| - 1]), amount(rows[|rows| - 1]))
  }

  /** One more row keeps what `TallyAsWritten` promises. */
  lemma TallyStep(rows: seq<Transaction>, prev: seq<(string, Slot)>, key: Transaction -> string, amount: Transaction -> int)
    requires rows != [] && ObjectShape(prev)
    requires forall e :: e in prev ==> exists t :: t in rows[..|rows| - 1] && key(t) == e.0
    requires forall t :: t in rows[..|rows| - 1] && key(t) != "__proto__" ==> HasName(prev, key(t))
    ensures var r := AddAsWritten(prev, key(rows[|rows| - 1]), amount(rows[|rows| - 1]));
      && ObjectShape(r)
      && (forall e :: e in r ==> exists t :: t in rows && key(t) == e.0)
      && (forall t :: t in rows && key(t) != "__proto__" ==> HasName(r, key(t)))
  {
    var last := rows[|rows| - 1];
    AddKeepsShape(prev, key(last), amount(last));
    AddKeepsOthers(prev, key(last), amount(last));
    TallyEntriesFromRows(rows, prev, key, amount);
    TallyRowsHaveEntries(rows, prev, key, amount);
  }

  lemma TallyEntriesFromRows(rows: seq<Transaction>, prev: seq<(string, Slot)>, key: Transaction -> string, amount: Transaction -> int)
    requires rows != []
    requires forall e :: e in prev ==> exists t :: t in rows[..|rows| - 1] && key(t) == e.0
    requires forall e :: e in AddAsWritten(prev, key(rows[|rows| - 1]), amount(rows[|rows| - 1])) && e.0 != key(rows[|rows| - 1]) ==> e in prev
    ensures forall e :: e in AddAsWritten(prev, key(rows[|rows| - 1]), amount(rows[|rows| - 1])) ==> exists t :: t in rows && key(t) == e.0
  {
    var init, last := rows[..|rows| - 1], rows[|rows| - 1];
    var r := AddAsWritten(prev, key(last), amount(last));
    forall e | e in r ensures exists t :: t in rows && key(t) == e.0 {
      if e.0 != key(last) {
        var t :| t in init && key(t) == e.0;
        assert t in rows;
      } else {
        assert last in rows;
      }
    }
  }

  lemma TallyRowsHaveEntries(rows: seq<Transaction>, prev: seq<(string, Slot)>, key: Transaction -> string, amount: Transaction -> int)
    requires rows != []
    requires forall t :: t in rows[..|rows| - 1] && key(t) != "__proto__" ==> HasName(prev, key(t))
    requires forall e :: e in prev && e.0 != key(rows[|rows| - 1]) ==> e in AddAsWritten(prev, key(rows[|rows| - 1]), amount(rows[|rows| - 1]))
    ensures forall t :: t in rows && key(t) != "__proto__" ==> HasName(AddAsWritten(prev, key(rows[|rows| - 1]), amount(rows[|rows| - 1])), key(t))
  {
    var init, last := rows[..|rows| - 1], rows[|rows| - 1];
    var r := AddAsWritten(prev, key(last), amount(last));
    assert rows == init + [last];
    forall t | t in rows && key(t) != "__proto__" ensures HasName(r, key(t)) {
      if key(t) != key(last) {
        assert t in init;
        var i :| 0 <= i < |prev| && prev[i].0 == key(t);
        assert prev[i] in r;
        var j :| 0 <= j < |r| && r[j] == prev[i];
      }
    }
  }

  /** `Object.entries(ranking)` as the source builds it, over the named rows:
      one entry per name of the rows except `__proto__`, holding a string
      exactly when the name is inherited. */
  function RankingAsWritten(filtered: seq<Transaction>, field: Field, amount: Transaction -> int): (r: seq<(string, Slot)>)
    ensures ObjectShape(r)
    ensures forall e :: e in r ==> e.0 != "" && exists t :: t in filtered && NameOf(field)(t) == e.0
    ensures forall t :: t in filtered && NameOf(field)(t) != "" && NameOf(field)(t) != "__proto__" ==>
      HasName(r, NameOf(field)(t))
  {
    TallyAsWritten(NamedRows(filtered, field), NameOf(field), amount)
  }

  /** `calculateTotalRanking` on those entries: the sum while every value
      is a number, and a string (`None`) as soon as one value is a string. */
  function TotalAsWritten(s: seq<(string, Slot)>): (r: Option<int>)
    ensures r.None? <==> exists i :: 0 <= i < |s| && s[i].1.Str?
    decreases |s|
  {
    if s == [] then Some(0)
    else
      var rest := TotalAsWritten(s[1..]);
      assert forall i :: 1 <= i < |s| ==> s[i] == s[1..][i - 1];
      if s[0].1.Str? || rest.None? then None else Some(s[0].1.n + rest.value)
  }

  /** For a name no object inherits, the object literal adds like a map. */
  lemma {:induction false} AddAsWrittenOwn(t: Grouping.Entries<string>, name: string, amount: int)
    requires !InheritedName(name)
    ensures AddAsWritten(Lift(t), name, amount) == Lift(Grouping.Add(t, name, amount))
    decreases |t|
  {
    if t != [] {
      assert t == [t[0]] + t[1..];
      LiftCons(t[0], t[1..]);
      if t[0].0 == name {
        LiftCons((name, t[0].1 + amount), t[1..]);
      } else {
        AddAsWrittenOwn(t[1..], name, amount);
        LiftCons(t[0], Grouping.Add(t[1..], name, amount));
      }
    }
  }

  lemma LiftCons(e: (string, int), t: Grouping.Entries<string>)
    ensures Lift([e] + t) == [(e.0, Num(e.1))] + Lift(t)
  {
    var a, b := Lift([e] + t), [(e.0, Num(e.1))] + Lift(t);
    assert |a| == |b|;
    forall i | 0 <= i < |a| ensures a[i] == b[i] {
      if i > 0 {
        assert ([e] + t)[i] == t[i - 1];
      }
    }
  }

  /** Without inherited names, the object literal tallies like a map. */
  lemma {:induction false} TallyAsWrittenOwn(rows: seq<Transaction>, key: Transaction -> string, amount: Transaction -> int)
    requires forall t :: t in rows ==> !InheritedName(key(t))
    ensures TallyAsWritten(rows, key, amount) == Lift(Grouping.Tally(rows, key, amount))
    decreases |rows|
  {
    if rows != [] {
      var init, last := rows[..|rows| - 1], rows[|rows| - 1];
      assert forall t :: t in init ==> t in rows;
      TallyAsWrittenOwn(init, key, amount);
      AddAsWrittenOwn(Grouping.Tally(init, key, amount), key(last), amount(last));
    }
  }

  /** The total of numbers only is their sum. */
  lemma {:induction false} TotalAsWrittenOwn(t: Grouping.Entries<string>)
    ensures TotalAsWritten(Lift(t)) == Some(Grouping.Total(t))
    decreases |t|
  {
    if t != [] {
      assert Lift(t)[1..] == Lift(t[1..]);
      TotalAsWrittenOwn(t[1..]);
    }
  }

  /** When no row is named after an inherited member, the object literal
      gives the entries and the total of `Ranking`. */
  lemma RankingAsWrittenAgrees(filtered: seq<Transaction>, field: Field, amount: Transaction -> int)
    requires forall t :: t in filtered ==> !InheritedName(NameOf(field)(t))
    ensures RankingAsWritten(filtered, field, amount) == Lift(Ranking(filtered, field, amount))
    ensures TotalAsWritten(RankingAsWritten(filtered, field, amount)) == Some(Grouping.SumAll(NamedRows(filtered, field), amount))
  {
    var named := NamedRows(filtered, field);
    TallyAsWrittenOwn(named, NameOf(field), amount);
    TotalAsWrittenOwn(Ranking(filtered, field, amount));
    RankingTotal(filtered, field, amount, ByName, Ordering.Asc);
  }

  /** One row with the category "constructor": the object literal ranks it
      under a string and the total under the table is a string, while the
      ranking the page means has the row's amount and a numeric total. */
  lemma ConstructorRankedAsString(t: Transaction, amount: Transaction -> int)
    requires NameOf(CategoryField)(t) == "constructor"
    ensures RankingAsWritten([t], CategoryField, amount) == [("constructor", Str)]
    ensures TotalAsWritten(RankingAsWritten([t], CategoryField, amount)) == None
    ensures Ranking([t], CategoryField, amount) == [("constructor", amount(t))]
  {
    SingleNamedRow(t, CategoryField, amount);
  }

  /** One row with the category "__proto__": the object literal drops it,
      while the ranking the page means lists it. */
  lemma ProtoRowDropped(t: Transaction, amount: Transaction -> int)
    requires NameOf(CategoryField)(t) == "__proto__"
    ensures RankingAsWritten([t], CategoryField, amount) == []
    ensures Ranking([t], CategoryField, amount) == [("__proto__", amount(t))]
  {
    SingleNamedRow(t, CategoryField, amount);
  }

  /** A single named row is the only named row, and tallies to one entry. */
  lemma SingleNamedRow(t: Transaction, field: Field, amount: Transaction -> int)
    requires NameOf(field)(t) != ""
    ensures NamedRows([t], field) == [t]
    ensures RankingAsWritten([t], field, amount) == AddAsWritten([], NameOf(field)(t), amount(t))
    ensures Ranking([t], field, amount) == [(NameOf(field)(t), amount(t))]
  {
    FilterSingleton(t, t => NameOf(field)(t) != "");
    assert [t][..0] == [];
    assert TallyAsWritten([t], NameOf(field), amount) == AddAsWritten([], NameOf(field)(t), amount(t));
    assert Grouping.Tally([t], NameOf(field), amount) == Grouping.Add([], NameOf(field)(t), amount(t));
  }
}

=== FILE: charts_summary.dfy ===
/** The summary charts of the home page: an income-versus-outcome line per
    month and the eight categories with the largest spending, over a month
    range chosen with two inputs or a preset. */
module ChartsSummary {
  import opened Collections
  import Ordering
  import Calendar
  import Ledger
  import Grouping
  import Charts

  type Transaction = Ledger.Transaction
  type YearMonth = Calendar.YearMonth

  /** `filterByDateRange`: with no rows or an empty bound the rows are
      returned as they are; otherwise the rows of the range. */
  function FilterByDateRange(rows: seq<Transaction>, range: Charts.Range): (r: seq<Transaction>)
    ensures rows == [] || range.start.None? || range.end.None? ==> r == rows
    ensures rows != [] && range.start.Some? && range.end.Some? ==>
      r == Charts.RowsInRange(rows, range.start.value, range.end.value)
    ensures forall t :: t in r ==> t in rows
  {
    if rows == [] || range.start.None? || range.end.None? then rows
    else Charts.RowsInRange(rows, range.start.value, range.end.value)
  }

  /** The period selector: the range and the highlighted preset ("" when
      the range was typed). */
  datatype Period = Period(range: Charts.Range, presetLabel: string)

  const PresetLabels: seq<string> := ["3 months", "6 months", "1 year"]

  function Initial(now: YearMonth): Period {
    Period(Charts.DefaultRange(now), "1 year")
  }

  /** A preset button: its range, ending this month, and its label. */
  function ChoosePreset(now: YearMonth, i: int): (r: Period)
    requires 0 <= i < 3
    ensures r.range == Charts.Preset(now, Charts.PresetMonthsBack[i])
    ensures r.presetLabel == PresetLabels[i]
  {
    Period(Charts.Preset(now, Charts.PresetMonthsBack[i]), PresetLabels[i])
  }

  /** Typing in "From:" or "To:" sets that bound and clears the highlight. */
  function EditStart(p: Period, start: Option<YearMonth>): (r: Period)
    ensures r.range == Charts.Range(start, p.range.end) && r.presetLabel == ""
  {
    Period(Charts.Range(start, p.range.end), "")
  }

  function EditEnd(p: Period, end: Option<YearMonth>): (r: Period)
    ensures r.range == Charts.Range(p.range.start, end) && r.presetLabel == ""
  {
    Period(Charts.Range(p.range.start, end), "")
  }

  /** The page opens on the "1 year" preset, highlighted. */
  lemma InitialIsOneYearPreset(now: YearMonth)
    ensures Initial(now) == ChoosePreset(now, 2)
  {
  }

  // ---------------------------------------------------------------------
  // The line chart

  function OfMacrotype(rows: seq<Transaction>, macrotype: string): (r: seq<Transaction>)
    ensures forall t :: t in r <==> t in rows && t.macrotype == macrotype
    ensures IsSubseq(r, rows)
    ensures forall t :: multiset(r)[t] == if t.macrotype == macrotype then multiset(rows)[t] else 0
  {
    FilterSubseq(rows, (t: Transaction) => t.macrotype == macrotype);
    Filter(rows, (t: Transaction) => t.macrotype == macrotype)
  }

  /** The amount `groupByMonth` adds: the absolute value for "outcome", the
      value itself for any other macrotype. */
  function GroupAmount(macrotype: string): Transaction -> int {
    if macrotype == Ledger.Outcome then Charts.AbsValue else Charts.RawValue
  }

  /** `labels`: the months of the filtered rows, earliest first. */
  function Labels(filtered: seq<Transaction>): seq<YearMonth> {
    Charts.SortedMonths(filtered)
  }

  /** `incomeData` / `outcomeData`: per label, the month's sum for that
      macrotype. */
  function LineSeries(filtered: seq<Transaction>, macrotype: string): (r: seq<int>)
    ensures |r| == |Labels(filtered)|
    ensures forall i :: 0 <= i < |r| ==>
      r[i] == Charts.MonthSum(OfMacrotype(filtered, macrotype), GroupAmount(macrotype), Labels(filtered)[i])
  {
    Charts.Series(OfMacrotype(filtered, macrotype), GroupAmount(macrotype), Labels(filtered))
  }

  /** Each line adds up to the sum over its rows: nothing dropped, nothing
      counted twice. */
  lemma LineSeriesSum(filtered: seq<Transaction>, macrotype: string)
    ensures SumOver(LineSeries(filtered, macrotype), (x: int) => x) ==
      Grouping.SumAll(OfMacrotype(filtered, macrotype), GroupAmount(macrotype))
  {
    var rows := OfMacrotype(filtered, macrotype);
    Charts.SubsetOnAxis(filtered, rows);
    Charts.SeriesSum(rows, GroupAmount(macrotype), Labels(filtered));
  }

  /** The outcome line never dips below zero. */
  lemma OutcomeSeriesNonNegative(filtered: seq<Transaction>)
    ensures forall i :: 0 <= i < |LineSeries(filtered, Ledger.Outcome)| ==> LineSeries(filtered, Ledger.Outcome)[i] >= 0
  {
    var rows := OfMacrotype(filtered, Ledger.Outcome);
    var labels := Labels(filtered);
    forall i | 0 <= i < |labels| ensures Charts.MonthSum(rows, Charts.AbsValue, labels[i]) >= 0 {
      Grouping.SumWhereMonotone(rows, Charts.MonthOf, t => 0, Charts.AbsValue, labels[i]);
      Grouping.SumWhereZero(rows, Charts.MonthOf, t => 0, labels[i]);
    }
  }

  // ---------------------------------------------------------------------
  // The category bars

  datatype Bar = Bar(categoryName: string, total: int)

  function CategoryName(t: Transaction): string {
    Ledger.RefName(t.category)
  }

  function Spending(filtered: seq<Transaction>): seq<Transaction> {
    OfMacrotype(filtered, Ledger.Outcome)
  }

  /** The distinct non-empty category names of the outcome rows, in the
      order in which they first appear. */
  function BarNames(filtered: seq<Transaction>): (r: seq<string>)
    ensures NoDups(r)
    ensures forall n :: n in r <==> n != "" && exists t :: t in Spending(filtered) && CategoryName(t) == n
    ensures forall n :: n in r <==> n != "" && n in Map(Spending(filtered), CategoryName)
    ensures forall i, j :: 0 <= i < j < |r| ==>
      IndexOf(Map(Spending(filtered), CategoryName), r[i]) < IndexOf(Map(Spending(filtered), CategoryName), r[j])
  {
    var names := Map(Spending(filtered), CategoryName);
    forall n ensures n in names <==> exists t :: t in Spending(filtered) && CategoryName(t) == n {
      MapMember(Spending(filtered), CategoryName, n);
    }
    var named := (n: string) => n != "";
    FilterNoDups(Distinct(names), named);
    DistinctFilterOrder(names, named);
    Filter(Distinct(names), named)
  }

  /** A bar's height: the absolute values of the outcome rows of that
      category added up. */
  function BarTotal(filtered: seq<Transaction>, name: string): int {
    Grouping.SumWhere(Spending(filtered), CategoryName, Charts.AbsValue, name)
  }

  function BarKey(b: Bar): Ordering.Key {
    Ordering.IntKey(b.total)
  }

  /** One bar per spending category, in order of first appearance. */
  function AllBars(filtered: seq<Transaction>): (r: seq<Bar>)
    ensures |r| == |BarNames(filtered)|
    ensures forall i :: 0 <= i < |r| ==> r[i] == Bar(BarNames(filtered)[i], BarTotal(filtered, BarNames(filtered)[i]))
  {
    Map(BarNames(filtered), n => Bar(n, BarTotal(filtered, n)))
  }

  /** Every category's bar, largest first (`(a, b) => b.total - a.total`);
      bars with the same total keep their order of first appearance. */
  function RankedBars(filtered: seq<Transaction>): (r: seq<Bar>)
    ensures multiset(r) == multiset(AllBars(filtered))
    ensures forall i, j :: 0 <= i < j < |r| ==> r[i].total >= r[j].total
    ensures forall k :: Ordering.WithKey(r, BarKey, k) == Ordering.WithKey(AllBars(filtered), BarKey, k)
  {
    var r := Ordering.SortBy(AllBars(filtered), BarKey, Ordering.Desc);
    assert forall i, j :: 0 <= i < j < |r| ==> Ordering.Le(Ordering.Desc, BarKey(r[i]), BarKey(r[j]));
    r
  }

  /** `categoryDataArray`: the first eight of the ranked bars. */
  function CategoryBars(filtered: seq<Transaction>): (r: seq<Bar>)
    ensures |r| <= 8
    ensures r <= RankedBars(filtered)
    ensures forall i, j :: 0 <= i < j < |r| ==> r[i].total >= r[j].total
  {
    Take(RankedBars(filtered), 8)
  }

  /** Every shown bar is a spending category with its own total. */
  lemma BarsAreCategoryTotals(filtered: seq<Transaction>, b: Bar)
    requires b in CategoryBars(filtered)
    ensures b.categoryName in BarNames(filtered)
    ensures b.total == BarTotal(filtered, b.categoryName)
  {
    var ranked := RankedBars(filtered);
    assert b in multiset(ranked);
    var all := AllBars(filtered);
    assert b in multiset(all);
    var i :| 0 <= i < |all| && all[i] == b;
  }

  /** Only the largest are kept: a spending category left out has no
      larger total than any shown bar, and is left out only when eight bars
      are shown. */
  lemma DroppedBarsAreSmaller(filtered: seq<Transaction>, n: string)
    requires n in BarNames(filtered)
    requires forall b :: b in CategoryBars(filtered) ==> b.categoryName != n
    ensures |CategoryBars(filtered)| == 8
    ensures forall b :: b in CategoryBars(filtered) ==> b.total >= BarTotal(filtered, n)
  {
    var j := RankedPosition(filtered, n);
    if j < |CategoryBars(filtered)| {
      assert false;
    }
    ShownAbove(filtered, j);
  }

  /** Every spending category has its bar somewhere in the ranking. */
  lemma RankedPosition(filtered: seq<Transaction>, n: string) returns (j: int)
    requires n in BarNames(filtered)
    ensures 0 <= j < |RankedBars(filtered)|
    ensures RankedBars(filtered)[j] == Bar(n, BarTotal(filtered, n))
  {
    var all := AllBars(filtered);
    var k :| 0 <= k < |BarNames(filtered)| && BarNames(filtered)[k] == n;
    assert all[k] == Bar(n, BarTotal(filtered, n));
    assert all[k] in multiset(RankedBars(filtered));
    j :| 0 <= j < |RankedBars(filtered)| && RankedBars(filtered)[j] == all[k];
  }

  /** Each shown bar is at least as tall as any ranked bar past the shown
      ones. */
  lemma ShownAbove(filtered: seq<Transaction>, j: int)
    requires |CategoryBars(filtered)| <= j < |RankedBars(filtered)|
    ensures |CategoryBars(filtered)| == 8
    ensures forall b :: b in CategoryBars(filtered) ==> b.total >= RankedBars(filtered)[j].total
  {
    var ranked := RankedBars(filtered);
    var shown := CategoryBars(filtered);
    forall b | b in shown ensures b.total >= ranked[j].total {
      var i :| 0 <= i < |shown| && shown[i] == b;
      assert ranked[i] == b;
    }
  }
}

=== FILE: collections.dfy ===
/** Generic sequence operations shared by every component: the JavaScript
    array methods `filter`, `map`, `find`, `reduce` and `[...new Set(xs)]`,
    stated over immutable Dafny sequences. */
module Collections {

  /** A value that may be absent (`undefined` / `null` in the components). */
  datatype Option<+T> = None | Some(value: T)

  /** `a` is obtained from `b` by deleting elements, keeping the order. */
  ghost predicate IsSubseq<T>(a: seq<T>, b: seq<T>)
    decreases |b|
  {
    if a == [] then true
    else if b == [] then false
    else if a[0] == b[0] then IsSubseq(a[1..], b[1..])
    else IsSubseq(a, b[1..])
  }

  /** A subsequence of the tail is a subsequence of the whole. */
  lemma {:induction false} SubseqTail<T>(a: seq<T>, b: seq<T>)
    requires b != [] && IsSubseq(a, b[1..])
    ensures IsSubseq(a, b)
    decreases |b|, |a|
  {
    if a != [] && a[0] == b[0] {
      SubseqDropHead(a, b[1..]);
    }
  }

  /** Dropping the first element keeps a subsequence. */
  lemma {:induction false} SubseqDropHead<T>(a: seq<T>, c: seq<T>)
    requires a != [] && IsSubseq(a, c)
    ensures IsSubseq(a[1..], c)
    decreases |c|, |a|
  {
    if a[0] == c[0] {
      if a[1..] != [] {
        SubseqTail(a[1..], c);
      }
    } else {
      SubseqDropHead(a, c[1..]);
      if a[1..] != [] {
        SubseqTail(a[1..], c);
      }
    }
  }

  /** No element occurs twice. */
  ghost predicate NoDups<T>(s: seq<T>) {
    forall i, j :: 0 <= i < j < |s| ==> s[i] != s[j]
  }

  /** `Array.prototype.filter`: the elements of `s` satisfying `p`, in order. */
  function Filter<T(==,!new)>(s: seq<T>, p: T -> bool): (r: seq<T>)
    ensures |r| <= |s|
    ensures forall x :: x in r <==> x in s && p(x)
    ensures forall x :: multiset(r)[x] == if p(x) then multiset(s)[x] else 0
    decreases |s|
  {
    if s == [] then []
    else
      var rest := Filter(s[1..], p);
      assert s == [s[0]] + s[1..];
      if p(s[0]) then [s[0]] + rest else rest
  }

  /** The kept elements stay in their order. */
  lemma {:induction false} FilterSubseq<T(!new)>(s: seq<T>, p: T -> bool)
    ensures IsSubseq(Filter(s, p), s)
    decreases |s|
  {
    if s != [] {
      FilterSubseq(s[1..], p);
      FilterCons(s, p);
      if !p(s[0]) {
        SubseqTail(Filter(s[1..], p), s);
      }
    }
  }

  /** Filtering one element keeps it or drops it. */
  lemma FilterSingleton<T(!new)>(x: T, p: T -> bool)
    ensures Filter([x], p) == if p(x) then [x] else []
  {
    assert [x][1..] == [];
  }

  /** Chained filters are one filter by the conjunction. */
  lemma {:induction false} FilterFuse<T(!new)>(s: seq<T>, p: T -> bool, q: T -> bool, pq: T -> bool)
    requires forall x :: pq(x) == (p(x) && q(x))
    ensures Filter(Filter(s, p), q) == Filter(s, pq)
    decreases |s|
  {
    if s != [] {
      FilterFuse(s[1..], p, q, pq);
    }
  }

  /** Filtering with a predicate that holds of every element changes nothing. */
  lemma {:induction false} FilterAll<T(!new)>(s: seq<T>, p: T -> bool)
    requires forall x :: x in s ==> p(x)
    ensures Filter(s, p) == s
    decreases |s|
  {
    if s != [] {
      FilterAll(s[1..], p);
    }
  }

  /** Filtering a duplicate-free sequence leaves it duplicate free. */
  lemma {:induction false} FilterNoDups<T(!new)>(s: seq<T>, p: T -> bool)
    requires NoDups(s)
    ensures NoDups(Filter(s, p))
    decreases |s|
  {
    if s != [] {
      assert NoDups(s[1..]) by {
        forall i, j | 0 <= i < j < |s[1..]| ensures s[1..][i] != s[1..][j] {
          assert s[1..][i] == s[i + 1] && s[1..][j] == s[j + 1];
        }
      }
      assert s[0] !in s[1..] by {
        forall j | 0 <= j < |s[1..]| ensures s[1..][j] != s[0] {
          assert s[1..][j] == s[j + 1];
        }
      }
      FilterNoDups(s[1..], p);
    }
  }

  /** `Array.prototype.map`. */
  function Map<A, B>(s: seq<A>, f: A -> B): (r: seq<B>)
    ensures |r| == |s|
    ensures forall i :: 0 <= i < |s| ==> r[i] == f(s[i])
  {
    seq(|s|, i requires 0 <= i < |s| => f(s[i]))
  }

  lemma MapAppend<A, B>(a: seq<A>, b: seq<A>, f: A -> B)
    ensures Map(a + b, f) == Map(a, f) + Map(b, f)
  {
  }

  /** Membership in a mapped sequence. */
  lemma MapMember<A, B>(s: seq<A>, f: A -> B, y: B)
    ensures y in Map(s, f) <==> exists x :: x in s && f(x) == y
  {
    if y in Map(s, f) {
      var i :| 0 <= i < |s| && Map(s, f)[i] == y;
      assert s[i] in s;
    }
  }

  /** `[...new Set(s)]`: the first occurrence of every element, in order. */
  function Distinct<T(==,!new)>(s: seq<T>): (r: seq<T>)
    ensures NoDups(r)
    ensures forall x :: x in r <==> x in s
    ensures |r| <= |s|
    decreases |s|
  {
    if s == [] then []
    else
      var prefix := Distinct(s[..|s| - 1]);
      assert forall x :: x in s <==> x in s[..|s| - 1] || x == s[|s| - 1] by {
        assert s == s[..|s| - 1] + [s[|s| - 1]];
      }
      if s[|s| - 1] in prefix then prefix else prefix + [s[|s| - 1]]
  }

  /** The position of the first occurrence of `x` in `s`. */
  function IndexOf<T(==)>(s: seq<T>, x: T): (i: nat)
    requires x in s
    ensures i < |s| && s[i] == x
    ensures forall j :: 0 <= j < i ==> s[j] != x
    decreases |s|
  {
    if s[0] == x then 0
    else
      assert s == [s[0]] + s[1..];
      1 + IndexOf(s[1..], x)
  }

  /** Appending elements does not move a first occurrence. */
  lemma IndexOfPrefix<T>(a: seq<T>, b: seq<T>, x: T)
    requires x in a
    ensures IndexOf(a + b, x) == IndexOf(a, x)
  {
    var i, k := IndexOf(a, x), IndexOf(a + b, x);
    assert (a + b)[i] == x;
  }

  /** `[...new Set(s)]` lists the elements in the order of their first
      occurrence in `s`. */
  lemma {:induction false} DistinctOrder<T(!new)>(s: seq<T>)
    ensures forall i, j :: 0 <= i < j < |Distinct(s)| ==> IndexOf(s, Distinct(s)[i]) < IndexOf(s, Distinct(s)[j])
    decreases |s|
  {
    if s != [] {
      var init, last := s[..|s| - 1], s[|s| - 1];
      assert s == init + [last];
      DistinctOrder(init);
      var p, r := Distinct(init), Distinct(s);
      forall i, j | 0 <= i < j < |r| ensures IndexOf(s, r[i]) < IndexOf(s, r[j]) {
        assert r[i] == p[i] && r[i] in init;
        IndexOfPrefix(init, [last], r[i]);
        if j < |p| {
          assert r[j] == p[j] && r[j] in init;
          IndexOfPrefix(init, [last], r[j]);
        } else {
          assert r[j] == last && last !in init;
          IndexOfLast(init, last);
        }
      }
    }
  }

  /** An element new to `s` first occurs at the end of `s + [x]`, after
      every element of `s`. */
  lemma IndexOfLast<T>(s: seq<T>, x: T)
    requires x !in s
    ensures x in s + [x] && IndexOf(s + [x], x) == |s|
    ensures forall y :: y in s ==> IndexOf(s + [x], y) < |s|
  {
    forall y | y in s ensures IndexOf(s + [x], y) < |s| {
      IndexOfPrefix(s, [x], y);
    }
  }

  /** Filtering keeps the relative order of the first occurrences of the
      elements it keeps. */
  lemma {:induction false} FilterIndexOrder<T(!new)>(s: seq<T>, p: T -> bool, x: T, y: T)
    requires x in s && y in s && p(x) && p(y)
    ensures x in Filter(s, p) && y in Filter(s, p)
    ensures IndexOf(Filter(s, p), x) < IndexOf(Filter(s, p), y) <==> IndexOf(s, x) < IndexOf(s, y)
    decreases |s|
  {
    var f, t := Filter(s, p), s[1..];
    assert s == [s[0]] + t;
    FilterCons(s, p);
    if s[0] != x && s[0] != y {
      FilterIndexOrder(t, p, x, y);
      var ft := Filter(t, p);
      if p(s[0]) {
        assert f == [s[0]] + ft;
        IndexOfCons(s[0], ft, x);
        IndexOfCons(s[0], ft, y);
      }
      IndexOfCons(s[0], t, x);
      IndexOfCons(s[0], t, y);
    }
  }

  /** In a duplicate-free sequence an element's first occurrence is its
      position. */
  lemma NoDupsIndexOf<T>(s: seq<T>, i: int)
    requires NoDups(s) && 0 <= i < |s|
    ensures IndexOf(s, s[i]) == i
  {
  }

  /** Removing duplicates and then filtering lists the kept values in the
      order of their first occurrence in `s`. */
  lemma DistinctFilterOrder<T(!new)>(s: seq<T>, p: T -> bool)
    ensures forall i, j :: 0 <= i < j < |Filter(Distinct(s), p)| ==>
      IndexOf(s, Filter(Distinct(s), p)[i]) < IndexOf(s, Filter(Distinct(s), p)[j])
  {
    var d := Distinct(s);
    var r := Filter(d, p);
    DistinctOrder(s);
    FilterNoDups(d, p);
    forall i, j | 0 <= i < j < |r| ensures IndexOf(s, r[i]) < IndexOf(s, r[j]) {
      var x, y := r[i], r[j];
      FilterIndexOrder(d, p, x, y);
      NoDupsIndexOf(r, i);
      NoDupsIndexOf(r, j);
      var a, b := IndexOf(d, x), IndexOf(d, y);
      assert d[a] == x && d[b] == y;
    }
  }

  /** The first occurrence in a sequence with a given head. */
  lemma IndexOfCons<T>(h: T, t: seq<T>, x: T)
    requires x in t && h != x
    ensures IndexOf([h] + t, x) == 1 + IndexOf(t, x)
  {
    assert ([h] + t)[1..] == t;
  }

  /** A duplicate-free sequence holds each of its elements exactly once. */
  lemma {:induction false} NoDupsCount<T>(s: seq<T>, x: T)
    requires NoDups(s)
    ensures multiset(s)[x] == if x in s then 1 else 0
    decreases |s|
  {
    if s != [] {
      assert s == [s[0]] + s[1..];
      assert NoDups(s[1..]) by {
        forall i, j | 0 <= i < j < |s[1..]| ensures s[1..][i] != s[1..][j] {
          assert s[1..][i] == s[i + 1] && s[1..][j] == s[j + 1];
        }
      }
      assert s[0] !in s[1..] by {
        forall j | 0 <= j < |s[1..]| ensures s[1..][j] != s[0] {
          assert s[1..][j] == s[j + 1];
        }
      }
      NoDupsCount(s[1..], x);
    }
  }

  /** A permutation of a duplicate-free sequence is duplicate free. */
  lemma NoDupsPermutation<T>(a: seq<T>, b: seq<T>)
    requires NoDups(a)
    requires multiset(a) == multiset(b)
    ensures NoDups(b)
  {
    forall i, j | 0 <= i < j < |b| ensures b[i] != b[j] {
      if b[i] == b[j] {
        var x := b[i];
        assert multiset(b)[x] >= 2 by {
          assert b == b[..i] + [b[i]] + b[i + 1..j] + [b[j]] + b[j + 1..];
          assert multiset(b) == multiset(b[..i]) + multiset{x} + multiset(b[i + 1..j]) + multiset{x} + multiset(b[j + 1..]);
        }
        NoDupsCount(a, x);
        assert false;
      }
    }
  }

  /** `xs.map(f).reduce((acc, v) => acc + v, 0)`: the sum of `f` over a sequence. */
  function SumOver<K>(ks: seq<K>, f: K -> int): int
    decreases |ks|
  {
    if ks == [] then 0 else f(ks[0]) + SumOver(ks[1..], f)
  }

  lemma {:induction false} SumOverAppend<K>(a: seq<K>, b: seq<K>, f: K -> int)
    ensures SumOver(a + b, f) == SumOver(a, f) + SumOver(b, f)
    decreases |a|
  {
    if a == [] {
      assert a + b == b;
    } else {
      assert (a + b)[1..] == a[1..] + b;
      SumOverAppend(a[1..], b, f);
    }
  }

  /** Taking out one element takes out its term. */
  lemma {:induction false} SumOverRemove<K>(b: seq<K>, i: int, f: K -> int)
    requires 0 <= i < |b|
    ensures SumOver(b, f) == f(b[i]) + SumOver(b[..i] + b[i + 1..], f)
    ensures multiset(b[..i] + b[i + 1..]) == multiset(b) - multiset{b[i]}
  {
    var front, back := b[..i], b[i + 1..];
    var c := [b[i]] + back;
    assert b == front + c;
    assert c[1..] == back;
    assert SumOver(c, f) == f(b[i]) + SumOver(back, f);
    SumOverAppend(front, c, f);
    SumOverAppend(front, back, f);
    assert multiset(b) == multiset(front) + multiset{b[i]} + multiset(back);
  }

  /** Reordering does not change a sum. */
  lemma {:induction false} SumOverPermutation<K>(a: seq<K>, b: seq<K>, f: K -> int)
    requires multiset(a) == multiset(b)
    ensures SumOver(a, f) == SumOver(b, f)
    decreases |a|
  {
    if a == [] {
      assert |b| == |multiset(b)| == 0;
    } else {
      assert a == [a[0]] + a[1..];
      assert a[0] in multiset(b);
      var i :| 0 <= i < |b| && b[i] == a[0];
      SumOverRemove(b, i, f);
      assert multiset(a[1..]) == multiset(a) - multiset{a[0]};
      SumOverPermutation(a[1..], b[..i] + b[i + 1..], f);
    }
  }

  /** Summing over a mapped sequence is summing the composition. */
  lemma {:induction false} SumOverMap<A, K>(s: seq<A>, g: A -> K, f: K -> int, fg: A -> int)
    requires forall x :: x in s ==> fg(x) == f(g(x))
    ensures SumOver(Map(s, g), f) == SumOver(s, fg)
    decreases |s|
  {
    if s != [] {
      assert Map(s, g)[1..] == Map(s[1..], g);
      SumOverMap(s[1..], g, f, fg);
    }
  }

  /** Functions that agree on the elements give the same sum. */
  lemma {:induction false} SumOverCongruent<K>(s: seq<K>, f: K -> int, g: K -> int)
    requires forall x :: x in s ==> f(x) == g(x)
    ensures SumOver(s, f) == SumOver(s, g)
    decreases |s|
  {
    if s != [] {
      SumOverCongruent(s[1..], f, g);
    }
  }

  /** Terms that are all zero sum to zero. */
  lemma {:induction false} SumOverZero<K>(s: seq<K>, f: K -> int)
    requires forall x :: x in s ==> f(x) == 0
    ensures SumOver(s, f) == 0
    decreases |s|
  {
    if s != [] {
      SumOverZero(s[1..], f);
    }
  }

  /** Term-by-term domination carries over to the sums. */
  lemma {:induction false} SumOverMonotone<K>(s: seq<K>, f: K -> int, g: K -> int)
    requires forall x :: x in s ==> f(x) <= g(x)
    ensures SumOver(s, f) <= SumOver(s, g)
    decreases |s|
  {
    if s != [] {
      SumOverMonotone(s[1..], f, g);
    }
  }

  /** Every element is summed on one side of a filter or the other. */
  lemma {:induction false} SumOverFilterSplit<K(!new)>(s: seq<K>, p: K -> bool, notP: K -> bool, f: K -> int)
    requires forall x :: notP(x) == !p(x)
    ensures SumOver(s, f) == SumOver(Filter(s, p), f) + SumOver(Filter(s, notP), f)
    decreases |s|
  {
    if s != [] {
      SumOverFilterSplit(s[1..], p, notP, f);
    }
  }

  /** Mapping after filtering is filtering the mapped sequence, for a
      filter that looks only at the mapped value. */
  lemma {:induction false} MapFilter<A(!new), B(!new)>(s: seq<A>, g: A -> B, p: B -> bool, pg: A -> bool)
    requires forall x :: pg(x) == p(g(x))
    ensures Map(Filter(s, pg), g) == Filter(Map(s, g), p)
    decreases |s|
  {
    if s != [] {
      MapFilter(s[1..], g, p, pg);
      HeadTail(s);
      MapCons(s[0], s[1..], g);
      if pg(s[0]) {
        MapFilterKeep(s[0], s[1..], g, p, pg);
      } else {
        MapFilterDrop(s[0], s[1..], g, p, pg);
      }
    } else {
      assert Map(s, g) == [];
    }
  }

  /** `MapFilter` over a kept head. */
  lemma MapFilterKeep<A(!new), B(!new)>(x: A, t: seq<A>, g: A -> B, p: B -> bool, pg: A -> bool)
    requires pg(x) && p(g(x))
    requires Map(Filter(t, pg), g) == Filter(Map(t, g), p)
    ensures Map(Filter([x] + t, pg), g) == Filter([g(x)] + Map(t, g), p)
  {
    FilterConsOf(x, t, pg);
    FilterConsOf(g(x), Map(t, g), p);
    MapCons(x, Filter(t, pg), g);
  }

  /** A non-empty sequence is its head before its tail. */
  lemma HeadTail<T>(s: seq<T>)
    requires s != []
    ensures s == [s[0]] + s[1..]
  {
  }

  /** Mapping distributes over a head and its tail. */
  lemma MapCons<A, B>(x: A, t: seq<A>, g: A -> B)
    ensures Map([x] + t, g) == [g(x)] + Map(t, g)
  {
  }

  /** One step of `Filter` on an explicit head and tail. */
  lemma FilterConsOf<T(!new)>(x: T, t: seq<T>, p: T -> bool)
    ensures Filter([x] + t, p) == if p(x) then [x] + Filter(t, p) else Filter(t, p)
  {
    assert ([x] + t)[1..] == t;
  }

  /** `MapFilter` over a dropped head. */
  lemma MapFilterDrop<A(!new), B(!new)>(x: A, t: seq<A>, g: A -> B, p: B -> bool, pg: A -> bool)
    requires !pg(x) && !p(g(x))
    requires Map(Filter(t, pg), g) == Filter(Map(t, g), p)
    ensures Map(Filter([x] + t, pg), g) == Filter([g(x)] + Map(t, g), p)
  {
    FilterConsOf(x, t, pg);
    FilterConsOf(g(x), Map(t, g), p);
  }

  /** One step of `Filter`. */
  lemma FilterCons<T(!new)>(s: seq<T>, p: T -> bool)
    requires s != []
    ensures Filter(s, p) == if p(s[0]) then [s[0]] + Filter(s[1..], p) else Filter(s[1..], p)
  {
  }

  /** `Array.prototype.find`: the first element satisfying `p`. */
  function Find<T(==,!new)>(s: seq<T>, p: T -> bool): (r: Option<T>)
    ensures r.None? <==> forall x :: x in s ==> !p(x)
    ensures r.Some? ==> exists i :: 0 <= i < |s| && s[i] == r.value && p(s[i]) && forall j :: 0 <= j < i ==> !p(s[j])
    decreases |s|
  {
    if s == [] then None
    else if p(s[0]) then Some(s[0])
    else
      var r := Find(s[1..], p);
      assert forall x :: x in s ==> x == s[0] || x in s[1..];
      if r.Some? then
        var i :| 0 <= i < |s[1..]| && s[1..][i] == r.value && p(s[1..][i]) && forall j :: 0 <= j < i ==> !p(s[1..][j]);
        assert s[i + 1] == r.value;
        assert forall j :: 1 <= j < i + 1 ==> s[j] == s[1..][j - 1];
        r
      else r
  }

  /** Searching an extended sequence finds the old answer, or else the new element. */
  lemma {:induction false} FindAppend<T(!new)>(s: seq<T>, x: T, p: T -> bool)
    ensures Find(s + [x], p) == if Find(s, p).Some? then Find(s, p) else if p(x) then Some(x) else None
    decreases |s|
  {
    if s == [] {
      assert s + [x] == [x];
    } else {
      assert (s + [x])[1..] == s[1..] + [x];
      FindAppend(s[1..], x, p);
    }
  }

  /** `xs.slice(0, n)`. */
  function Take<T>(s: seq<T>, n: nat): (r: seq<T>)
    ensures |r| == if |s| <= n then |s| else n
    ensures r <= s
  {
    if |s| <= n then s else s[..n]
  }
}

=== FILE: grouping.dfy ===
/** A plain JavaScript object used as a running-sum dictionary, as in
    `grouped[k] = (grouped[k] || 0) + amount` and
    `if (!ranking[name]) ranking[name] = 0; ranking[name] += amount`.
    Its entries keep insertion order, which is the order `Object.keys` and
    `Object.entries` report. */
module Grouping {
  import opened Collections

  /** The entries of the dictionary, oldest key first. */
  type Entries<K> = seq<(K, int)>

  function Keys<K>(t: Entries<K>): (r: seq<K>)
    ensures |r| == |t|
    ensures forall i :: 0 <= i < |t| ==> r[i] == t[i].0
  {
    Map(t, (e: (K, int)) => e.0)
  }

  /** `t[k]`: the value of the first entry with key `k`. */
  function Get<K(==)>(t: Entries<K>, k: K): Option<int>
    decreases |t|
  {
    if t == [] then None
    else if t[0].0 == k then Some(t[0].1)
    else Get(t[1..], k)
  }

  /** A lookup finds nothing exactly when no entry has the key. */
  lemma {:induction false} GetNoneIff<K>(t: Entries<K>, k: K)
    ensures Get(t, k).None? <==> k !in Keys(t)
    decreases |t|
  {
    if t != [] {
      HeadTail(t);
      KeysCons(t[0], t[1..]);
      if t[0].0 != k {
        GetNoneIff(t[1..], k);
      }
    }
  }

  /** `t[k] || 0`. */
  function GetOrZero<K(==)>(t: Entries<K>, k: K): int {
    match Get(t, k)
    case Some(v) => v
    case None => 0
  }

  /** `t[k] = (t[k] || 0) + amount`. */
  function Add<K(==)>(t: Entries<K>, k: K, amount: int): Entries<K>
    decreases |t|
  {
    if t == [] then [(k, amount)]
    else if t[0].0 == k then [(k, t[0].1 + amount)] + t[1..]
    else [t[0]] + Add(t[1..], k, amount)
  }

  /** The sum of all values, `entries.reduce((s, [, v]) => s + v, 0)`. */
  function Total<K>(t: Entries<K>): int
    decreases |t|
  {
    if t == [] then 0 else t[0].1 + Total(t[1..])
  }

  /** The rows' `forEach` that adds `amount(row)` under `key(row)`. */
  function Tally<T, K(==)>(rows: seq<T>, key: T -> K, amount: T -> int): Entries<K>
    decreases |rows|
  {
    if rows == [] then []
    else
      var last := rows[|rows| - 1];
      Add(Tally(rows[..|rows| - 1], key, amount), key(last), amount(last))
  }

  /** The reference definition: the sum of `amount` over the rows filed under `k`. */
  function SumWhere<T, K(==)>(rows: seq<T>, key: T -> K, amount: T -> int, k: K): int
    decreases |rows|
  {
    if rows == [] then 0
    else
      var last := rows[|rows| - 1];
      SumWhere(rows[..|rows| - 1], key, amount, k) + (if key(last) == k then amount(last) else 0)
  }

  /** The sum of `amount` over all rows. */
  function SumAll<T>(rows: seq<T>, amount: T -> int): int
    decreases |rows|
  {
    if rows == [] then 0 else SumAll(rows[..|rows| - 1], amount) + amount(rows[|rows| - 1])
  }

  /** Adding under a new key appends it; under a known key the keys stay. */
  lemma {:induction false} AddKeys<K>(t: Entries<K>, k: K, amount: int)
    ensures Keys(Add(t, k, amount)) == if k in Keys(t) then Keys(t) else Keys(t) + [k]
    decreases |t|
  {
    if t != [] {
      HeadTail(t);
      KeysCons(t[0], t[1..]);
      if t[0].0 != k {
        AddKeys(t[1..], k, amount);
        KeysCons(t[0], Add(t[1..], k, amount));
      } else {
        KeysCons((k, t[0].1 + amount), t[1..]);
      }
    }
  }

  /** The keys of an entry followed by more entries. */
  lemma KeysCons<K>(e: (K, int), t: Entries<K>)
    ensures Keys([e] + t) == [e.0] + Keys(t)
  {
  }

  /** Looking up in an entry followed by more entries. */
  lemma GetCons<K>(e: (K, int), t: Entries<K>, k: K)
    ensures Get([e] + t, k) == if e.0 == k then Some(e.1) else Get(t, k)
  {
    assert ([e] + t)[1..] == t;
  }

  /** `t[k] = (t[k] || 0) + amount` changes `t[k]` and nothing else. */
  lemma AddGet<K>(t: Entries<K>, k: K, amount: int, k': K)
    ensures Get(Add(t, k, amount), k') == if k' == k then Some(GetOrZero(t, k) + amount) else Get(t, k')
  {
    if k' == k {
      AddGetSame(t, k, amount);
    } else {
      AddGetOther(t, k, amount, k');
    }
  }

  /** Adding under `k` leaves `k`'s old value plus the amount. */
  lemma {:induction false} AddGetSame<K>(t: Entries<K>, k: K, amount: int)
    ensures Get(Add(t, k, amount), k) == Some(GetOrZero(t, k) + amount)
    decreases |t|
  {
    if t == [] {
      AddToEmpty(k, amount);
    } else if t[0].0 == k {
      AddAtHead(t, k, amount);
    } else {
      AddGetSame(t[1..], k, amount);
      AddPastHead(t, k, amount);
    }
  }

  /** Adding to no entries makes one entry. */
  lemma AddToEmpty<K>(k: K, amount: int)
    ensures Get(Add([], k, amount), k) == Some(amount)
  {
  }

  /** Adding under the head's key changes the head's value. */
  lemma AddAtHead<K>(t: Entries<K>, k: K, amount: int)
    requires t != [] && t[0].0 == k
    ensures Get(Add(t, k, amount), k) == Some(GetOrZero(t, k) + amount)
  {
    assert Get(t, k) == Some(t[0].1);
    assert Add(t, k, amount)[0] == (k, t[0].1 + amount);
  }

  /** Adding under another key than the head's leaves the head in front,
      so the lookup is the tail's. */
  lemma AddPastHead<K>(t: Entries<K>, k: K, amount: int)
    requires t != [] && t[0].0 != k
    requires Get(Add(t[1..], k, amount), k) == Some(GetOrZero(t[1..], k) + amount)
    ensures Get(Add(t, k, amount), k) == Some(GetOrZero(t, k) + amount)
  {
    var rest := Add(t[1..], k, amount);
    assert Add(t, k, amount) == [t[0]] + rest;
    GetCons(t[0], rest, k);
  }

  /** Adding under `k` leaves every other key's value alone. */
  lemma {:induction false} AddGetOther<K>(t: Entries<K>, k: K, amount: int, k': K)
    requires k' != k
    ensures Get(Add(t, k, amount), k') == Get(t, k')
    decreases |t|
  {
    if t == [] {
      GetCons((k, amount), [], k');
    } else {
      HeadTail(t);
      GetCons(t[0], t[1..], k');
      if t[0].0 == k {
        GetCons((k, t[0].1 + amount), t[1..], k');
      } else {
        AddGetOther(t[1..], k, amount, k');
        assert Add(t, k, amount) == [t[0]] + Add(t[1..], k, amount);
        GetCons(t[0], Add(t[1..], k, amount), k');
      }
    }
  }

  lemma {:induction false} AddTotal<K>(t: Entries<K>, k: K, amount: int)
    ensures Total(Add(t, k, amount)) == Total(t) + amount
    decreases |t|
  {
    if t != [] && t[0].0 != k {
      AddTotal(t[1..], k, amount);
    }
  }

  /** The keys of the tally are the distinct keys of the rows, in order of
      first appearance. */
  lemma {:induction false} TallyKeys<T, K(!new)>(rows: seq<T>, key: T -> K, amount: T -> int)
    ensures Keys(Tally(rows, key, amount)) == Distinct(Map(rows, key))
    decreases |rows|
  {
    if rows != [] {
      var prefix := rows[..|rows| - 1];
      var last := rows[|rows| - 1];
      TallyKeys(prefix, key, amount);
      AddKeys(Tally(prefix, key, amount), key(last), amount(last));
      var ks := Map(rows, key);
      assert ks[..|ks| - 1] == Map(prefix, key);
    }
  }

  /** Looking a key up in the tally gives the reference sum of its rows. */
  lemma {:induction false} TallyGet<T, K>(rows: seq<T>, key: T -> K, amount: T -> int, k: K)
    ensures Get(Tally(rows, key, amount), k) == if k in Map(rows, key) then Some(SumWhere(rows, key, amount, k)) else None
    decreases |rows|
  {
    if rows != [] {
      var prefix := rows[..|rows| - 1];
      var last := rows[|rows| - 1];
      TallyGet(prefix, key, amount, k);
      AddGet(Tally(prefix, key, amount), key(last), amount(last), k);
      var ks := Map(rows, key);
      assert ks == Map(prefix, key) + [key(last)];
      if k !in Map(prefix, key) {
        SumWhereAbsent(prefix, key, amount, k);
      }
    }
  }

  /** A key that files no row sums to zero. */
  lemma {:induction false} SumWhereAbsent<T, K>(rows: seq<T>, key: T -> K, amount: T -> int, k: K)
    requires k !in Map(rows, key)
    ensures SumWhere(rows, key, amount, k) == 0
    decreases |rows|
  {
    if rows != [] {
      var ks := Map(rows, key);
      assert ks == Map(rows[..|rows| - 1], key) + [key(rows[|rows| - 1])];
      SumWhereAbsent(rows[..|rows| - 1], key, amount, k);
    }
  }

  /** `t[k] || 0` is the reference sum, present key or not. */
  lemma TallyGetOrZero<T, K>(rows: seq<T>, key: T -> K, amount: T -> int, k: K)
    ensures GetOrZero(Tally(rows, key, amount), k) == SumWhere(rows, key, amount, k)
  {
    TallyGet(rows, key, amount, k);
    if k !in Map(rows, key) {
      SumWhereAbsent(rows, key, amount, k);
    }
  }

  /** Nothing is lost or counted twice: the values add up to all rows. */
  lemma {:induction false} TallyTotal<T, K>(rows: seq<T>, key: T -> K, amount: T -> int)
    ensures Total(Tally(rows, key, amount)) == SumAll(rows, amount)
    decreases |rows|
  {
    if rows != [] {
      var prefix := rows[..|rows| - 1];
      var last := rows[|rows| - 1];
      TallyTotal(prefix, key, amount);
      AddTotal(Tally(prefix, key, amount), key(last), amount(last));
    }
  }

  /** With distinct keys, the lookup of an entry's key returns that entry. */
  lemma {:induction false} GetEntry<K>(t: Entries<K>, i: int)
    requires NoDups(Keys(t))
    requires 0 <= i < |t|
    ensures Get(t, t[i].0) == Some(t[i].1)
    decreases |t|
  {
    if i > 0 {
      assert Keys(t)[0] != Keys(t)[i];
      assert NoDups(Keys(t[1..])) by {
        forall a, b | 0 <= a < b < |t[1..]| ensures Keys(t[1..])[a] != Keys(t[1..])[b] {
          assert Keys(t)[a + 1] != Keys(t)[b + 1];
        }
      }
      GetEntry(t[1..], i - 1);
    }
  }

  /** Every entry of the tally holds the reference sum of its key. */
  lemma TallyEntries<T, K(!new)>(rows: seq<T>, key: T -> K, amount: T -> int)
    ensures forall i :: 0 <= i < |Tally(rows, key, amount)| ==>
      Tally(rows, key, amount)[i].1 == SumWhere(rows, key, amount, Tally(rows, key, amount)[i].0)
  {
    var t := Tally(rows, key, amount);
    TallyKeys(rows, key, amount);
    forall i | 0 <= i < |t| ensures t[i].1 == SumWhere(rows, key, amount, t[i].0) {
      GetEntry(t, i);
      TallyGet(rows, key, amount, t[i].0);
    }
  }

  /** The values of the tally, in key order, are the reference sums of its keys. */
  lemma {:induction false} TotalIsSumOverKeys<K>(t: Entries<K>, f: K -> int)
    requires forall i :: 0 <= i < |t| ==> t[i].1 == f(t[i].0)
    ensures Total(t) == SumOver(Keys(t), f)
    decreases |t|
  {
    if t != [] {
      assert Keys(t) == [t[0].0] + Keys(t[1..]);
      assert Keys(t)[1..] == Keys(t[1..]);
      TotalIsSumOverKeys(t[1..], f);
    }
  }

  /** Summing the reference sums over any ordering of the distinct keys gives
      the sum of all rows: the property behind every per-month and
      per-category chart series. */
  lemma SumOverDistinctKeys<T, K(!new)>(rows: seq<T>, key: T -> K, amount: T -> int, ks: seq<K>)
    requires multiset(ks) == multiset(Distinct(Map(rows, key)))
    ensures SumOver(ks, k => SumWhere(rows, key, amount, k)) == SumAll(rows, amount)
  {
    var f := k => SumWhere(rows, key, amount, k);
    var t := Tally(rows, key, amount);
    TallyEntries(rows, key, amount);
    TallyKeys(rows, key, amount);
    TotalIsSumOverKeys(t, f);
    TallyTotal(rows, key, amount);
    SumOverPermutation(ks, Keys(t), f);
  }

  /** Summing the reference sums over distinct keys that cover every row
      gives the sum of all rows; keys that file no row add nothing. */
  lemma SumOverCoveringKeys<T, K(!new)>(rows: seq<T>, key: T -> K, amount: T -> int, ks: seq<K>)
    requires NoDups(ks)
    requires forall x :: x in rows ==> key(x) in ks
    ensures SumOver(ks, k => SumWhere(rows, key, amount, k)) == SumAll(rows, amount)
  {
    var f := k => SumWhere(rows, key, amount, k);
    var keys := Map(rows, key);
    var present := Filter(ks, k => k in keys);
    var absent := Filter(ks, k => k !in keys);
    SumOverFilterSplit(ks, k => k in keys, k => k !in keys, f);
    forall k | k in absent ensures f(k) == 0 {
      SumWhereAbsent(rows, key, amount, k);
    }
    SumOverZero(absent, f);
    FilterNoDups(ks, k => k in keys);
    forall x | x in keys ensures x in ks {
      MapMember(rows, key, x);
    }
    SameDistinctElements(keys, present);
    SumOverDistinctKeys(rows, key, amount, present);
  }

  /** A sequence without duplicates holding exactly the elements of `s` is
      a reordering of `Distinct(s)`. */
  lemma SameDistinctElements<K(!new)>(s: seq<K>, r: seq<K>)
    requires NoDups(r)
    requires forall k :: k in r <==> k in s
    ensures multiset(r) == multiset(Distinct(s))
  {
    forall k ensures multiset(r)[k] == multiset(Distinct(s))[k] {
      NoDupsCount(r, k);
      NoDupsCount(Distinct(s), k);
    }
  }

  /** A pointwise smaller amount gives a smaller reference sum. */
  lemma {:induction false} SumWhereMonotone<T, K>(rows: seq<T>, key: T -> K, a: T -> int, b: T -> int, k: K)
    requires forall x :: x in rows ==> a(x) <= b(x)
    ensures SumWhere(rows, key, a, k) <= SumWhere(rows, key, b, k)
    decreases |rows|
  {
    if rows != [] {
      SumWhereMonotone(rows[..|rows| - 1], key, a, b, k);
    }
  }

  /** The total of the entries is the sum of their values. */
  lemma {:induction false} TotalIsSumOver<K>(t: Entries<K>)
    ensures Total(t) == SumOver(t, (e: (K, int)) => e.1)
    decreases |t|
  {
    if t != [] {
      TotalIsSumOver(t[1..]);
    }
  }

  /** The total adds the last entry to the total of the others. */
  lemma TotalSnoc<K>(t: Entries<K>)
    ensures t != [] ==> Total(t) == Total(t[..|t| - 1]) + t[|t| - 1].1
  {
    if t != [] {
      var init, f := t[..|t| - 1], (e: (K, int)) => e.1;
      assert t == init + [t[|t| - 1]];
      TotalIsSumOver(t);
      TotalIsSumOver(init);
      SumOverAppend(init, [t[|t| - 1]], f);
    }
  }

  /** Reordering the entries keeps their total. */
  lemma TotalPermutation<K>(a: Entries<K>, b: Entries<K>)
    requires multiset(a) == multiset(b)
    ensures Total(a) == Total(b)
  {
    var value := (e: (K, int)) => e.1;
    TotalIsSumOver(a);
    TotalIsSumOver(b);
    SumOverPermutation(a, b, value);
  }

  /** An amount that is zero everywhere sums to zero. */
  lemma {:induction false} SumWhereZero<T, K>(rows: seq<T>, key: T -> K, zero: T -> int, k: K)
    requires forall x :: zero(x) == 0
    ensures SumWhere(rows, key, zero, k) == 0
    decreases |rows|
  {
    if rows != [] {
      SumWhereZero(rows[..|rows| - 1], key, zero, k);
    }
  }
}

=== FILE: import_wizard.dfy ===
/** The four-step statement import: choose an import type, choose a file
    and upload it for parsing, pick the parsed rows to keep, and the final
    confirmation screen. */
module ImportWizard {
  import opened Collections
  import Selection

  datatype Step = ChooseType | ChooseFile | ReviewRows | Done

  /** A row the parser returned; only `tempId` is read by the page, the rest
      is sent back as it came. */
  datatype ParsedRow = ParsedRow(tempId: string, date: string, description: string, value: int)

  /** The page state. `file` is the chosen file's name; `parsed` is the
      parse result once there is one. */
  datatype Wizard = Wizard(
    step: Step,
    importType: string,
    file: Option<string>,
    parsed: Option<seq<ParsedRow>>,
    selected: seq<string>,
    error: string)

  const Initial := Wizard(ChooseType, "", None, None, [], "")

  const NeedFileAndType := "Please select a file and import type."
  const ParseFailed := "Failed to parse file. Please try again."
  const NeedSelection := "Please select at least one transaction to import."
  const ImportFailed := "Failed to import transactions. Please try again."

  function TempIds(rows: seq<ParsedRow>): (r: seq<string>)
    ensures |r| == |rows|
    ensures forall i :: 0 <= i < |rows| ==> r[i] == rows[i].tempId
  {
    Map(rows, (x: ParsedRow) => x.tempId)
  }

  /** The type select of step 1. */
  function SelectType(w: Wizard, t: string): (r: Wizard)
    ensures w.step == ChooseType ==> r == w.(importType := t)
    ensures w.step != ChooseType ==> r == w
  {
    if w.step == ChooseType then w.(importType := t) else w
  }

  /** "Next" on step 1, disabled until a type is chosen. */
  function Next(w: Wizard): (r: Wizard)
    ensures r.step == ChooseFile <==> (w.step == ChooseType && w.importType != "") || w.step == ChooseFile
    ensures r == w || r == w.(step := ChooseFile)
  {
    if w.step == ChooseType && w.importType != "" then w.(step := ChooseFile) else w
  }

  /** "Back" on steps 2 and 3. */
  function Back(w: Wizard): (r: Wizard)
    ensures w.step == ChooseFile ==> r == w.(step := ChooseType)
    ensures w.step == ReviewRows ==> r == w.(step := ChooseFile)
    ensures w.step == ChooseType || w.step == Done ==> r == w
  {
    match w.step
    case ChooseFile => w.(step := ChooseType)
    case ReviewRows => w.(step := ChooseFile)
    case _ => w
  }

  /** `handleFileChange`: a picked file replaces the old one and clears the
      error; cancelling the picker changes nothing. */
  function PickFile(w: Wizard, picked: Option<string>): (r: Wizard)
    ensures picked.None? ==> r == w
    ensures picked.Some? ==> r == w.(file := picked, error := "")
  {
    if picked.Some? then w.(file := picked, error := "") else w
  }

  /** The reply to the parse upload. */
  datatype ParseReply = Parsed(rows: seq<ParsedRow>) | ParseError(msg: Option<string>, message: Option<string>)

  /** `err.response?.data?.msg || err.response?.data?.message || fallback`. */
  function FirstText(a: Option<string>, b: Option<string>, fallback: string): (r: string)
    ensures a.Some? && a.value != "" ==> r == a.value
    ensures !(a.Some? && a.value != "") && b.Some? && b.value != "" ==> r == b.value
    ensures !(a.Some? && a.value != "") && !(b.Some? && b.value != "") ==> r == fallback
  {
    if a.Some? && a.value != "" then a.value
    else if b.Some? && b.value != "" then b.value
    else fallback
  }

  /** `handleUpload`: without a file or a type only the error is set;
      otherwise a parse moves to step 3 with every parsed row selected, and a
      failure keeps the step and shows the error. */
  function Upload(w: Wizard, reply: ParseReply): (r: Wizard)
    ensures (w.file.None? || w.importType == "") ==> r == w.(error := NeedFileAndType)
    ensures w.file.Some? && w.importType != "" && reply.Parsed? ==>
      r == w.(step := ReviewRows, parsed := Some(reply.rows), selected := TempIds(reply.rows), error := "")
    ensures w.file.Some? && w.importType != "" && reply.ParseError? ==>
      r == w.(error := FirstText(reply.msg, reply.message, ParseFailed))
  {
    if w.file.None? || w.importType == "" then w.(error := NeedFileAndType)
    else match reply
      case Parsed(rows) => w.(step := ReviewRows, parsed := Some(rows), selected := TempIds(rows), error := "")
      case ParseError(msg, message) => w.(error := FirstText(msg, message, ParseFailed))
  }

  /** `transactionsToImport`: the parsed rows whose tempId is selected, in
      parse order. */
  function RowsToImport(rows: seq<ParsedRow>, selected: seq<string>): (r: seq<ParsedRow>)
    ensures IsSubseq(r, rows)
    ensures forall x :: x in r <==> x in rows && x.tempId in selected
    ensures forall x :: multiset(r)[x] == if x.tempId in selected then multiset(rows)[x] else 0
  {
    var keep := (x: ParsedRow) => x.tempId in selected;
    FilterSubseq(rows, keep);
    Filter(rows, keep)
  }

  /** How the import request and the refresh after it went. */
  datatype ImportReply = Imported | ConfirmError(message: Option<string>) | RefreshError(message: Option<string>)

  /** `handleConfirmImport`, on step 3 where its button is (step 3 is shown
      only with parse data): the new state and the rows sent, if any. An
      empty selection only sets the error. Otherwise the selected rows are
      sent; step 4 follows only when both the import and the refresh succeed,
      and only the step and the error ever change. */
  function Confirm(w: Wizard, reply: ImportReply): (r: (Wizard, Option<seq<ParsedRow>>))
    requires w.step == ReviewRows && w.parsed.Some?
    ensures w.selected == [] ==> r == (w.(error := NeedSelection), None)
    ensures w.selected != [] ==> r.1 == Some(RowsToImport(w.parsed.value, w.selected))
    ensures w.selected != [] && reply.Imported? ==> r.0 == w.(step := Done, error := "")
    ensures w.selected != [] && !reply.Imported? ==>
      r.0 == w.(error := FirstText(reply.message, None, ImportFailed))
  {
    if w.selected == [] then (w.(error := NeedSelection), None)
    else
      var sent := RowsToImport(w.parsed.value, w.selected);
      match reply
      case Imported => (w.(step := Done, error := ""), Some(sent))
      case ConfirmError(message) => (w.(error := FirstText(message, None, ImportFailed)), Some(sent))
      case RefreshError(message) => (w.(error := FirstText(message, None, ImportFailed)), Some(sent))
  }

  /** "Select All": every parsed row; nothing before a parse. */
  function SelectAll(w: Wizard): (r: Wizard)
    ensures w.parsed.None? ==> r == w
    ensures w.parsed.Some? ==> r == w.(selected := TempIds(w.parsed.value))
  {
    if w.parsed.Some? then w.(selected := TempIds(w.parsed.value)) else w
  }

  function SelectNone(w: Wizard): (r: Wizard)
    ensures r == w.(selected := [])
  {
    w.(selected := [])
  }

  /** A click on a parsed row or its check box. */
  function ToggleRow(w: Wizard, tempId: string): (r: Wizard)
    ensures tempId in r.selected <==> tempId !in w.selected
    ensures forall id :: id != tempId ==> (id in r.selected <==> id in w.selected)
    ensures r == w.(selected := r.selected)
  {
    w.(selected := Selection.Toggle(w.selected, tempId))
  }

  /** "Import more": back to the first step with everything cleared. */
  function Reset(w: Wizard): (r: Wizard)
    ensures r.step == ChooseType && r.importType == "" && r.file.None?
    ensures r.parsed.None? && r.selected == [] && r.error == ""
  {
    Initial
  }

  /** What every reachable state satisfies: later steps have what the
      earlier ones chose, and the selection holds parsed tempIds only. */
  ghost predicate Valid(w: Wizard) {
    && (w.step != ChooseType ==> w.importType != "")
    && (w.step == ReviewRows || w.step == Done ==> w.parsed.Some? && w.file.Some?)
    && (w.parsed.None? ==> w.selected == [])
    && (w.parsed.Some? ==> Selection.Within(w.selected, TempIds(w.parsed.value)))
  }

  lemma InitialValid()
    ensures Valid(Initial)
  {
  }

  /** The step buttons and the type select keep the state valid. */
  lemma StepsKeepValid(w: Wizard, t: string)
    requires Valid(w)
    ensures Valid(SelectType(w, t)) && Valid(Next(w)) && Valid(Back(w))
  {
  }

  /** Picking a file and uploading it keep the state valid. */
  lemma UploadKeepsValid(w: Wizard, picked: Option<string>, reply: ParseReply)
    requires Valid(w)
    ensures Valid(PickFile(w, picked)) && Valid(Upload(w, reply))
  {
    if reply.Parsed? {
      var ids := TempIds(reply.rows);
      assert forall i :: 0 <= i < |ids| ==> ids[i] in ids;
    }
  }

  lemma ConfirmKeepsValid(w: Wizard, reply: ImportReply)
    requires Valid(w) && w.step == ReviewRows
    ensures Valid(Confirm(w, reply).0)
  {
    var r := Confirm(w, reply).0;
    assert r == w.(step := r.step, error := r.error);
  }

  /** The selection buttons keep the state valid; a toggle only ever concerns
      a row on screen, so a parsed one. */
  lemma SelectionKeepsValid(w: Wizard, tempId: string)
    requires Valid(w)
    ensures Valid(SelectAll(w)) && Valid(SelectNone(w)) && Valid(Reset(w))
    ensures w.parsed.Some? && tempId in TempIds(w.parsed.value) ==> Valid(ToggleRow(w, tempId))
  {
    if w.parsed.Some? {
      var ids := TempIds(w.parsed.value);
      assert forall i :: 0 <= i < |ids| ==> ids[i] in ids;
      if tempId in ids {
        Selection.ToggleWithin(w.selected, tempId, ids);
      }
    }
  }

  /** The upload guard never moves the wizard. */
  lemma UploadGuardKeepsStep(w: Wizard, reply: ParseReply)
    requires w.file.None? || w.importType == ""
    ensures Upload(w, reply).step == w.step
    ensures Upload(w, reply).error == NeedFileAndType
  {
  }

  /** Right after a parse every row is selected, so confirming sends all of
      them. */
  lemma ConfirmAfterParseSendsAll(w: Wizard, rows: seq<ParsedRow>, reply: ImportReply)
    requires w.file.Some? && w.importType != "" && rows != []
    ensures Upload(w, Parsed(rows)).step == ReviewRows
    ensures Confirm(Upload(w, Parsed(rows)), reply).1 == Some(rows)
  {
    var u := Upload(w, Parsed(rows));
    assert forall x :: x in rows ==> x.tempId in u.selected;
    FilterAll(rows, (x: ParsedRow) => x.tempId in u.selected);
  }

  /** After "Select None" confirming only complains. */
  lemma ConfirmAfterSelectNone(w: Wizard, reply: ImportReply)
    requires w.step == ReviewRows && w.parsed.Some?
    ensures Confirm(SelectNone(w), reply) == (SelectNone(w).(error := NeedSelection), None)
  {
  }
}

=== FILE: ledger.dfy ===
/** The transaction rows the list and chart components receive from the
    server, with the fields the components read. */
module Ledger {
  import Calendar

  /** A category or subcategory as a row holds it: absent, an id string the
      server did not populate, or a populated `{ _id, name }` object. */
  datatype Ref = NoRef | IdRef(id: string) | Named(id: string, name: string)

  /** `ref?.name || ""`: only a populated reference has a name. */
  function RefName(r: Ref): string {
    if r.Named? then r.name else ""
  }

  /** The values of `transac_macrotype` the components test for. */
  const Income: string := "income"
  const Outcome: string := "outcome"

  /** One transaction; `value` is the stored amount, negative or positive,
      taken as an exact whole number of cents (the source's floating-point
      rounding is not modelled). */
  datatype Transaction = Transaction(
    id: string,                 // `_id`
    date: Calendar.Date,
    description: string,        // always present; a missing one is not modelled
    value: int,
    macrotype: string,          // `transac_macrotype`
    subtype: string,            // `transac_subtype`, "" when absent
    bank: string,               // "" when absent
    category: Ref,
    subcategory: Ref)

  /** `Math.abs(value)`. */
  function Abs(v: int): (r: int)
    ensures r >= 0 && (r == v || r == -v)
  {
    if v < 0 then -v else v
  }
}

=== FILE: legacy_charts_page.dfy ===
/** The older charts page: the same month filter, a monthly chart and a
    category ranking over raw (signed) values of every row in the range,
    and preset buttons that move only the start month. */
module LegacyChartsPage {
  import opened Collections
  import Ordering
  import Calendar
  import Ledger
  import Grouping
  import Charts
  import ChartsPage

  type Transaction = Ledger.Transaction
  type YearMonth = Calendar.YearMonth

  /** The inputs open on January to December 2024. */
  const InitialRange := Charts.Range(Some(Calendar.YearMonth(2024, 1)), Some(Calendar.YearMonth(2024, 12)))

  /** `calculateDateRange(monthsAgo)`: the month `monthsAgo` months before
      the current one. */
  function CalculateDateRange(now: YearMonth, monthsAgo: int): (r: YearMonth)
    ensures Calendar.MonthIndex(r) == Calendar.MonthIndex(now) - monthsAgo
  {
    Calendar.MonthsBefore(now, monthsAgo)
  }

  /** The "Últimos N Meses" buttons as written: only the start input moves;
      the end input keeps whatever it held. */
  function PresetAsWritten(range: Charts.Range, now: YearMonth, monthsAgo: int): (r: Charts.Range)
    ensures r.end == range.end
    ensures r.start.Some? && Calendar.MonthIndex(r.start.value) == Calendar.MonthIndex(now) - monthsAgo
  {
    Charts.Range(Some(CalculateDateRange(now, monthsAgo)), range.end)
  }

  /** Once the start lies past the untouched end, a preset shows nothing. */
  lemma PresetPastEndShowsNothing(rows: seq<Transaction>, range: Charts.Range, now: YearMonth, monthsAgo: int)
    requires range.end.Some?
    requires Calendar.MonthIndex(now) - monthsAgo > Calendar.MonthIndex(range.end.value)
    ensures ChartsPage.MonthFilter(rows, PresetAsWritten(range, now, monthsAgo)) == []
  {
    var r := PresetAsWritten(range, now, monthsAgo);
    var kept := ChartsPage.MonthFilter(rows, r);
    forall t | t in rows ensures !Charts.InRange(t, r.start.value, r.end.value) {
      Calendar.InRangeIff(Charts.MonthOf(t), r.start.value, r.end.value);
    }
    assert forall t :: t !in kept;
  }

  /** In October 2026, on the initial inputs, "Últimos 3 Meses" empties the
      charts whatever the rows. */
  lemma ThreeMonthsPresetIn2026(rows: seq<Transaction>)
    ensures ChartsPage.MonthFilter(rows, PresetAsWritten(InitialRange, Calendar.YearMonth(2026, 10), 3)) == []
  {
    PresetPastEndShowsNothing(rows, InitialRange, Calendar.YearMonth(2026, 10), 3);
  }

  /** The buttons as evidently meant: the range runs from `monthsAgo` months
      back to the current month, as the newer page's presets do. */
  function PresetCorrected(range: Charts.Range, now: YearMonth, monthsAgo: int): (r: Charts.Range)
    ensures r.start == PresetAsWritten(range, now, monthsAgo).start
    ensures r.end == Some(now)
  {
    Charts.Preset(now, monthsAgo)
  }

  /** With the corrected buttons, the rows of the current month and of the
      months back to the start are always shown, whatever the inputs held. */
  lemma PresetCorrectedShowsRecentRows(rows: seq<Transaction>, range: Charts.Range, now: YearMonth, monthsAgo: int, t: Transaction)
    ensures t in ChartsPage.MonthFilter(rows, PresetCorrected(range, now, monthsAgo)) <==>
      t in rows && Calendar.MonthIndex(now) - monthsAgo <= Calendar.MonthIndex(Charts.MonthOf(t)) <= Calendar.MonthIndex(now)
  {
    ChartsPage.PresetKeepsRecentMonths(rows, now, monthsAgo, t);
  }

  // ---------------------------------------------------------------------
  // Monthly data

  /** What a row adds to `typeTotal`: its value when it matches. */
  function TypeAmount(line: ChartsPage.LineType, selected: string): Transaction -> int {
    (t: Transaction) => if ChartsPage.Matches(line, selected, t) then t.value else 0
  }

  /** `processMonthlyData` over raw values: each month of the rows, earliest
      first, with the values of all its rows and of its matching rows. */
  function ProcessMonthlyData(filtered: seq<Transaction>, line: ChartsPage.LineType, selected: string): (r: ChartsPage.MonthlyData)
    ensures filtered == [] ==> r.labels == [] && r.total == [] && r.typeTotal == []
    ensures |r.total| == |r.labels| && |r.typeTotal| == |r.labels|
    ensures NoDups(r.labels)
    ensures forall m :: m in r.labels <==> exists t :: t in filtered && Charts.MonthOf(t) == m
    ensures forall i, j :: 0 <= i < j < |r.labels| ==> Calendar.MonthIndex(r.labels[i]) < Calendar.MonthIndex(r.labels[j])
    ensures forall i :: 0 <= i < |r.labels| ==> r.total[i] == Charts.MonthSum(filtered, Charts.RawValue, r.labels[i])
    ensures forall i :: 0 <= i < |r.labels| ==>
      r.typeTotal[i] == Charts.MonthSum(filtered, TypeAmount(line, selected), r.labels[i])
  {
    var labels := Charts.SortedMonths(filtered);
    ChartsPage.MonthlyData(labels, Charts.Series(filtered, Charts.RawValue, labels),
                           Charts.Series(filtered, TypeAmount(line, selected), labels))
  }

  /** Both lines add up over the months to the sums over all rows. */
  lemma MonthlyDataSums(filtered: seq<Transaction>, line: ChartsPage.LineType, selected: string)
    ensures var r := ProcessMonthlyData(filtered, line, selected);
      && SumOver(r.total, (x: int) => x) == Grouping.SumAll(filtered, Charts.RawValue)
      && SumOver(r.typeTotal, (x: int) => x) == Grouping.SumAll(filtered, TypeAmount(line, selected))
  {
    var labels := Charts.SortedMonths(filtered);
    Charts.SeriesSum(filtered, Charts.RawValue, labels);
    Charts.SeriesSum(filtered, TypeAmount(line, selected), labels);
  }

  // ---------------------------------------------------------------------
  // The ranking

  /** `generateRanking`: the named rows' values added up per name, the
      entries then sorted by value, largest first (`b[1] - a[1]`); entries
      with the same value keep their order. */
  function Ranking(filtered: seq<Transaction>, field: ChartsPage.Field): (r: Grouping.Entries<string>)
    ensures multiset(r) == multiset(ChartsPage.Ranking(filtered, field, Charts.RawValue))
    ensures forall i, j :: 0 <= i < j < |r| ==> r[i].1 >= r[j].1
    ensures var key := ChartsPage.EntryKey(ChartsPage.ByValue);
      forall k :: Ordering.WithKey(r, key, k) == Ordering.WithKey(ChartsPage.Ranking(filtered, field, Charts.RawValue), key, k)
  {
    ChartsPage.SortRanking(ChartsPage.Ranking(filtered, field, Charts.RawValue), ChartsPage.ByValue, Ordering.Desc)
  }

  /** Each ranked entry is a name of the rows with the sum of its rows'
      values, and every name of the rows is ranked. */
  lemma RankingEntries(filtered: seq<Transaction>, field: ChartsPage.Field)
    ensures forall e :: e in Ranking(filtered, field) ==>
      e.1 == Grouping.SumWhere(ChartsPage.NamedRows(filtered, field), ChartsPage.NameOf(field), Charts.RawValue, e.0)
    ensures forall n :: n in Grouping.Keys(Ranking(filtered, field)) <==>
      n != "" && exists t :: t in filtered && ChartsPage.NameOf(field)(t) == n
  {
    var entries := ChartsPage.Ranking(filtered, field, Charts.RawValue);
    var r := Ranking(filtered, field);
    forall e | e in r ensures e in entries {
      assert e in multiset(r);
    }
    forall n ensures n in Grouping.Keys(r) <==> n in Grouping.Keys(entries) {
      if n in Grouping.Keys(r) {
        var i :| 0 <= i < |r| && r[i].0 == n;
        assert r[i] in multiset(entries);
      }
      if n in Grouping.Keys(entries) {
        var i :| 0 <= i < |entries| && entries[i].0 == n;
        assert entries[i] in multiset(r);
      }
    }
  }

  /** `calculateTotalRanking`: the total under the table is the sum of the
      values of all named rows. */
  lemma RankingTotal(filtered: seq<Transaction>, field: ChartsPage.Field)
    ensures Grouping.Total(Ranking(filtered, field)) == Grouping.SumAll(ChartsPage.NamedRows(filtered, field), Charts.RawValue)
  {
    ChartsPage.RankingTotal(filtered, field, Charts.RawValue, ChartsPage.ByValue, Ordering.Desc);
  }
}

=== FILE: legacy_charts_summary.dfy ===
/** The older summary charts: a period of "3 months", "6 months" or "1 year"
    counted back from today, an income-versus-outcome line of raw values per
    month, and one bar per distinct category value. */
module LegacyChartsSummary {
  import opened Collections
  import Calendar
  import Ledger
  import Grouping
  import Charts
  import ChartsSummary

  type Transaction = Ledger.Transaction
  type Date = Calendar.Date

  datatype Period = ThreeMonths | SixMonths | OneYear

  /** The period shown first. */
  const InitialPeriod := OneYear

  /** The first day kept: today with its month moved back three or six
      months (`setMonth`), or with its year moved back one (`setFullYear`).
      Both keep today's day of the month, and a day the target month lacks
      runs on into the following month, so the cutoff is always a real date
      and either lies on today's day in the target month or on the surplus
      day of the month after it. */
  function Cutoff(today: Date, p: Period): (r: Date)
    ensures Calendar.IsRealDate(r)
    ensures var back := Calendar.MonthsBefore(today.Ym(), MonthsBack(p));
      today.day <= Calendar.DaysIn(back) ==> r.Ym() == back && r.day == today.day
    ensures var back := Calendar.MonthsBefore(today.Ym(), MonthsBack(p));
      today.day > Calendar.DaysIn(back) ==>
        Calendar.MonthIndex(r.Ym()) == Calendar.MonthIndex(back) + 1 && Calendar.DaysIn(back) + r.day == today.day
  {
    match p
    case ThreeMonths => Calendar.OnDay(Calendar.MonthsBefore(today.Ym(), 3), today.day)
    case SixMonths => Calendar.OnDay(Calendar.MonthsBefore(today.Ym(), 6), today.day)
    case OneYear =>
      OneYearIsTwelveMonths(today);
      Calendar.OnDay(Calendar.YearMonth(today.year - 1, today.month), today.day)
  }

  /** The year back is twelve months back. */
  lemma OneYearIsTwelveMonths(today: Date)
    ensures Calendar.YearMonth(today.year - 1, today.month) == Calendar.MonthsBefore(today.Ym(), 12)
  {
    var a, b := Calendar.YearMonth(today.year - 1, today.month), Calendar.MonthsBefore(today.Ym(), 12);
    Calendar.MonthIndexInjective(a, b);
  }

  /** On the 31st of May of a common year, "3 months" starts on the 3rd of
      March: the 31st of February runs three days into March. */
  lemma ThreeMonthsFromMay31(year: int)
    requires !Calendar.LeapYear(year)
    ensures Cutoff(Calendar.Date(year, 5, 31), ThreeMonths) == Calendar.Date(year, 3, 3)
  {
    var back := Calendar.MonthsBefore(Calendar.YearMonth(year, 5), 3);
    Calendar.MonthIndexInjective(back, Calendar.YearMonth(year, 2));
    var r := Cutoff(Calendar.Date(year, 5, 31), ThreeMonths);
    Calendar.MonthIndexInjective(r.Ym(), Calendar.YearMonth(year, 3));
  }

  /** On the 29th of February, "1 year" starts on the 1st of March of the
      year before. */
  lemma OneYearFromLeapDay(year: int)
    requires Calendar.LeapYear(year)
    ensures Cutoff(Calendar.Date(year, 2, 29), OneYear) == Calendar.Date(year - 1, 3, 1)
  {
    var r := Cutoff(Calendar.Date(year, 2, 29), OneYear);
    assert !Calendar.LeapYear(year - 1);
    Calendar.MonthIndexInjective(r.Ym(), Calendar.YearMonth(year - 1, 3));
  }

  /** The months back of each period. */
  function MonthsBack(p: Period): int {
    match p
    case ThreeMonths => 3
    case SixMonths => 6
    case OneYear => 12
  }

  /** Every cutoff lies in the month `MonthsBack` months before today, or,
      when today's day runs past that month's end, in the month after it. */
  lemma CutoffMonth(today: Date, p: Period)
    ensures var n := Calendar.MonthIndex(Cutoff(today, p).Ym()) - (Calendar.MonthIndex(today.Ym()) - MonthsBack(p));
      n == 0 || n == 1
  {
  }

  /** `filterByPeriod`: the rows dated on or after the cutoff day. Dates
      are compared by calendar day; the time of day the cutoff keeps is not
      modelled. */
  function FilterByPeriod(rows: seq<Transaction>, today: Date, p: Period): (r: seq<Transaction>)
    ensures IsSubseq(r, rows)
    ensures forall t :: t in r <==> t in rows && Calendar.DateNotBefore(t.date, Cutoff(today, p))
    ensures forall t :: multiset(r)[t] == if Calendar.DateNotBefore(t.date, Cutoff(today, p)) then multiset(rows)[t] else 0
  {
    var keep := (t: Transaction) => Calendar.DateNotBefore(t.date, Cutoff(today, p));
    FilterSubseq(rows, keep);
    Filter(rows, keep)
  }

  /** A longer period keeps every row a shorter one keeps. */
  lemma LongerPeriodKeepsMore(rows: seq<Transaction>, today: Date, p: Period, q: Period, t: Transaction)
    requires MonthsBack(p) <= MonthsBack(q)
    requires t in FilterByPeriod(rows, today, p)
    ensures t in FilterByPeriod(rows, today, q)
  {
    var cp, cq := Cutoff(today, p), Cutoff(today, q);
    if p != q {
      CutoffMonth(today, p);
      CutoffMonth(today, q);
      Calendar.DayOrdinalOrder(t.date, cp);
      Calendar.DayOrdinalOrder(t.date, cq);
      Calendar.DayOrdinalOrder(cp, cq);
      Calendar.NotBeforeIff(cp.Ym(), cq.Ym());
    }
  }

  // ---------------------------------------------------------------------
  // The line chart

  /** `incomeData` / `outcomeData`: per month of the filtered rows, the sum
      of the raw values of that macrotype. */
  function LineSeries(filtered: seq<Transaction>, macrotype: string): (r: seq<int>)
    ensures |r| == |Charts.SortedMonths(filtered)|
    ensures forall i :: 0 <= i < |r| ==>
      r[i] == Charts.MonthSum(ChartsSummary.OfMacrotype(filtered, macrotype), Charts.RawValue, Charts.SortedMonths(filtered)[i])
  {
    Charts.Series(ChartsSummary.OfMacrotype(filtered, macrotype), Charts.RawValue, Charts.SortedMonths(filtered))
  }

  lemma LineSeriesSum(filtered: seq<Transaction>, macrotype: string)
    ensures SumOver(LineSeries(filtered, macrotype), (x: int) => x) ==
      Grouping.SumAll(ChartsSummary.OfMacrotype(filtered, macrotype), Charts.RawValue)
  {
    var rows := ChartsSummary.OfMacrotype(filtered, macrotype);
    Charts.SubsetOnAxis(filtered, rows);
    Charts.SeriesSum(rows, Charts.RawValue, Charts.SortedMonths(filtered));
  }

  // ---------------------------------------------------------------------
  // The category bars

  /** How `new Set` and `===` tell two `transaction.category` values apart:
      a populated category is an object of its own row, so it equals only
      itself; an id string or a missing category compares by value. A null
      and an undefined category are both the absent reference here. */
  datatype Identity = RowObject(row: int) | Plain(category: Ledger.Ref)

  /** A row together with its position. */
  type Indexed = (int, Transaction)

  function WithIndex(rows: seq<Transaction>): (r: seq<Indexed>)
    ensures |r| == |rows|
    ensures forall i :: 0 <= i < |rows| ==> r[i] == (i, rows[i])
  {
    seq(|rows|, i requires 0 <= i < |rows| => (i, rows[i]))
  }

  function IdentityOf(x: Indexed): Identity {
    if x.1.category.Named? then RowObject(x.0) else Plain(x.1.category)
  }

  function IndexedValue(x: Indexed): int {
    x.1.value
  }

  /** `categoryData` as written: one label per distinct category value under
      object identity, with the sum of the rows holding that very value. */
  function CategoryBarsAsWritten(filtered: seq<Transaction>): (r: seq<(Identity, int)>)
    ensures |r| == |Distinct(Map(WithIndex(filtered), IdentityOf))|
    ensures forall i :: 0 <= i < |r| ==> r[i].0 == Distinct(Map(WithIndex(filtered), IdentityOf))[i]
  {
    var rows := WithIndex(filtered);
    Map(Distinct(Map(rows, IdentityOf)), k => (k, Grouping.SumWhere(rows, IdentityOf, IndexedValue, k)))
  }

  /** The bars as evidently meant: one per distinct category, with the sum
      of its rows' values. */
  function CategoryBars(filtered: seq<Transaction>): (r: seq<(Ledger.Ref, int)>)
    ensures |r| == |Distinct(Map(filtered, (t: Transaction) => t.category))|
    ensures forall i :: 0 <= i < |r| ==>
      && r[i].0 == Distinct(Map(filtered, (t: Transaction) => t.category))[i]
      && r[i].1 == Grouping.SumWhere(filtered, (t: Transaction) => t.category, Charts.RawValue, r[i].0)
  {
    var keys := Distinct(Map(filtered, (t: Transaction) => t.category));
    Map(keys, c => (c, Grouping.SumWhere(filtered, (t: Transaction) => t.category, Charts.RawValue, c)))
  }

  /** Each category gets one bar, and the bars add up to all filtered rows. */
  lemma CategoryBarsSum(filtered: seq<Transaction>)
    ensures NoDups(Map(CategoryBars(filtered), (b: (Ledger.Ref, int)) => b.0))
    ensures SumOver(CategoryBars(filtered), (b: (Ledger.Ref, int)) => b.1) == Grouping.SumAll(filtered, Charts.RawValue)
  {
    var key := (t: Transaction) => t.category;
    var keys := Distinct(Map(filtered, key));
    var bars := CategoryBars(filtered);
    assert Map(bars, (b: (Ledger.Ref, int)) => b.0) == keys;
    var f := c => Grouping.SumWhere(filtered, key, Charts.RawValue, c);
    SumOverMap(keys, c => (c, f(c)), (b: (Ledger.Ref, int)) => b.1, f);
    assert bars == Map(keys, c => (c, f(c)));
    Grouping.SumOverDistinctKeys(filtered, key, Charts.RawValue, keys);
  }

  /** Two rows of the same populated category: as written they make two
      bars, as meant one bar with both values. */
  lemma SameCategoryTwoBars()
    ensures var c := Ledger.Named("c1", "food");
      var t1 := Ledger.Transaction("t1", Calendar.Date(2024, 5, 1), "market", -1000, Ledger.Outcome, "", "", c, Ledger.NoRef);
      var t2 := Ledger.Transaction("t2", Calendar.Date(2024, 5, 2), "bakery", -500, Ledger.Outcome, "", "", c, Ledger.NoRef);
      |CategoryBarsAsWritten([t1, t2])| == 2 && CategoryBars([t1, t2]) == [(c, -1500)]
  {
    var c := Ledger.Named("c1", "food");
    var t1 := Ledger.Transaction("t1", Calendar.Date(2024, 5, 1), "market", -1000, Ledger.Outcome, "", "", c, Ledger.NoRef);
    var t2 := Ledger.Transaction("t2", Calendar.Date(2024, 5, 2), "bakery", -500, Ledger.Outcome, "", "", c, Ledger.NoRef);
    TwoRowsTwoIdentities(t1, t2);
    SharedCategoryOneBar(t1, t2);
  }

  /** Any two rows with populated categories are told apart, whatever the
      categories hold. */
  lemma TwoRowsTwoIdentities(t1: Transaction, t2: Transaction)
    requires t1.category.Named? && t2.category.Named?
    ensures |CategoryBarsAsWritten([t1, t2])| == 2
  {
    var ids := Map(WithIndex([t1, t2]), IdentityOf);
    assert ids == [RowObject(0), RowObject(1)];
    assert ids[..1] == [RowObject(0)];
    assert Distinct(ids[..1]) == [RowObject(0)];
    assert Distinct(ids) == [RowObject(0), RowObject(1)];
  }

  /** Two rows of one category make one bar holding both values. */
  lemma SharedCategoryOneBar(t1: Transaction, t2: Transaction)
    requires t1.category == t2.category
    ensures CategoryBars([t1, t2]) == [(t1.category, t1.value + t2.value)]
  {
    var c := t1.category;
    var rows := [t1, t2];
    var cats := Map(rows, (t: Transaction) => t.category);
    assert cats == [c, c];
    assert cats[..1] == [c];
    assert Distinct(cats[..1]) == [c];
    assert Distinct(cats) == [c];
    var key := (t: Transaction) => t.category;
    assert rows[..1] == [t1];
    assert [t1][..0] == [];
    assert Grouping.SumWhere([t1], key, Charts.RawValue, c) == t1.value;
    assert Grouping.SumWhere(rows, key, Charts.RawValue, c) == t1.value + t2.value;
    var bars := CategoryBars(rows);
    assert |bars| == 1 && bars[0] == (c, t1.value + t2.value);
  }
}

=== FILE: legacy_mass_edit.dfy ===
/** The older mass-edit panel: the same three "Apply" buttons, without the
    delete, and without disabling a button while its placeholder option is
    chosen. */
module LegacyMassEdit {
  import MassEdit
  import Ledger
  import Calendar

  type Transaction = Ledger.Transaction

  /** An "Apply" click as the older panel handles it: one request per
      selected id whatever is chosen, and the list updated when they all
      succeed. */
  function ApplyAsWritten(rows: seq<Transaction>, ids: seq<string>, e: MassEdit.Edit, allSucceeded: bool): (r: MassEdit.EditResult)
    ensures r.sent == ids
    ensures allSucceeded ==> r.rows == MassEdit.ApplyToSelected(rows, ids, e)
    ensures !allSucceeded ==> r.rows == rows
  {
    if allSucceeded then MassEdit.EditResult(MassEdit.ApplyToSelected(rows, ids, e), ids)
    else MassEdit.EditResult(rows, ids)
  }

  /** With a real choice the older panel does what the newer one does. */
  lemma AgreesOnRealChoice(rows: seq<Transaction>, ids: seq<string>, e: MassEdit.Edit, allSucceeded: bool)
    requires MassEdit.ChosenValue(e) != ""
    ensures ApplyAsWritten(rows, ids, e, allSucceeded) == MassEdit.ApplyEdit(rows, ids, e, allSucceeded)
  {
  }

  /** The placeholder "Select Category" still goes out: a selected row
      with a named category is sent `category: ""` and loses its category. */
  lemma PlaceholderClearsCategory()
    ensures var t := Ledger.Transaction("t1", Calendar.Date(2024, 5, 1), "market", -1000, Ledger.Outcome,
                                        "debit card", "bank", Ledger.Named("c1", "food"), Ledger.NoRef);
            var r := ApplyAsWritten([t], ["t1"], MassEdit.SetCategory(""), true);
            r.sent == ["t1"] && r.rows == [t.(category := Ledger.IdRef(""))] && r.rows != [t]
  {
  }

  /** The newer panel's disabled button leaves the same row alone. */
  lemma PlaceholderIgnoredWhenDisabled()
    ensures var t := Ledger.Transaction("t1", Calendar.Date(2024, 5, 1), "market", -1000, Ledger.Outcome,
                                        "debit card", "bank", Ledger.Named("c1", "food"), Ledger.NoRef);
            MassEdit.ApplyEdit([t], ["t1"], MassEdit.SetCategory(""), true) == MassEdit.EditResult([t], [])
  {
  }
}

=== FILE: legacy_search_bar.dfy ===
/** The older search bar: the same macrotype chips, and select options
    taken from the rows only. */
module LegacySearchBar {
  import opened Collections
  import Ledger
  import SearchBar

  type Transaction = Ledger.Transaction

  /** `uniqueCategories`. */
  function UniqueCategories(rows: seq<Transaction>): (r: seq<string>)
    ensures NoDups(r)
    ensures forall n :: n in r <==> n != "" && exists t :: t in rows && Ledger.RefName(t.category) == n
  {
    var names := SearchBar.CategoryNames(rows);
    forall n ensures n in names <==> exists t :: t in rows && Ledger.RefName(t.category) == n {
      MapMember(rows, (t: Transaction) => Ledger.RefName(t.category), n);
    }
    SearchBar.OptionsFromRows(names)
  }

  /** `uniqueSubcategories`. */
  function UniqueSubcategories(rows: seq<Transaction>): (r: seq<string>)
    ensures NoDups(r)
    ensures forall n :: n in r <==> n != "" && exists t :: t in rows && Ledger.RefName(t.subcategory) == n
  {
    var names := SearchBar.SubcategoryNames(rows);
    forall n ensures n in names <==> exists t :: t in rows && Ledger.RefName(t.subcategory) == n {
      MapMember(rows, (t: Transaction) => Ledger.RefName(t.subcategory), n);
    }
    SearchBar.OptionsFromRows(names)
  }

  /** The newer bar, given no API lists, offers the same options. */
  lemma SameAsNewerWithoutApiLists(rows: seq<Transaction>)
    ensures UniqueCategories(rows) == SearchBar.CategoryOptions([], rows)
    ensures UniqueSubcategories(rows) == SearchBar.SubcategoryOptions([], rows)
  {
  }
}

=== FILE: legacy_transaction_box.dfy ===
/** The older transaction list: the same four filters, always sorted by
    value from largest to smallest (`(a, b) => b.value - a.value`), with the
    same check boxes and total. */
module LegacyTransactionBox {
  import opened Collections
  import Ordering
  import TransactionBox

  type Transaction = TransactionBox.Transaction

  /** `b.value - a.value` is the value comparison negated. */
  function ValueKey(t: Transaction): Ordering.Key {
    Ordering.IntKey(t.value)
  }

  /** `filteredTransactions`, sorted in place after filtering. */
  function Shown(rows: seq<Transaction>, f: TransactionBox.Filters): (r: seq<Transaction>)
    ensures multiset(r) == multiset(TransactionBox.FilterTransactions(rows, f))
    ensures forall i, j :: 0 <= i < j < |r| ==> r[i].value >= r[j].value
    ensures forall k :: Ordering.WithKey(r, ValueKey, k) == Ordering.WithKey(TransactionBox.FilterTransactions(rows, f), ValueKey, k)
  {
    var r := Ordering.SortBy(TransactionBox.FilterTransactions(rows, f), ValueKey, Ordering.Desc);
    ValueDescending(r);
    r
  }

  /** Sorted descending by `ValueKey` is largest value first. */
  lemma ValueDescending(r: seq<Transaction>)
    requires Ordering.SortedBy(r, ValueKey, Ordering.Desc)
    ensures forall i, j :: 0 <= i < j < |r| ==> r[i].value >= r[j].value
  {
    forall i, j | 0 <= i < j < |r| ensures r[i].value >= r[j].value {
      assert Ordering.Le(Ordering.Desc, ValueKey(r[i]), ValueKey(r[j]));
    }
  }

  /** The older list shows exactly what the newer one shows before any sort
      header is clicked. */
  lemma SameAsNewerDefault(rows: seq<Transaction>, f: TransactionBox.Filters)
    ensures Shown(rows, f) == TransactionBox.Shown(rows, f, TransactionBox.DefaultSort)
  {
    var s := TransactionBox.FilterTransactions(rows, f);
    Ordering.SortByCongruent(s, ValueKey, TransactionBox.SortKey(TransactionBox.ByValue), Ordering.Desc);
  }

  /** Its "select all" takes the shown rows, so the total is the sum of the
      filtered values here too. */
  lemma SelectAllTotal(rows: seq<Transaction>, f: TransactionBox.Filters)
    requires TransactionBox.UniqueIds(rows)
    ensures TransactionBox.TotalSelected(rows, TransactionBox.SelectAllChange(Shown(rows, f), true)) ==
      SumOver(TransactionBox.FilterTransactions(rows, f), (t: Transaction) => t.value)
  {
    SameAsNewerDefault(rows, f);
    TransactionBox.SelectAllTotal(rows, f, TransactionBox.DefaultSort);
  }
}

=== FILE: mass_edit.dfy ===
/** The mass-edit panel: set the type, the category or the subcategory of
    every selected transaction, or delete all of them. */
module MassEdit {
  import opened Collections
  import Ledger
  import TransactionBox

  type Transaction = Ledger.Transaction

  /** One "Apply" button with the value chosen in its select (a subtype
      name, or a category or subcategory id; "" is the placeholder option). */
  datatype Edit = SetSubtype(subtype: string) | SetCategory(categoryId: string) | SetSubcategory(subcategoryId: string)

  function ChosenValue(e: Edit): string {
    match e
    case SetSubtype(v) => v
    case SetCategory(v) => v
    case SetSubcategory(v) => v
  }

  /** `{ ...transaction, ...updateData }`: the one field the edit names
      becomes the chosen value; a category becomes a bare id, without name. */
  function Edited(t: Transaction, e: Edit): (r: Transaction)
    ensures r.id == t.id && r.value == t.value && r.date == t.date
    ensures r.description == t.description && r.macrotype == t.macrotype && r.bank == t.bank
    ensures e.SetSubtype? ==> r == t.(subtype := e.subtype)
    ensures e.SetCategory? ==> r == t.(category := Ledger.IdRef(e.categoryId))
    ensures e.SetSubcategory? ==> r == t.(subcategory := Ledger.IdRef(e.subcategoryId))
  {
    match e
    case SetSubtype(v) => t.(subtype := v)
    case SetCategory(v) => t.(category := Ledger.IdRef(v))
    case SetSubcategory(v) => t.(subcategory := Ledger.IdRef(v))
  }

  /** The `prev.map(...)` after the requests: selected rows edited, the
      others untouched, the order kept. */
  function ApplyToSelected(rows: seq<Transaction>, ids: seq<string>, e: Edit): (r: seq<Transaction>)
    ensures |r| == |rows|
    ensures forall i :: 0 <= i < |rows| && rows[i].id in ids ==> r[i] == Edited(rows[i], e)
    ensures forall i :: 0 <= i < |rows| && rows[i].id !in ids ==> r[i] == rows[i]
  {
    Map(rows, (t: Transaction) => if t.id in ids then Edited(t, e) else t)
  }

  /** What an "Apply" click leads to: the list afterwards and the ids a PUT
      was sent for. */
  datatype EditResult = EditResult(rows: seq<Transaction>, sent: seq<string>)

  /** An "Apply" click. The button is disabled while the placeholder is
      chosen; otherwise one request per selected id is sent, and the list is
      updated only when every request succeeded. */
  function ApplyEdit(rows: seq<Transaction>, ids: seq<string>, e: Edit, allSucceeded: bool): (r: EditResult)
    ensures ChosenValue(e) == "" ==> r == EditResult(rows, [])
    ensures ChosenValue(e) != "" ==> r.sent == ids
    ensures ChosenValue(e) != "" && allSucceeded ==> r.rows == ApplyToSelected(rows, ids, e)
    ensures !allSucceeded ==> r.rows == rows
  {
    if ChosenValue(e) == "" then EditResult(rows, [])
    else if allSucceeded then EditResult(ApplyToSelected(rows, ids, e), ids)
    else EditResult(rows, ids)
  }

  /** Applying the same edit twice is applying it once. */
  lemma ApplyIdempotent(rows: seq<Transaction>, ids: seq<string>, e: Edit)
    ensures ApplyToSelected(ApplyToSelected(rows, ids, e), ids, e) == ApplyToSelected(rows, ids, e)
  {
  }

  /** Edits of different fields commute. */
  lemma ApplyCommutes(rows: seq<Transaction>, ids: seq<string>, e1: Edit, e2: Edit)
    requires (e1.SetSubtype? && !e2.SetSubtype?) || (e1.SetCategory? && !e2.SetCategory?)
      || (e1.SetSubcategory? && !e2.SetSubcategory?)
    ensures ApplyToSelected(ApplyToSelected(rows, ids, e1), ids, e2) ==
      ApplyToSelected(ApplyToSelected(rows, ids, e2), ids, e1)
  {
  }

  /** The rows keep their ids and values, so the selected total shown by the
      list does not move. */
  lemma EditKeepsTotal(rows: seq<Transaction>, ids: seq<string>, e: Edit, selected: seq<string>)
    ensures TransactionBox.TotalSelected(ApplyToSelected(rows, ids, e), selected) ==
      TransactionBox.TotalSelected(rows, selected)
  {
    var r := ApplyToSelected(rows, ids, e);
    forall id | id in selected ensures TransactionBox.ValueOf(r, id) == TransactionBox.ValueOf(rows, id) {
      ValueOfSameIdsAndValues(r, rows, id);
    }
    SumOverCongruent(selected, id => TransactionBox.ValueOf(r, id), id => TransactionBox.ValueOf(rows, id));
  }

  /** Two lists with the same ids and values, row by row, report the same
      value for every id. */
  lemma {:induction false} ValueOfSameIdsAndValues(a: seq<Transaction>, b: seq<Transaction>, id: string)
    requires |a| == |b|
    requires forall i :: 0 <= i < |a| ==> a[i].id == b[i].id && a[i].value == b[i].value
    ensures TransactionBox.ValueOf(a, id) == TransactionBox.ValueOf(b, id)
    decreases |a|
  {
    if a != [] && a[0].id != id {
      ValueOfSameIdsAndValues(a[1..], b[1..], id);
    }
  }

  /** An edited category is only an id until the list is fetched again, so
      the category filter, which compares names, no longer shows those rows. */
  lemma CategoryEditHidesFromCategoryFilter(rows: seq<Transaction>, ids: seq<string>, v: string,
                                            f: TransactionBox.Filters, t: Transaction)
    requires f.category != ""
    requires t in ApplyToSelected(rows, ids, SetCategory(v)) && t.id in ids
    ensures !TransactionBox.Visible(f, t)
  {
    var r := ApplyToSelected(rows, ids, SetCategory(v));
    var i :| 0 <= i < |r| && r[i] == t;
  }

  // ---------------------------------------------------------------------
  // Delete

  /** The reply to the bulk delete, with the `msg` of its body if any. */
  datatype DeleteReply = Deleted(msg: Option<string>) | DeleteFailed(msg: Option<string>)

  const DeletedText := "Transações excluídas."
  const DeleteFailedText := "Erro ao excluir. Tente novamente."

  /** The list, the selection, whether the request went out, and the alert. */
  datatype DeleteResult = DeleteResult(rows: seq<Transaction>, selected: seq<string>, sent: bool, alert: Option<string>)

  /** The rows a successful delete leaves: those not selected, in order. */
  function Remaining(rows: seq<Transaction>, ids: seq<string>): (r: seq<Transaction>)
    ensures IsSubseq(r, rows)
    ensures forall t :: t in r <==> t in rows && t.id !in ids
    ensures forall t :: multiset(r)[t] == if t.id !in ids then multiset(rows)[t] else 0
  {
    var keep := (t: Transaction) => t.id !in ids;
    FilterSubseq(rows, keep);
    Filter(rows, keep)
  }

  /** `handleDeleteSelected`: nothing happens with an empty selection or
      when the confirmation is declined; a successful delete drops the
      selected rows and clears the selection; a failure only alerts. The
      success text falls back only on a missing `msg` (`??`), the error
      text also on an empty one (`||`). */
  function DeleteSelected(rows: seq<Transaction>, ids: seq<string>, confirmed: bool, reply: DeleteReply): (r: DeleteResult)
    ensures ids == [] || !confirmed ==> r == DeleteResult(rows, ids, false, None)
    ensures ids != [] && confirmed ==> r.sent && r.alert.Some?
    ensures ids != [] && confirmed && reply.Deleted? ==>
      && r.rows == Remaining(rows, ids) && r.selected == []
      && r.alert == Some(if reply.msg.Some? then reply.msg.value else DeletedText)
    ensures ids != [] && confirmed && reply.DeleteFailed? ==>
      && r.rows == rows && r.selected == ids
      && r.alert == Some(if reply.msg.Some? && reply.msg.value != "" then reply.msg.value else DeleteFailedText)
  {
    if ids == [] || !confirmed then DeleteResult(rows, ids, false, None)
    else match reply
      case Deleted(msg) =>
        var text := if msg.Some? then msg.value else DeletedText;
        DeleteResult(Remaining(rows, ids), [], true, Some(text))
      case DeleteFailed(msg) =>
        var text := if msg.Some? && msg.value != "" then msg.value else DeleteFailedText;
        DeleteResult(rows, ids, true, Some(text))
  }

  /** A delete keeps ids unique. */
  lemma DeleteKeepsUniqueIds(rows: seq<Transaction>, ids: seq<string>)
    requires TransactionBox.UniqueIds(rows)
    ensures TransactionBox.UniqueIds(Remaining(rows, ids))
  {
    MapFilter(rows, (t: Transaction) => t.id, (x: string) => x !in ids, (t: Transaction) => t.id !in ids);
    FilterNoDups(TransactionBox.Ids(rows), (x: string) => x !in ids);
  }

  /** Nothing is lost: on unique ids and a selection of distinct listed ids,
      the values left after a delete plus the selected total of before make
      up the values of the whole list. */
  lemma DeleteSplitsValues(rows: seq<Transaction>, ids: seq<string>)
    requires TransactionBox.UniqueIds(rows) && NoDups(ids)
    requires forall id :: id in ids ==> id in TransactionBox.Ids(rows)
    ensures SumOver(rows, (t: Transaction) => t.value) ==
      SumOver(Remaining(rows, ids), (t: Transaction) => t.value) + TransactionBox.TotalSelected(rows, ids)
  {
    SumOverFilterSplit(rows, (t: Transaction) => t.id in ids, (t: Transaction) => t.id !in ids, (t: Transaction) => t.value);
    SelectedRowsTotal(rows, ids);
  }

  /** The selected total is the sum of the selected rows' values. */
  lemma SelectedRowsTotal(rows: seq<Transaction>, ids: seq<string>)
    requires TransactionBox.UniqueIds(rows) && NoDups(ids)
    requires forall id :: id in ids ==> id in TransactionBox.Ids(rows)
    ensures SumOver(Filter(rows, (t: Transaction) => t.id in ids), (t: Transaction) => t.value) ==
      TransactionBox.TotalSelected(rows, ids)
  {
    var gone := (t: Transaction) => t.id in ids;
    var chosen := Filter(rows, gone);
    var chosenIds := TransactionBox.Ids(chosen);
    var f := id => TransactionBox.ValueOf(rows, id);
    forall t | t in chosen ensures t.value == f(t.id) {
      TransactionBox.ValueOfRow(rows, t);
    }
    SumOverMap(chosen, (t: Transaction) => t.id, f, (t: Transaction) => t.value);
    MapFilter(rows, (t: Transaction) => t.id, (x: string) => x in ids, gone);
    FilterNoDups(TransactionBox.Ids(rows), (x: string) => x in ids);
    forall x ensures multiset(chosenIds)[x] == multiset(ids)[x] {
      NoDupsCount(chosenIds, x);
      NoDupsCount(ids, x);
    }
    SumOverPermutation(chosenIds, ids, f);
  }
}

=== FILE: ordering.dfy ===
/** The comparators handed to `Array.prototype.sort` in the components, and
    the stable sort itself.

    Every comparator in the source projects a row onto one column and then
    subtracts numbers (`a.value - b.value`), compares strings
    (`localeCompare`), compares (year, month) pairs, or returns 0 when no
    column is chosen; "desc" negates the result. A `Key` is that projection,
    and `SortBy` is a stable insertion sort by it, which is what a stable
    `Array.prototype.sort` computes for such a comparator. */
module Ordering {
  import Text

  datatype Key =
    | NoKey                       // no sort column: every pair compares equal
    | IntKey(i: int)              // numeric column, compared by subtraction
    | StrKey(s: string)           // string column, compared by `localeCompare`
    | PairKey(hi: int, lo: int)   // (year, month): year first, then month

  datatype Direction = Asc | Desc

  function KindRank(k: Key): int {
    match k
    case NoKey => 0
    case IntKey(_) => 1
    case StrKey(_) => 2
    case PairKey(_, _) => 3
  }

  /** Ascending comparison of two keys; the sign is what matters. Keys of
      different kinds never meet in one sort and are ordered by kind. */
  function CompareKeys(a: Key, b: Key): int {
    if KindRank(a) != KindRank(b) then KindRank(a) - KindRank(b)
    else match a
      case NoKey => 0
      case IntKey(x) => x - b.i
      case StrKey(x) => Text.Compare(x, b.s)
      case PairKey(h, l) => if h != b.hi then h - b.hi else l - b.lo
  }

  /** `sortDir === "asc" ? cmp : -cmp`. */
  function Compare(dir: Direction, a: Key, b: Key): int {
    if dir == Asc then CompareKeys(a, b) else -CompareKeys(a, b)
  }

  /** `a` may stand before `b`. */
  predicate Le(dir: Direction, a: Key, b: Key) {
    Compare(dir, a, b) <= 0
  }

  lemma CompareKeysAntisymmetric(a: Key, b: Key)
    ensures CompareKeys(a, b) < 0 <==> CompareKeys(b, a) > 0
    ensures CompareKeys(a, b) == 0 <==> CompareKeys(b, a) == 0
  {
    if a.StrKey? && b.StrKey? {
      Text.CompareAntisymmetric(a.s, b.s);
    }
  }

  /** Any two keys are ordered one way or the other. */
  lemma LeTotal(dir: Direction, a: Key, b: Key)
    ensures Le(dir, a, b) || Le(dir, b, a)
  {
    CompareKeysAntisymmetric(a, b);
  }

  lemma CompareKeysTransitive(a: Key, b: Key, c: Key)
    requires CompareKeys(a, b) <= 0 && CompareKeys(b, c) <= 0
    ensures CompareKeys(a, c) <= 0
  {
    if a.StrKey? && b.StrKey? && c.StrKey? {
      Text.CompareTransitive(a.s, b.s, c.s);
    }
  }

  lemma LeTransitive(dir: Direction, a: Key, b: Key, c: Key)
    requires Le(dir, a, b) && Le(dir, b, c)
    ensures Le(dir, a, c)
  {
    if dir == Asc {
      CompareKeysTransitive(a, b, c);
    } else {
      CompareKeysAntisymmetric(a, b);
      CompareKeysAntisymmetric(b, c);
      CompareKeysAntisymmetric(a, c);
      CompareKeysTransitive(c, b, a);
    }
  }

  /** "desc" orders exactly the reverse of "asc". */
  lemma DescReversesAsc(a: Key, b: Key)
    ensures Le(Desc, a, b) <==> Le(Asc, b, a)
  {
    CompareKeysAntisymmetric(a, b);
  }

  ghost predicate SortedBy<T>(s: seq<T>, key: T -> Key, dir: Direction) {
    forall i, j :: 0 <= i < j < |s| ==> Le(dir, key(s[i]), key(s[j]))
  }

  /** Inserts `x` before the first element it may precede. */
  function Insert<T>(x: T, s: seq<T>, key: T -> Key, dir: Direction): (r: seq<T>)
    ensures multiset(r) == multiset(s) + multiset{x}
    decreases |s|
  {
    if s == [] then [x]
    else if Le(dir, key(x), key(s[0])) then [x] + s
    else
      assert s == [s[0]] + s[1..];
      [s[0]] + Insert(x, s[1..], key, dir)
  }

  /** `x` precedes every element of a sorted sequence whose head it precedes. */
  lemma HeadBound<T>(x: T, s: seq<T>, key: T -> Key, dir: Direction)
    requires s != [] && SortedBy(s, key, dir) && Le(dir, key(x), key(s[0]))
    ensures forall j :: 0 <= j < |s| ==> Le(dir, key(x), key(s[j]))
  {
    forall j | 0 < j < |s| ensures Le(dir, key(x), key(s[j])) {
      LeTransitive(dir, key(x), key(s[0]), key(s[j]));
    }
  }

  /** Inserting into a sorted sequence keeps it sorted. */
  lemma {:induction false} InsertSorted<T>(x: T, s: seq<T>, key: T -> Key, dir: Direction)
    requires SortedBy(s, key, dir)
    ensures SortedBy(Insert(x, s, key, dir), key, dir)
    decreases |s|
  {
    if s == [] {
    } else if Le(dir, key(x), key(s[0])) {
      HeadBound(x, s, key, dir);
      ConsSorted(x, s, key, dir);
    } else {
      TailSorted(s, key, dir);
      InsertSorted(x, s[1..], key, dir);
      LeTotal(dir, key(x), key(s[0]));
      HeadBelowInsert(x, s, key, dir);
      ConsSorted(s[0], Insert(x, s[1..], key, dir), key, dir);
    }
  }

  /** The tail of a sorted sequence is sorted. */
  lemma TailSorted<T>(s: seq<T>, key: T -> Key, dir: Direction)
    requires s != [] && SortedBy(s, key, dir)
    ensures SortedBy(s[1..], key, dir)
  {
    var tail := s[1..];
    forall i, j | 0 <= i < j < |tail| ensures Le(dir, key(tail[i]), key(tail[j])) {
      assert tail[i] == s[i + 1] && tail[j] == s[j + 1];
    }
  }

  /** A head that may precede every element of a sorted sequence makes a
      sorted sequence with it. */
  lemma ConsSorted<T>(h: T, rest: seq<T>, key: T -> Key, dir: Direction)
    requires SortedBy(rest, key, dir)
    requires forall j :: 0 <= j < |rest| ==> Le(dir, key(h), key(rest[j]))
    ensures SortedBy([h] + rest, key, dir)
  {
    var r := [h] + rest;
    forall i, j | 0 <= i < j < |r| ensures Le(dir, key(r[i]), key(r[j])) {
      if i > 0 {
        assert r[i] == rest[i - 1] && r[j] == rest[j - 1];
      } else {
        assert r[j] == rest[j - 1];
      }
    }
  }

  /** The head of a sorted sequence may precede everything that inserting an
      element it may precede into the tail gives. */
  lemma HeadBelowInsert<T>(x: T, s: seq<T>, key: T -> Key, dir: Direction)
    requires s != [] && SortedBy(s, key, dir) && Le(dir, key(s[0]), key(x))
    ensures forall j :: 0 <= j < |Insert(x, s[1..], key, dir)| ==> Le(dir, key(s[0]), key(Insert(x, s[1..], key, dir)[j]))
  {
    var tail := s[1..];
    var rest := Insert(x, tail, key, dir);
    forall j | 0 <= j < |rest| ensures Le(dir, key(s[0]), key(rest[j])) {
      assert rest[j] in multiset(rest);
      assert rest[j] == x || rest[j] in multiset(tail);
      if rest[j] != x {
        var k :| 0 <= k < |tail| && tail[k] == rest[j];
        assert s[k + 1] == rest[j];
      }
    }
  }

  /** Two keys compare equal exactly when they are the same key. */
  lemma CompareKeysZero(a: Key, b: Key)
    ensures CompareKeys(a, b) == 0 <==> a == b
  {
  }

  /** The elements of `s` whose key is `k`, in their order in `s`. */
  function WithKey<T>(s: seq<T>, key: T -> Key, k: Key): (r: seq<T>)
    ensures |r| <= |s|
    ensures forall i :: 0 <= i < |r| ==> key(r[i]) == k
    decreases |s|
  {
    if s == [] then []
    else if key(s[0]) == k then [s[0]] + WithKey(s[1..], key, k)
    else WithKey(s[1..], key, k)
  }

  /** `WithKey` of a sequence with a given first element. */
  lemma WithKeyCons<T>(x: T, s: seq<T>, key: T -> Key, k: Key)
    ensures WithKey([x] + s, key, k) == if key(x) == k then [x] + WithKey(s, key, k) else WithKey(s, key, k)
  {
    assert ([x] + s)[1..] == s;
  }

  /** Inserting into a sorted sequence puts `x` after every element of its
      own key: for each key, the elements with that key appear as in `[x] + s`
      (the elements it passes have a strictly smaller key). */
  lemma {:induction false} InsertStable<T>(x: T, s: seq<T>, key: T -> Key, dir: Direction, k: Key)
    ensures WithKey(Insert(x, s, key, dir), key, k) == WithKey([x] + s, key, k)
    decreases |s|
  {
    if s != [] && !Le(dir, key(x), key(s[0])) {
      assert s == [s[0]] + s[1..];
      InsertStable(x, s[1..], key, dir, k);
      WithKeyCons(s[0], Insert(x, s[1..], key, dir), key, k);
      WithKeyCons(x, s[1..], key, k);
      WithKeyCons(s[0], s[1..], key, k);
      WithKeyCons(x, s, key, k);
      CompareKeysZero(key(x), key(s[0]));
    }
  }

  /** The stable sort of `s` by `key` in direction `dir`: a reordering of
      `s`, sorted, in which elements with the same key keep their order. */
  function SortBy<T>(s: seq<T>, key: T -> Key, dir: Direction): (r: seq<T>)
    ensures multiset(r) == multiset(s)
    ensures |r| == |s|
    ensures SortedBy(r, key, dir)
    ensures forall k :: WithKey(r, key, k) == WithKey(s, key, k)
    decreases |s|
  {
    if s == [] then []
    else
      assert s == [s[0]] + s[1..];
      var sortedTail := SortBy(s[1..], key, dir);
      InsertSorted(s[0], sortedTail, key, dir);
      var r := Insert(s[0], sortedTail, key, dir);
      assert |r| == |multiset(r)|;
      SortStep(s, sortedTail, key, dir);
      r
  }

  /** The stability step: inserting the head into the sorted tail. */
  lemma SortStep<T>(s: seq<T>, sortedTail: seq<T>, key: T -> Key, dir: Direction)
    requires s != []
    requires forall k :: WithKey(sortedTail, key, k) == WithKey(s[1..], key, k)
    ensures forall k :: WithKey(Insert(s[0], sortedTail, key, dir), key, k) == WithKey(s, key, k)
  {
    forall k ensures WithKey(Insert(s[0], sortedTail, key, dir), key, k) == WithKey(s, key, k) {
      InsertStable(s[0], sortedTail, key, dir, k);
      WithKeyCons(s[0], sortedTail, key, k);
      WithKeyCons(s[0], s[1..], key, k);
      assert s == [s[0]] + s[1..];
    }
  }

  /** With no sort column the comparator is always 0 and the order is kept. */
  lemma {:induction false} SortByNoKeyKeepsOrder<T>(s: seq<T>, key: T -> Key, dir: Direction)
    requires forall x :: x in s ==> key(x) == NoKey
    ensures SortBy(s, key, dir) == s
    decreases |s|
  {
    if s != [] {
      SortByNoKeyKeepsOrder(s[1..], key, dir);
      assert s == [s[0]] + s[1..];
    }
  }

  /** Two elements stay in order exactly when the first may precede the
      second. */
  lemma SortTwo<T>(a: T, b: T, key: T -> Key, dir: Direction)
    ensures SortBy([a, b], key, dir) == if Le(dir, key(a), key(b)) then [a, b] else [b, a]
  {
    SortOne(b, key, dir);
    assert [a, b][1..] == [b];
    assert SortBy([a, b], key, dir) == Insert(a, [b], key, dir);
    assert Insert(a, [], key, dir) == [a];
  }

  /** Two elements out of order are swapped. */
  lemma SortTwoSwap<T>(a: T, b: T, key: T -> Key, dir: Direction)
    requires !Le(dir, key(a), key(b))
    ensures SortBy([a, b], key, dir) == [b, a]
  {
    SortTwo(a, b, key, dir);
  }

  /** Two elements with equal keys keep their order. */
  lemma SortTwoTie<T>(a: T, b: T, key: T -> Key, dir: Direction)
    requires key(a) == key(b)
    ensures SortBy([a, b], key, dir) == [a, b]
  {
    SortTwo(a, b, key, dir);
    assert Le(dir, key(a), key(b)) by {
      CompareKeysAntisymmetric(key(a), key(b));
    }
  }

  /** One element is already sorted. */
  lemma SortOne<T>(b: T, key: T -> Key, dir: Direction)
    ensures SortBy([b], key, dir) == [b]
  {
    assert [b][1..] == [];
  }

  /** Two projections that agree on the elements sort them identically. */
  lemma {:induction false} SortByCongruent<T>(s: seq<T>, k1: T -> Key, k2: T -> Key, dir: Direction)
    requires forall x :: x in s ==> k1(x) == k2(x)
    ensures SortBy(s, k1, dir) == SortBy(s, k2, dir)
    decreases |s|
  {
    if s != [] {
      assert s == [s[0]] + s[1..];
      SortByCongruent(s[1..], k1, k2, dir);
      var t := SortBy(s[1..], k1, dir);
      forall y | y in t ensures k1(y) == k2(y) {
        assert y in multiset(t);
      }
      InsertCongruent(s[0], t, k1, k2, dir);
    }
  }

  lemma {:induction false} InsertCongruent<T>(x: T, s: seq<T>, k1: T -> Key, k2: T -> Key, dir: Direction)
    requires k1(x) == k2(x)
    requires forall y :: y in s ==> k1(y) == k2(y)
    ensures Insert(x, s, k1, dir) == Insert(x, s, k2, dir)
    decreases |s|
  {
    if s != [] {
      InsertCongruent(x, s[1..], k1, k2, dir);
    }
  }
}

=== FILE: search_bar.dfy ===
/** The search bar above the transaction list: the macrotype chips and the
    options of the category and subcategory selects. */
module SearchBar {
  import opened Collections
  import Text
  import Ordering
  import Ledger
  import TransactionBox

  type Transaction = Ledger.Transaction

  /** The values of the macrotype chips, in display order. */
  const ChipValues: seq<string> := ["all", "income", "outcome", "transfer between account", "investments"]

  /** A category or subcategory as the API lists it. */
  datatype Entry = Entry(id: string, name: string)

  function NameKey(s: string): Ordering.Key {
    Ordering.StrKey(s)
  }

  /** `names.filter(Boolean).sort()`: the non-empty names in code-point
      order. */
  function SortedNames(names: seq<string>): (r: seq<string>)
    ensures multiset(r) == multiset(Filter(names, (n: string) => n != ""))
    ensures forall n :: n in r <==> n in names && n != ""
    ensures forall i, j :: 0 <= i < j < |r| ==> Text.Compare(r[i], r[j]) <= 0
  {
    var kept := Filter(names, (n: string) => n != "");
    var r := Ordering.SortBy(kept, NameKey, Ordering.Asc);
    forall n ensures n in r <==> n in kept {
      assert n in r <==> n in multiset(r);
    }
    assert forall i, j :: 0 <= i < j < |r| ==> Ordering.Le(Ordering.Asc, NameKey(r[i]), NameKey(r[j]));
    r
  }

  /** Names taken from the rows: `Array.from(new Set(names)).filter(Boolean).sort()`.
      Each name appears once, so the order is strict. */
  function OptionsFromRows(names: seq<string>): (r: seq<string>)
    ensures NoDups(r)
    ensures forall n :: n in r <==> n in names && n != ""
    ensures forall i, j :: 0 <= i < j < |r| ==> Text.Compare(r[i], r[j]) < 0
  {
    var distinct := Distinct(names);
    var r := SortedNames(distinct);
    FilterNoDups(distinct, (n: string) => n != "");
    NoDupsPermutation(Filter(distinct, (n: string) => n != ""), r);
    r
  }

  function CategoryNames(rows: seq<Transaction>): seq<string> {
    Map(rows, (t: Transaction) => Ledger.RefName(t.category))
  }

  function SubcategoryNames(rows: seq<Transaction>): seq<string> {
    Map(rows, (t: Transaction) => Ledger.RefName(t.subcategory))
  }

  function EntryNames(entries: seq<Entry>): seq<string> {
    Map(entries, (e: Entry) => e.name)
  }

  /** `categoryOptions` (and likewise `subcategoryOptions`): the API list
      when it has entries, otherwise the names found on the rows. */
  function Options(entries: seq<Entry>, rowNames: seq<string>): (r: seq<string>)
    ensures |entries| > 0 ==> multiset(r) == multiset(Filter(EntryNames(entries), (n: string) => n != ""))
    ensures |entries| == 0 ==> r == OptionsFromRows(rowNames)
    ensures forall i, j :: 0 <= i < j < |r| ==> Text.Compare(r[i], r[j]) <= 0
  {
    if |entries| > 0 then SortedNames(EntryNames(entries)) else OptionsFromRows(rowNames)
  }

  function CategoryOptions(categories: seq<Entry>, rows: seq<Transaction>): seq<string> {
    Options(categories, CategoryNames(rows))
  }

  function SubcategoryOptions(subcategories: seq<Entry>, rows: seq<Transaction>): seq<string> {
    Options(subcategories, SubcategoryNames(rows))
  }

  /** Without an API list, every category option is the name of some row's
      category, and picking it in the select shows that row. */
  lemma FallbackOptionShowsRows(rows: seq<Transaction>, n: string)
    requires n in CategoryOptions([], rows)
    ensures exists t :: t in TransactionBox.FilterTransactions(rows, TransactionBox.Filters("all", n, "", ""))
  {
    var names := CategoryNames(rows);
    assert n in names && n != "";
    var i :| 0 <= i < |names| && names[i] == n;
    var t := rows[i];
    var f := TransactionBox.Filters("all", n, "", "");
    assert TransactionBox.Visible(f, t);
    assert t in TransactionBox.FilterTransactions(rows, f);
  }

  /** Conversely, every row with a named category is reachable from an
      option. */
  lemma EveryNamedCategoryIsAnOption(rows: seq<Transaction>, t: Transaction)
    requires t in rows && Ledger.RefName(t.category) != ""
    ensures Ledger.RefName(t.category) in CategoryOptions([], rows)
  {
    MapMember(rows, (t: Transaction) => Ledger.RefName(t.category), Ledger.RefName(t.category));
  }

  /** A chip other than "all" shows exactly the rows of its macrotype (with
      the other filters off). */
  lemma ChipShowsItsMacrotype(rows: seq<Transaction>, i: int, t: Transaction)
    requires 1 <= i < |ChipValues|
    ensures t in TransactionBox.FilterTransactions(rows, TransactionBox.Filters(ChipValues[i], "", "", "")) <==>
      t in rows && t.macrotype == ChipValues[i]
  {
  }
}

=== FILE: selection.dfy ===
/** The check-box selections of the list pages: an array of ids, toggled
    with `ids.includes(id) ? ids.filter(x => x !== id) : [...ids, id]`. */
module Selection {
  import opened Collections

  /** Toggling flips the membership of `id` and of nothing else. */
  function Toggle(ids: seq<string>, id: string): (r: seq<string>)
    ensures id in r <==> id !in ids
    ensures forall x :: x != id ==> (x in r <==> x in ids)
    ensures id !in ids ==> r == ids + [id]
    ensures id in ids ==> IsSubseq(r, ids) && |r| < |ids|
  {
    if id in ids then
      var keep := x => x != id;
      var r := Filter(ids, keep);
      FilterSubseq(ids, keep);
      assert multiset(r)[id] == 0 < multiset(ids)[id];
      assert |r| < |ids| by {
        MultisetSmaller(r, ids, id);
      }
      r
    else ids + [id]
  }

  /** A sub-multiset missing an occurrence is shorter. */
  lemma MultisetSmaller(r: seq<string>, s: seq<string>, id: string)
    requires multiset(r) <= multiset(s)
    requires multiset(r)[id] < multiset(s)[id]
    ensures |r| < |s|
  {
    assert multiset(r) != multiset(s);
    assert |multiset(r)| < |multiset(s)| by {
      assert multiset(s) == multiset(r) + (multiset(s) - multiset(r));
      assert id in multiset(s) - multiset(r);
    }
  }

  /** Every selected id is one of `allowed`. */
  predicate Within(ids: seq<string>, allowed: seq<string>) {
    forall i :: 0 <= i < |ids| ==> ids[i] in allowed
  }

  /** Toggling twice restores the selected set. */
  lemma ToggleTwice(ids: seq<string>, id: string)
    ensures forall x :: x in Toggle(Toggle(ids, id), id) <==> x in ids
  {
  }

  /** Toggling keeps a selection free of duplicates. */
  lemma ToggleNoDups(ids: seq<string>, id: string)
    requires NoDups(ids)
    ensures NoDups(Toggle(ids, id))
  {
    if id in ids {
      FilterNoDups(ids, x => x != id);
    } else {
      assert id !in ids;
    }
  }

  /** Toggling an allowed id keeps the selection within the allowed ids. */
  lemma ToggleWithin(ids: seq<string>, id: string, allowed: seq<string>)
    requires Within(ids, allowed) && id in allowed
    ensures Within(Toggle(ids, id), allowed)
  {
    var r := Toggle(ids, id);
    forall i | 0 <= i < |r| ensures r[i] in allowed {
      assert r[i] in r;
      if r[i] != id {
        var j :| 0 <= j < |ids| && ids[j] == r[i];
      }
    }
  }
}

=== FILE: tagging_rules.dfy ===
/** The Tagging Rules page: the table of distinct transaction descriptions
    with the rule that would tag each one, its all / untagged / tagged filter
    and search, its sortable columns, and the local rule list kept in step
    with the create, edit and delete requests. */
module TaggingRules {
  import opened Collections
  import Text
  import Ordering
  import Ledger

  datatype MatchType = Exact | StartsWith | Contains | OtherMatch(name: string)

  /** A tagging rule as the server lists it; `category` and `subcategory`
      are populated references. */
  datatype Rule = Rule(
    id: string,
    pattern: string,
    matchType: MatchType,
    category: Ledger.Ref,
    subcategory: Ledger.Ref,
    priority: int,
    isActive: bool)

  /** One row of the description-frequency table; a missing description is "". */
  datatype FrequencyItem = FrequencyItem(description: string, count: int, totalValue: int)

  /** `(description || "").toLowerCase().trim()`: the lower-cased
      description without its surrounding white space. */
  function DescriptionKey(description: string): (r: string)
    ensures Text.IsTrimOf(Text.ToLower(description), r)
    ensures forall i :: 0 <= i < |r| ==> Text.LowerChar(r[i]) == r[i]
  {
    var lower := Text.ToLower(description);
    TrimKeepsLower(lower);
    Text.Trim(lower)
  }

  /** Trimming a lower-case string leaves it lower-case. */
  lemma TrimKeepsLower(s: string)
    requires forall i :: 0 <= i < |s| ==> Text.LowerChar(s[i]) == s[i]
    ensures forall i :: 0 <= i < |Text.Trim(s)| ==> Text.LowerChar(Text.Trim(s)[i]) == Text.Trim(s)[i]
  {
    var r := Text.Trim(s);
    var a :| Text.OccursAt(s, r, a);
    Text.OccursAtChars(s, r, a);
  }

  /** The key is the one string that is the trimmed, lower-cased
      description. */
  lemma DescriptionKeyUnique(description: string, k: string)
    requires Text.IsTrimOf(Text.ToLower(description), k)
    ensures DescriptionKey(description) == k
  {
    Text.TrimUnique(Text.ToLower(description), k);
  }

  /** A key is already normalised: normalising it again changes nothing. */
  lemma DescriptionKeyIdempotent(description: string)
    ensures DescriptionKey(DescriptionKey(description)) == DescriptionKey(description)
  {
    var k := DescriptionKey(description);
    var a :| Text.SpaceAround(Text.ToLower(description), k, a);
    LowerFixed(k);
    Text.TrimTrimmed(k);
  }

  /** Lower-casing a string of lower-case characters changes nothing. */
  lemma LowerFixed(k: string)
    requires forall i :: 0 <= i < |k| ==> Text.LowerChar(k[i]) == k[i]
    ensures Text.ToLower(k) == k
  {
    var l := Text.ToLower(k);
    assert |l| == |k|;
    forall i | 0 <= i < |k| ensures l[i] == k[i] {
    }
  }

  /** The match test of one rule against a key; the pattern is used as
      stored. `exact` is equality, `startsWith` is the prefix order,
      `contains` is an occurrence at some position, and an unknown match
      type never matches. */
  function Matches(rule: Rule, key: string): (r: bool)
    ensures r <==>
      || (rule.matchType == Exact && key == rule.pattern)
      || (rule.matchType == StartsWith && rule.pattern <= key)
      || (rule.matchType == Contains && exists i :: Text.OccursAt(key, rule.pattern, i))
  {
    Text.IncludesIff(key, rule.pattern);
    match rule.matchType
    case Exact => key == rule.pattern
    case StartsWith => Text.StartsWith(key, rule.pattern)
    case Contains => Text.Includes(key, rule.pattern)
    case OtherMatch(_) => false
  }

  /** The rule shown for a key: the first one in list order that matches.
      Neither `priority` nor `isActive` is consulted. */
  function FirstMatch(rules: seq<Rule>, key: string): (r: Option<Rule>)
    ensures r.None? <==> forall rule :: rule in rules ==> !Matches(rule, key)
    ensures r.Some? ==> exists i :: 0 <= i < |rules| && rules[i] == r.value && Matches(rules[i], key)
                                  && forall j :: 0 <= j < i ==> !Matches(rules[j], key)
  {
    Find(rules, rule => Matches(rule, key))
  }

  /** One more rule at the end can only fill a key that had no match. */
  lemma FirstMatchAppend(rules: seq<Rule>, rule: Rule, key: string)
    ensures FirstMatch(rules + [rule], key) ==
      if FirstMatch(rules, key).Some? then FirstMatch(rules, key)
      else if Matches(rule, key) then Some(rule) else None
  {
    FindAppend(rules, rule, r => Matches(r, key));
  }

  /** The key of a table row. */
  function ItemKey(item: FrequencyItem): string {
    DescriptionKey(item.description)
  }

  /** The keys of the frequency table. */
  function FrequencyKeys(frequency: seq<FrequencyItem>): (r: set<string>)
    ensures forall x :: x in frequency ==> ItemKey(x) in r
    ensures forall k :: k in r ==> exists x :: x in frequency && ItemKey(x) == k
  {
    set x | x in frequency :: ItemKey(x)
  }

  /** The description-to-rule map the page means to build: every key of the
      table that some rule matches, mapped to the first such rule. */
  function RuleMap(rules: seq<Rule>, frequency: seq<FrequencyItem>): (m: map<string, Rule>)
    ensures forall k :: k in m <==> k in FrequencyKeys(frequency) && exists rule :: rule in rules && Matches(rule, k)
    ensures forall k :: k in m ==> Some(m[k]) == FirstMatch(rules, k)
  {
    map k | k in FrequencyKeys(frequency) && FirstMatch(rules, k).Some? :: FirstMatch(rules, k).value
  }

  /** Adding one row to the table adds its key. */
  lemma FrequencyKeysAppend(frequency: seq<FrequencyItem>, j: int)
    requires 0 <= j < |frequency|
    ensures FrequencyKeys(frequency[..j + 1]) == FrequencyKeys(frequency[..j]) + {ItemKey(frequency[j])}
  {
    ImagePrefix(frequency, ItemKey, j);
  }

  /** The image of one more element of a prefix. */
  lemma ImagePrefix<T>(s: seq<T>, f: T -> string, j: int)
    requires 0 <= j < |s|
    ensures (set x | x in s[..j + 1] :: f(x)) == (set x | x in s[..j] :: f(x)) + {f(s[j])}
  {
    var a, b := s[..j], s[..j + 1];
    assert b == a + [s[j]];
    var fa, fb := set x | x in a :: f(x), set x | x in b :: f(x);
    forall k | k in fb ensures k in fa + {f(s[j])} {
      var x :| x in b && f(x) == k;
      assert x in a || x == s[j];
    }
  }

  /** The map part-way through the pass of `rule` over the table: the keys the
      earlier rules matched, plus those of the first `j` rows that `rule`
      matches. */
  function Partial(done: seq<Rule>, rule: Rule, frequency: seq<FrequencyItem>, j: int): map<string, Rule>
    requires 0 <= j <= |frequency|
  {
    map k | k in FrequencyKeys(frequency) && (FirstMatch(done, k).Some? || (k in FrequencyKeys(frequency[..j]) && Matches(rule, k)))
      :: if FirstMatch(done, k).Some? then FirstMatch(done, k).value else rule
  }

  lemma PartialStart(done: seq<Rule>, rule: Rule, frequency: seq<FrequencyItem>)
    ensures Partial(done, rule, frequency, 0) == RuleMap(done, frequency)
  {
    assert FrequencyKeys(frequency[..0]) == {};
  }

  /** One step of the inner loop: write the row's key only if `rule` matches
      it and no rule is there yet. */
  lemma PartialStep(done: seq<Rule>, rule: Rule, frequency: seq<FrequencyItem>, j: int)
    requires 0 <= j < |frequency|
    ensures var m := Partial(done, rule, frequency, j);
      var key := ItemKey(frequency[j]);
      Partial(done, rule, frequency, j + 1) == if Matches(rule, key) && key !in m then m[key := rule] else m
  {
    var m, m' := Partial(done, rule, frequency, j), Partial(done, rule, frequency, j + 1);
    var key := ItemKey(frequency[j]);
    FrequencyKeysAppend(frequency, j);
    assert key in FrequencyKeys(frequency);
    if Matches(rule, key) && key !in m {
      SameMap(m', m[key := rule]);
    } else {
      SameMap(m', m);
    }
  }

  /** Maps with the same keys and the same value under each key are equal. */
  lemma SameMap(a: map<string, Rule>, b: map<string, Rule>)
    requires forall k :: k in a <==> k in b
    requires forall k :: k in a ==> a[k] == b[k]
    ensures a == b
  {
  }

  /** A full pass of `rule` gives the map of the rules up to and including it. */
  lemma PartialEnd(done: seq<Rule>, rule: Rule, frequency: seq<FrequencyItem>)
    ensures Partial(done, rule, frequency, |frequency|) == RuleMap(done + [rule], frequency)
  {
    assert frequency[..|frequency|] == frequency;
    forall k {
      FirstMatchAppend(done, rule, k);
    }
  }

  /** The page's double loop: rules outside, table rows inside, and a key is
      written only while it has no rule yet. It builds `RuleMap`, so the first
      matching rule wins and later matches never overwrite it. */
  method BuildRuleMap(rules: seq<Rule>, frequency: seq<FrequencyItem>) returns (m: map<string, Rule>)
    ensures m == RuleMap(rules, frequency)
  {
    m := map[];
    assert RuleMap(rules[..0], frequency) == map[];
    for i := 0 to |rules|
      invariant m == RuleMap(rules[..i], frequency)
    {
      var rule := rules[i];
      PartialStart(rules[..i], rule, frequency);
      for j := 0 to |frequency|
        invariant m == Partial(rules[..i], rule, frequency, j)
      {
        var key := ItemKey(frequency[j]);
        PartialStep(rules[..i], rule, frequency, j);
        if Matches(rule, key) && key !in m {
          m := m[key := rule];
        }
      }
      PartialEnd(rules[..i], rule, frequency);
      assert rules[..i + 1] == rules[..i] + [rule];
    }
    assert rules[..|rules|] == rules;
  }

  // ---------------------------------------------------------------------
  // The table filter.

  datatype TagFilter = AllItems | Untagged | Tagged

  /** `!!ruleMap[desc]`, reading own keys of the map only. */
  predicate HasRule(m: map<string, Rule>, key: string) {
    key in m
  }

  /** The test a row must pass: the tag filter, then the search (empty search
      keeps everything). */
  predicate Keep(m: map<string, Rule>, filter: TagFilter, search: string, item: FrequencyItem) {
    var key := ItemKey(item);
    && (filter == Tagged ==> HasRule(m, key))
    && (filter == Untagged ==> !HasRule(m, key))
    && (search == [] || Text.Includes(key, Text.ToLower(search)))
  }

  /** `filteredFrequency`. */
  function FilterFrequency(frequency: seq<FrequencyItem>, m: map<string, Rule>, filter: TagFilter, search: string): (r: seq<FrequencyItem>)
    ensures IsSubseq(r, frequency)
    ensures forall x :: x in r <==> x in frequency && Keep(m, filter, search, x)
    ensures forall x :: multiset(r)[x] == if Keep(m, filter, search, x) then multiset(frequency)[x] else 0
  {
    var keep := x => Keep(m, filter, search, x);
    FilterSubseq(frequency, keep);
    Filter(frequency, keep)
  }

  /** A row's key is in the page's map iff some rule matches it. */
  lemma InRuleMap(rules: seq<Rule>, frequency: seq<FrequencyItem>, item: FrequencyItem)
    requires item in frequency
    ensures ItemKey(item) in RuleMap(rules, frequency) <==> exists rule :: rule in rules && Matches(rule, ItemKey(item))
  {
  }

  /** With the map the page builds, "tagged" keeps exactly the rows some rule
      matches (and that pass the search). */
  lemma TaggedIffSomeRuleMatches(rules: seq<Rule>, frequency: seq<FrequencyItem>, search: string, item: FrequencyItem)
    requires item in frequency
    ensures item in FilterFrequency(frequency, RuleMap(rules, frequency), Tagged, search) <==>
      (exists rule :: rule in rules && Matches(rule, ItemKey(item))) && Keep(RuleMap(rules, frequency), AllItems, search, item)
  {
    TagFilterKeeps(frequency, RuleMap(rules, frequency), search, item);
    InRuleMap(rules, frequency, item);
  }

  /** ... and "untagged" keeps exactly the rows no rule matches. */
  lemma UntaggedIffNoRuleMatches(rules: seq<Rule>, frequency: seq<FrequencyItem>, search: string, item: FrequencyItem)
    requires item in frequency
    ensures item in FilterFrequency(frequency, RuleMap(rules, frequency), Untagged, search) <==>
      (forall rule :: rule in rules ==> !Matches(rule, ItemKey(item))) && Keep(RuleMap(rules, frequency), AllItems, search, item)
  {
    TagFilterKeeps(frequency, RuleMap(rules, frequency), search, item);
    InRuleMap(rules, frequency, item);
  }

  /** For any map: "tagged" keeps a row of the table iff its key has an entry
      and it passes the search, "untagged" iff its key has none and it passes
      the search. */
  lemma TagFilterKeeps(frequency: seq<FrequencyItem>, m: map<string, Rule>, search: string, item: FrequencyItem)
    requires item in frequency
    ensures item in FilterFrequency(frequency, m, Tagged, search) <==> ItemKey(item) in m && Keep(m, AllItems, search, item)
    ensures item in FilterFrequency(frequency, m, Untagged, search) <==> ItemKey(item) !in m && Keep(m, AllItems, search, item)
  {
  }

  /** The "all" filter with an empty search shows the whole table. */
  lemma AllWithoutSearchKeepsEverything(frequency: seq<FrequencyItem>, m: map<string, Rule>)
    ensures FilterFrequency(frequency, m, AllItems, "") == frequency
  {
    FilterAll(frequency, x => Keep(m, AllItems, "", x));
  }

  // ---------------------------------------------------------------------
  // The table sort.

  datatype SortColumn = NoColumn | ByDescription | ByCount | ByTotalValue | ByRule

  /** `${rule.category?.name || ""} / ${rule.subcategory?.name || ""}`,
      before trimming. */
  function CategoryLabel(rule: Rule): string {
    Ledger.RefName(rule.category) + " / " + Ledger.RefName(rule.subcategory)
  }

  /** The "Rule" column: the trimmed category label of the row's rule, or ""
      for a row without a rule. */
  function RuleLabel(m: map<string, Rule>, item: FrequencyItem): (r: string)
    ensures ItemKey(item) !in m ==> r == ""
    ensures ItemKey(item) in m ==> Text.IsTrimOf(CategoryLabel(m[ItemKey(item)]), r)
  {
    var key := ItemKey(item);
    if key in m then Text.Trim(CategoryLabel(m[key])) else ""
  }

  /** With the page's map, a row's "Rule" column is the trimmed label of the
      first rule in list order that matches its key, and "" when none does. */
  lemma RuleLabelOfFirstMatch(rules: seq<Rule>, frequency: seq<FrequencyItem>, item: FrequencyItem)
    requires item in frequency
    ensures var first := FirstMatch(rules, ItemKey(item));
      RuleLabel(RuleMap(rules, frequency), item) == if first.Some? then Text.Trim(CategoryLabel(first.value)) else ""
  {
    var m := RuleMap(rules, frequency);
    var key := ItemKey(item);
    assert key in FrequencyKeys(frequency);
    if key in m {
      Text.TrimUnique(CategoryLabel(m[key]), RuleLabel(m, item));
    }
  }

  /** The column a row is compared by. */
  function SortKey(m: map<string, Rule>, column: SortColumn, item: FrequencyItem): Ordering.Key {
    match column
    case NoColumn => Ordering.NoKey
    case ByDescription => Ordering.StrKey(item.description)
    case ByCount => Ordering.IntKey(item.count)
    case ByTotalValue => Ordering.IntKey(item.totalValue)
    case ByRule => Ordering.StrKey(RuleLabel(m, item))
  }

  function ColumnKey(m: map<string, Rule>, column: SortColumn): FrequencyItem -> Ordering.Key {
    x => SortKey(m, column, x)
  }

  /** `sortedFrequency`: a reordering of the filtered rows, ordered by the
      chosen column in the chosen direction; rows that tie keep their order. */
  function SortFrequency(rows: seq<FrequencyItem>, m: map<string, Rule>, column: SortColumn, dir: Ordering.Direction): (r: seq<FrequencyItem>)
    ensures multiset(r) == multiset(rows)
    ensures forall i, j :: 0 <= i < j < |r| ==>
      Ordering.Le(dir, SortKey(m, column, r[i]), SortKey(m, column, r[j]))
    ensures forall k :: Ordering.WithKey(r, ColumnKey(m, column), k) == Ordering.WithKey(rows, ColumnKey(m, column), k)
  {
    Ordering.SortBy(rows, ColumnKey(m, column), dir)
  }

  /** Without a sort column the filtered order is kept. */
  lemma NoColumnKeepsOrder(rows: seq<FrequencyItem>, m: map<string, Rule>, dir: Ordering.Direction)
    ensures SortFrequency(rows, m, NoColumn, dir) == rows
  {
    Ordering.SortByNoKeyKeepsOrder(rows, ColumnKey(m, NoColumn), dir);
  }

  // ---------------------------------------------------------------------
  // The rule editor and the local rule list.

  /** The rule being created or edited; `category` and `subcategory` hold ids
      or "", and a new rule has no id. */
  datatype Draft = Draft(
    isNew: bool,
    id: Option<string>,
    pattern: string,
    matchType: MatchType,
    category: string,
    subcategory: string,
    priority: int,
    isActive: bool)

  datatype Page = Page(rules: seq<Rule>, editor: Option<Draft>, error: string)

  /** What the save request sends. */
  datatype Payload = Payload(
    pattern: string,
    matchType: MatchType,
    category: string,
    subcategory: Option<string>,
    priority: int,
    isActive: bool)

  /** The request a save issues: a create, or an edit of the rule with the id. */
  datatype Request = CreateRequest(payload: Payload) | EditRequest(id: string, payload: Payload)

  /** A server reply: the saved rule, or a failure with its optional `msg`. */
  datatype Reply<T> = Ok(value: T) | Failed(msg: Option<string>)

  /** `err.response?.data?.msg || fallback`. */
  function ErrorText(msg: Option<string>, fallback: string): (r: string)
    ensures msg.Some? && msg.value != "" ==> r == msg.value
    ensures (msg.None? || msg.value == "") ==> r == fallback
  {
    if msg.Some? && msg.value != "" then msg.value else fallback
  }

  /** `ref?._id || ""`: only a populated reference carries an `_id`. */
  function RefId(r: Ledger.Ref): (id: string)
    ensures r.Named? ==> id == r.id
    ensures !r.Named? ==> id == ""
  {
    if r.Named? then r.id else ""
  }

  /** "Create Rule" on a row (or the header button, with ""): a new contains
      rule on the description, with no category yet. */
  function CreateDraft(description: string): (d: Draft)
    ensures d.isNew && d.id.None? && d.pattern == description
    ensures d.matchType == Contains && d.category == "" && d.subcategory == ""
    ensures d.priority == 0 && d.isActive
  {
    Draft(true, None, description, Contains, "", "", 0, true)
  }

  /** "Edit" on a rule: a draft holding its fields and the ids of its
      references. */
  function EditDraft(rule: Rule): (d: Draft)
    ensures !d.isNew && d.id == Some(rule.id)
    ensures d.pattern == rule.pattern && d.matchType == rule.matchType
    ensures d.category == RefId(rule.category) && d.subcategory == RefId(rule.subcategory)
    ensures d.priority == rule.priority && d.isActive == rule.isActive
  {
    Draft(false, Some(rule.id), rule.pattern, rule.matchType, RefId(rule.category), RefId(rule.subcategory), rule.priority, rule.isActive)
  }

  /** The request body; an empty subcategory is left out. */
  function PayloadOf(d: Draft): (p: Payload)
    ensures p.pattern == d.pattern && p.matchType == d.matchType && p.category == d.category
    ensures p.priority == d.priority && p.isActive == d.isActive
    ensures p.subcategory.None? <==> d.subcategory == ""
    ensures p.subcategory.Some? ==> p.subcategory.value == d.subcategory
  {
    Payload(d.pattern, d.matchType, d.category, if d.subcategory == "" then None else Some(d.subcategory), d.priority, d.isActive)
  }

  /** The rules after a successful save: appended when new, otherwise put in
      place of every rule with the draft's id. */
  function SavedRules(rules: seq<Rule>, d: Draft, saved: Rule): (r: seq<Rule>)
    ensures d.isNew ==> r == rules + [saved]
    ensures !d.isNew ==> |r| == |rules|
    ensures !d.isNew ==> forall i :: 0 <= i < |rules| ==>
      r[i] == if Some(rules[i].id) == d.id then saved else rules[i]
  {
    if d.isNew then rules + [saved]
    else Map(rules, (x: Rule) => if Some(x.id) == d.id then saved else x)
  }

  /** `handleSaveRule` with the editor open: no request and no change while
      the pattern or the category is empty; otherwise the request, and with
      its reply either the updated list with the editor closed, or the error
      with everything else kept. */
  function SaveRule(page: Page, reply: Reply<Rule>): (r: (Page, Option<Request>))
    requires page.editor.Some?
    ensures var d := page.editor.value;
      (d.pattern == "" || d.category == "") <==> r.1.None?
    ensures r.1.None? ==> r.0 == page
    ensures r.1.Some? && reply.Ok? ==>
      r.0 == Page(SavedRules(page.rules, page.editor.value, reply.value), None, "")
    ensures r.1.Some? && reply.Failed? ==>
      r.0 == page.(error := ErrorText(reply.msg, "Failed to save rule"))
    ensures r.1.Some? ==> r.1.value.payload == PayloadOf(page.editor.value)
    ensures r.1.Some? ==> (r.1.value.CreateRequest? <==> page.editor.value.isNew)
  {
    var d := page.editor.value;
    if d.pattern == "" || d.category == "" then (page, None)
    else
      var request := if d.isNew then CreateRequest(PayloadOf(d)) else EditRequest(if d.id.Some? then d.id.value else "", PayloadOf(d));
      match reply
      case Ok(saved) => (Page(SavedRules(page.rules, d, saved), None, ""), Some(request))
      case Failed(msg) => (page.(error := ErrorText(msg, "Failed to save rule")), Some(request))
  }

  /** `handleDeleteRule`: on success the rules with another id stay, in order,
      and an editor open on that rule closes; on failure only the error
      changes. */
  function DeleteRule(page: Page, ruleId: string, reply: Reply<()>): (r: Page)
    ensures reply.Ok? ==> forall x :: x in r.rules <==> x in page.rules && x.id != ruleId
    ensures reply.Ok? ==> IsSubseq(r.rules, page.rules)
    ensures reply.Ok? ==> forall x :: multiset(r.rules)[x] == if x.id != ruleId then multiset(page.rules)[x] else 0
    ensures reply.Ok? ==> (r.editor.None? <==> page.editor.None? || page.editor.value.id == Some(ruleId))
    ensures reply.Ok? ==> r.error == page.error
    ensures reply.Failed? ==> r == page.(error := ErrorText(reply.msg, "Failed to delete rule"))
  {
    match reply
    case Ok(_) =>
      var keep := (x: Rule) => x.id != ruleId;
      FilterSubseq(page.rules, keep);
      var rules := Filter(page.rules, keep);
      var editor := if page.editor.Some? && page.editor.value.id == Some(ruleId) then None else page.editor;
      Page(rules, editor, page.error)
    case Failed(msg) => page.(error := ErrorText(msg, "Failed to delete rule"))
  }

  /** A freshly created draft cannot be saved until a category is chosen. */
  lemma NewDraftNeedsCategory(page: Page, description: string, reply: Reply<Rule>)
    ensures var p := page.(editor := Some(CreateDraft(description)));
      SaveRule(p, reply) == (p, None)
  {
  }

  /** Editing a rule and saving it unchanged sends back its own fields. A
      subcategory is sent only when it is populated with a non-empty id: an
      absent or unpopulated one is left out of the request. */
  lemma EditDraftPayload(rule: Rule)
    requires rule.category.Named? && rule.category.id != ""
    ensures PayloadOf(EditDraft(rule)) ==
      Payload(rule.pattern, rule.matchType, rule.category.id,
        if rule.subcategory.Named? && rule.subcategory.id != "" then Some(rule.subcategory.id) else None,
        rule.priority, rule.isActive)
  {
  }

  /** Saving an edit with unique rule ids replaces exactly that rule. */
  lemma SaveEditReplacesOne(rules: seq<Rule>, rule: Rule, saved: Rule, k: int)
    requires 0 <= k < |rules| && rules[k] == rule
    requires forall i, j :: 0 <= i < j < |rules| ==> rules[i].id != rules[j].id
    ensures var r := SavedRules(rules, EditDraft(rule), saved);
      |r| == |rules| && r[k] == saved && forall i :: 0 <= i < |rules| && i != k ==> r[i] == rules[i]
  {
  }

  /** A contains rule created from a row whose description is already in key
      form tags that row, once the server stores the pattern as sent. */
  lemma CreatedRuleTagsItsRow(description: string, id: string, category: Ledger.Ref)
    requires DescriptionKey(description) == description
    ensures var d := CreateDraft(description);
      Matches(Rule(id, d.pattern, d.matchType, category, Ledger.NoRef, d.priority, d.isActive), DescriptionKey(description))
  {
    assert Text.OccursAt(description, description, 0);
  }

  /** The pattern is sent as typed while keys are lower-cased: a contains
      rule created from the row "Uber", stored as sent, does not tag that
      row, whose key is "uber". */
  lemma CreatedRuleMissesCapitalisedRow(id: string, category: Ledger.Ref)
    ensures var d := CreateDraft("Uber");
      && ItemKey(FrequencyItem("Uber", 1, -1000)) == "uber"
      && !Matches(Rule(id, d.pattern, d.matchType, category, Ledger.NoRef, d.priority, d.isActive), "uber")
  {
    UberKey();
    NotIncluded("uber", "Uber");
  }

  /** "Uber" normalises to "uber". */
  lemma UberKey()
    ensures DescriptionKey("Uber") == "uber"
  {
    assert Text.ToLower("Uber") == "uber";
    Text.TrimTrimmed("uber");
  }

  /** A pattern as long as the key but different from it is not included in it. */
  lemma NotIncluded(key: string, pattern: string)
    requires |key| == |pattern| && key != pattern
    ensures !Text.Includes(key, pattern)
  {
    Text.IncludesIff(key, pattern);
  }

  // ---------------------------------------------------------------------
  // The map as the page reads it: a plain object literal. Reading
  // `ruleMap[desc]` also finds the members every object inherits, and of
  // those only `constructor` and `__proto__` are spelled in lower case, so
  // only they can be keys.

  /** A lower-case key naming an inherited member of `Object.prototype`. */
  predicate Inherited(key: string) {
    key == "constructor" || key == "__proto__"
  }

  /** `!!ruleMap[desc]` as the object literal answers it. */
  predicate HasRuleAsWritten(m: map<string, Rule>, key: string) {
    key in m || Inherited(key)
  }

  predicate KeepAsWritten(m: map<string, Rule>, filter: TagFilter, search: string, item: FrequencyItem) {
    var key := ItemKey(item);
    && (filter == Tagged ==> HasRuleAsWritten(m, key))
    && (filter == Untagged ==> !HasRuleAsWritten(m, key))
    && (search == [] || Text.Includes(key, Text.ToLower(search)))
  }

  /** `filteredFrequency` over the object literal. */
  function FilterFrequencyAsWritten(frequency: seq<FrequencyItem>, m: map<string, Rule>, filter: TagFilter, search: string): (r: seq<FrequencyItem>)
    ensures forall x :: x in r <==> x in frequency && KeepAsWritten(m, filter, search, x)
  {
    Filter(frequency, x => KeepAsWritten(m, filter, search, x))
  }

  /** The two readings differ only on the inherited names. */
  lemma AsWrittenAgreesElsewhere(m: map<string, Rule>, filter: TagFilter, search: string, item: FrequencyItem)
    requires !Inherited(ItemKey(item))
    ensures KeepAsWritten(m, filter, search, item) == Keep(m, filter, search, item)
  {
  }

  /** "Constructor" normalises to "constructor". */
  lemma ConstructorKey()
    ensures DescriptionKey("Constructor") == "constructor"
  {
    assert Text.ToLower("Constructor") == "constructor";
    Text.TrimTrimmed("constructor");
  }

  /** A description "Constructor" with no rules at all: the object literal
      lists it under "tagged" and hides it from "untagged"; the own-key map
      does the opposite. */
  lemma ConstructorCountsAsTagged()
    ensures var frequency := [FrequencyItem("Constructor", 1, -1000)];
      var m := RuleMap([], frequency);
      && FilterFrequencyAsWritten(frequency, m, Tagged, "") == frequency
      && FilterFrequencyAsWritten(frequency, m, Untagged, "") == []
      && FilterFrequency(frequency, m, Tagged, "") == []
      && FilterFrequency(frequency, m, Untagged, "") == frequency
  {
    ConstructorAsWritten(RuleMap([], [FrequencyItem("Constructor", 1, -1000)]));
    ConstructorOwnKeys();
  }

  /** Without rules the map is empty. */
  lemma NoRulesNoMap(frequency: seq<FrequencyItem>)
    ensures RuleMap([], frequency) == map[]
  {
  }

  /** The object literal lists "Constructor" under "tagged" whatever rules
      built it. */
  lemma ConstructorAsWritten(m: map<string, Rule>)
    ensures var frequency := [FrequencyItem("Constructor", 1, -1000)];
      && FilterFrequencyAsWritten(frequency, m, Tagged, "") == frequency
      && FilterFrequencyAsWritten(frequency, m, Untagged, "") == []
  {
    ConstructorInherited();
    InheritedAsWritten(m, FrequencyItem("Constructor", 1, -1000));
  }

  /** "Constructor" normalises to an inherited name. */
  lemma ConstructorInherited()
    ensures Inherited(ItemKey(FrequencyItem("Constructor", 1, -1000)))
  {
    ConstructorKey();
  }

  /** A row whose key names an inherited member always reads as tagged to
      the object literal, whatever the map holds. */
  lemma InheritedAsWritten(m: map<string, Rule>, item: FrequencyItem)
    requires Inherited(ItemKey(item))
    ensures FilterFrequencyAsWritten([item], m, Tagged, "") == [item]
    ensures FilterFrequencyAsWritten([item], m, Untagged, "") == []
  {
    FilterSingleton(item, x => KeepAsWritten(m, Tagged, "", x));
    FilterSingleton(item, x => KeepAsWritten(m, Untagged, "", x));
  }

  /** The own-key map of no rules lists "Constructor" under "untagged". */
  lemma ConstructorOwnKeys()
    ensures var frequency := [FrequencyItem("Constructor", 1, -1000)];
      var m := RuleMap([], frequency);
      && FilterFrequency(frequency, m, Tagged, "") == []
      && FilterFrequency(frequency, m, Untagged, "") == frequency
  {
    var item := FrequencyItem("Constructor", 1, -1000);
    NoRulesNoMap([item]);
    var m: map<string, Rule> := map[];
    assert !Keep(m, Tagged, "", item) && Keep(m, Untagged, "", item);
    FilterSingleton(item, x => Keep(m, Tagged, "", x));
    FilterSingleton(item, x => Keep(m, Untagged, "", x));
  }

  // ---------------------------------------------------------------------
  // The write guard and the "Rule" column as written. `!ruleMap[desc]` is
  // false for an inherited name, so the loop never stores a rule under
  // one; and `ruleMap[desc]` in the comparator finds the inherited member,
  // which is truthy and has neither a category nor a subcategory.

  /** The own properties of the object literal: no inherited name is ever
      among them. */
  function OwnKeys(p: map<string, Rule>): map<string, Rule> {
    map k | k in p && !Inherited(k) :: p[k]
  }

  /** The map the double loop builds as written: every key of the table
      that some rule matches, mapped to the first such rule, except the
      inherited names, which never get a rule. */
  function RuleMapAsWritten(rules: seq<Rule>, frequency: seq<FrequencyItem>): (m: map<string, Rule>)
    ensures forall k :: k in m <==>
      k in FrequencyKeys(frequency) && !Inherited(k) && exists rule :: rule in rules && Matches(rule, k)
    ensures forall k :: k in m ==> Some(m[k]) == FirstMatch(rules, k)
  {
    OwnKeys(RuleMap(rules, frequency))
  }

  /** One inner step as written: `matches && !ruleMap[desc]` writes the key
      exactly when the own-key step would and the key is no inherited name. */
  lemma OwnKeysStep(p: map<string, Rule>, rule: Rule, key: string)
    ensures OwnKeys(if Matches(rule, key) && key !in p then p[key := rule] else p) ==
      if Matches(rule, key) && !HasRuleAsWritten(OwnKeys(p), key) then OwnKeys(p)[key := rule] else OwnKeys(p)
  {
    if Matches(rule, key) && key !in p {
      SameMap(OwnKeys(p[key := rule]), if Inherited(key) then OwnKeys(p) else OwnKeys(p)[key := rule]);
    }
  }

  /** The page's double loop with its guard read on the object literal. */
  method BuildRuleMapAsWritten(rules: seq<Rule>, frequency: seq<FrequencyItem>) returns (m: map<string, Rule>)
    ensures m == RuleMapAsWritten(rules, frequency)
  {
    m := map[];
    assert RuleMap(rules[..0], frequency) == map[];
    assert OwnKeys(map[]) == map[];
    for i := 0 to |rules|
      invariant m == OwnKeys(RuleMap(rules[..i], frequency))
    {
      var rule := rules[i];
      PartialStart(rules[..i], rule, frequency);
      for j := 0 to |frequency|
        invariant m == OwnKeys(Partial(rules[..i], rule, frequency, j))
      {
        var key := ItemKey(frequency[j]);
        PartialStep(rules[..i], rule, frequency, j);
        OwnKeysStep(Partial(rules[..i], rule, frequency, j), rule, key);
        if Matches(rule, key) && !HasRuleAsWritten(m, key) {
          m := m[key := rule];
        }
      }
      PartialEnd(rules[..i], rule, frequency);
      assert rules[..i + 1] == rules[..i] + [rule];
    }
    assert rules[..|rules|] == rules;
  }

  /** The label of the inherited member: its category and subcategory are
      both missing, so the template gives " / ", trimmed to "/". */
  function InheritedLabel(): (r: string)
    ensures r == "/"
  {
    MissingNamesLabel();
    TrimSlash();
    Text.Trim(Ledger.RefName(Ledger.NoRef) + " / " + Ledger.RefName(Ledger.NoRef))
  }

  /** A missing category and subcategory both print as "". */
  lemma MissingNamesLabel()
    ensures Ledger.RefName(Ledger.NoRef) + " / " + Ledger.RefName(Ledger.NoRef) == " / "
  {
    assert Ledger.RefName(Ledger.NoRef) == "";
  }

  /** " / " trims to "/". */
  lemma TrimSlash()
    ensures Text.Trim(" / ") == "/"
  {
    var s := " / ";
    assert Text.SpaceAround(s, "/", 1) by {
      assert s[1..2] == "/";
    }
    Text.TrimUnique(s, "/");
  }

  /** The "Rule" column as written: the key's own rule when it has one; for
      an inherited name without one the inherited member, labelled "/";
      otherwise "". */
  function RuleLabelAsWritten(m: map<string, Rule>, item: FrequencyItem): (r: string)
    ensures ItemKey(item) !in m && Inherited(ItemKey(item)) ==> r == "/"
    ensures ItemKey(item) !in m && !Inherited(ItemKey(item)) ==> r == ""
    ensures ItemKey(item) in m ==> Text.IsTrimOf(CategoryLabel(m[ItemKey(item)]), r)
  {
    var key := ItemKey(item);
    if key !in m && Inherited(key) then InheritedLabel() else RuleLabel(m, item)
  }

  /** With the map built as written, a row keyed by an inherited name is
      labelled "/" whatever the rules; any other row gets the label of its
      first matching rule, or "". */
  lemma RuleLabelAsWrittenOfFirstMatch(rules: seq<Rule>, frequency: seq<FrequencyItem>, item: FrequencyItem)
    requires item in frequency
    ensures var first := FirstMatch(rules, ItemKey(item));
      RuleLabelAsWritten(RuleMapAsWritten(rules, frequency), item) ==
        if Inherited(ItemKey(item)) then "/"
        else if first.Some? then Text.Trim(CategoryLabel(first.value)) else ""
  {
    var m := RuleMapAsWritten(rules, frequency);
    var key := ItemKey(item);
    assert key in FrequencyKeys(frequency);
    if key in m {
      Text.TrimUnique(CategoryLabel(m[key]), RuleLabelAsWritten(m, item));
    }
  }

  /** The column a row is compared by, with the "Rule" column read as
      written. */
  function SortKeyAsWritten(m: map<string, Rule>, column: SortColumn, item: FrequencyItem): Ordering.Key {
    if column == ByRule then Ordering.StrKey(RuleLabelAsWritten(m, item)) else SortKey(m, column, item)
  }

  function ColumnKeyAsWritten(m: map<string, Rule>, column: SortColumn): FrequencyItem -> Ordering.Key {
    x => SortKeyAsWritten(m, column, x)
  }

  /** `sortedFrequency` as written: a reordering of the filtered rows,
      ordered by the column as the comparator reads it; ties keep their
      order. */
  function SortFrequencyAsWritten(rows: seq<FrequencyItem>, m: map<string, Rule>, column: SortColumn, dir: Ordering.Direction): (r: seq<FrequencyItem>)
    ensures multiset(r) == multiset(rows)
    ensures forall i, j :: 0 <= i < j < |r| ==>
      Ordering.Le(dir, SortKeyAsWritten(m, column, r[i]), SortKeyAsWritten(m, column, r[j]))
    ensures forall k :: Ordering.WithKey(r, ColumnKeyAsWritten(m, column), k) == Ordering.WithKey(rows, ColumnKeyAsWritten(m, column), k)
  {
    Ordering.SortBy(rows, ColumnKeyAsWritten(m, column), dir)
  }

  /** Without inherited names among the rows, the sort as written is the
      sort as meant. */
  lemma SortAsWrittenAgreesElsewhere(rows: seq<FrequencyItem>, m: map<string, Rule>, column: SortColumn, dir: Ordering.Direction)
    requires forall x :: x in rows ==> !Inherited(ItemKey(x))
    ensures SortFrequencyAsWritten(rows, m, column, dir) == SortFrequency(rows, m, column, dir)
  {
    forall x | x in rows ensures ColumnKeyAsWritten(m, column)(x) == ColumnKey(m, column)(x) {
    }
    Ordering.SortByCongruent(rows, ColumnKeyAsWritten(m, column), ColumnKey(m, column), dir);
  }

  /** "uber" is already a key. */
  lemma LowerUberKey()
    ensures DescriptionKey("uber") == "uber"
  {
    LowerFixed("uber");
    Text.TrimTrimmed("uber");
  }

  /** A row keyed by an inherited name and a row of another key, neither
      with a rule, sorted by the "Rule" column ascending: as written the
      first is labelled "/" and moves after the second, whose label is "";
      as meant both labels are "" and the order is kept. */
  lemma InheritedSortsLast(m: map<string, Rule>, c: FrequencyItem, u: FrequencyItem)
    requires Inherited(ItemKey(c)) && !Inherited(ItemKey(u))
    requires ItemKey(c) !in m && ItemKey(u) !in m
    ensures SortFrequencyAsWritten([c, u], m, ByRule, Ordering.Asc) == [u, c]
    ensures SortFrequency([c, u], m, ByRule, Ordering.Asc) == [c, u]
  {
    InheritedSortsLastAsWritten(m, c, u);
    var k := ColumnKey(m, ByRule);
    NoRuleKeys(m, c);
    NoRuleKeys(m, u);
    assert k(c) == k(u);
    Ordering.SortTwoTie(c, u, k, Ordering.Asc);
    assert SortFrequency([c, u], m, ByRule, Ordering.Asc) == Ordering.SortBy([c, u], k, Ordering.Asc);
  }

  /** The as-written half of InheritedSortsLast: "/" sorts after "". */
  lemma InheritedSortsLastAsWritten(m: map<string, Rule>, c: FrequencyItem, u: FrequencyItem)
    requires Inherited(ItemKey(c)) && !Inherited(ItemKey(u))
    requires ItemKey(c) !in m && ItemKey(u) !in m
    ensures SortFrequencyAsWritten([c, u], m, ByRule, Ordering.Asc) == [u, c]
  {
    var kw := ColumnKeyAsWritten(m, ByRule);
    NoRuleKeys(m, c);
    NoRuleKeys(m, u);
    assert kw(c) == Ordering.StrKey("/") && kw(u) == Ordering.StrKey("");
    SlashAfterEmpty();
    Ordering.SortTwoSwap(c, u, kw, Ordering.Asc);
    assert SortFrequencyAsWritten([c, u], m, ByRule, Ordering.Asc) == Ordering.SortBy([c, u], kw, Ordering.Asc);
  }

  /** The label "/" sorts after the empty label. */
  lemma SlashAfterEmpty()
    ensures !Ordering.Le(Ordering.Asc, Ordering.StrKey("/"), Ordering.StrKey(""))
  {
    assert Text.Compare("/", "") == 1;
  }

  /** The "Rule" sort key of a row without a rule. */
  lemma NoRuleKeys(m: map<string, Rule>, x: FrequencyItem)
    requires ItemKey(x) !in m
    ensures ColumnKeyAsWritten(m, ByRule)(x) == Ordering.StrKey(if Inherited(ItemKey(x)) then "/" else "")
    ensures ColumnKey(m, ByRule)(x) == Ordering.StrKey("")
  {
  }

  /** Without rules the map as written is empty too. */
  lemma NoRulesNoMapAsWritten(frequency: seq<FrequencyItem>)
    ensures RuleMapAsWritten([], frequency) == map[]
  {
    NoRulesNoMap(frequency);
  }

  /** The rows "Constructor" and "uber" with no rules: both maps are empty,
      and sorted by the "Rule" column ascending, "uber" comes first as
      written while the order is kept as meant. */
  lemma InheritedLabelReordersSort(c: FrequencyItem, u: FrequencyItem)
    requires c == FrequencyItem("Constructor", 1, -1000) && u == FrequencyItem("uber", 1, -5)
    ensures RuleMap([], [c, u]) == map[] && RuleMapAsWritten([], [c, u]) == map[]
    ensures SortFrequencyAsWritten([c, u], map[], ByRule, Ordering.Asc) == [u, c]
    ensures SortFrequency([c, u], map[], ByRule, Ordering.Asc) == [c, u]
  {
    NoRulesNoMap([c, u]);
    NoRulesNoMapAsWritten([c, u]);
    assert Inherited(ItemKey(c)) && !Inherited(ItemKey(u)) by {
      ConstructorInherited();
      LowerUberKey();
    }
    InheritedSortsLast(map[], c, u);
  }
}

=== FILE: text.dfy ===
/** The string operations the components call: `toLowerCase`, `trim`,
    `startsWith`, `includes`, and the comparison used by `localeCompare`
    and by `Array.prototype.sort` without a comparator. */
module Text {

  /** Lower-cases one character; only the ASCII letters A-Z are mapped. */
  function LowerChar(c: char): (r: char)
    ensures 'A' <= c <= 'Z' ==> 'a' <= r <= 'z' && r as int - c as int == 32
    ensures !('A' <= c <= 'Z') ==> r == c
  {
    if 'A' <= c <= 'Z' then (c as int + 32) as char else c
  }

  /** `String.prototype.toLowerCase`, on ASCII letters. */
  function ToLower(s: string): (r: string)
    ensures |r| == |s|
    ensures forall i :: 0 <= i < |s| ==> r[i] == LowerChar(s[i])
  {
    seq(|s|, i requires 0 <= i < |s| => LowerChar(s[i]))
  }

  /** The characters `String.prototype.trim` removes: WhiteSpace and
      LineTerminator of section 12.2 and 12.3 of ECMA-262. */
  predicate IsSpace(c: char) {
    || c == ' ' || c == '\t' || c == '\n' || c == '\r'
    || c == '\U{000B}' || c == '\U{000C}' || c == '\U{00A0}' || c == '\U{1680}'
    || ('\U{2000}' <= c <= '\U{200A}')
    || c == '\U{2028}' || c == '\U{2029}' || c == '\U{202F}' || c == '\U{205F}'
    || c == '\U{3000}' || c == '\U{FEFF}'
  }

  /** Drops the leading white space: the result is the longest suffix of
      `s` that does not start with white space. */
  function TrimStart(s: string): (r: string)
    ensures r == [] || !IsSpace(r[0])
    ensures |r| <= |s| && r == s[|s| - |r|..]
    ensures forall i :: 0 <= i < |s| - |r| ==> IsSpace(s[i])
    decreases |s|
  {
    if s != [] && IsSpace(s[0]) then
      var r := TrimStart(s[1..]);
      assert forall i :: 1 <= i < |s| - |r| ==> s[i] == s[1..][i - 1];
      r
    else s
  }

  /** Drops the trailing white space: the result is the longest prefix of
      `s` that does not end with white space. */
  function TrimEnd(s: string): (r: string)
    ensures r == [] || !IsSpace(r[|r| - 1])
    ensures r <= s
    ensures forall i :: |r| <= i < |s| ==> IsSpace(s[i])
    decreases |s|
  {
    if s != [] && IsSpace(s[|s| - 1]) then
      var t := s[..|s| - 1];
      var r := TrimEnd(t);
      assert forall i :: |r| <= i < |t| ==> s[i] == t[i];
      r
    else s
  }

  /** `r` is `s` without its leading and trailing white space: `r` neither
      starts nor ends with white space, and it occurs in `s` with only white
      space before and after it. */
  ghost predicate IsTrimOf(s: string, r: string) {
    && (r == [] || (!IsSpace(r[0]) && !IsSpace(r[|r| - 1])))
    && exists a :: SpaceAround(s, r, a)
  }

  /** `r` occurs in `s` at `a`, and everything of `s` outside it is white space. */
  ghost predicate SpaceAround(s: string, r: string, a: int) {
    && OccursAt(s, r, a)
    && (forall i :: 0 <= i < a ==> IsSpace(s[i]))
    && (forall i :: a + |r| <= i < |s| ==> IsSpace(s[i]))
  }

  /** `String.prototype.trim`: strips leading and trailing white space. */
  function Trim(s: string): (r: string)
    ensures IsTrimOf(s, r)
  {
    TrimParts(s);
    TrimEnd(TrimStart(s))
  }

  /** Trimming the end of the trimmed start leaves no white space at either
      end, and the result sits where the trimmed start begins, with only
      white space around it. */
  lemma TrimParts(s: string)
    ensures var r := TrimEnd(TrimStart(s));
      && (r == [] || (!IsSpace(r[0]) && !IsSpace(r[|r| - 1])))
      && SpaceAround(s, r, |s| - |TrimStart(s)|)
  {
    var t := TrimStart(s);
    var r := TrimEnd(t);
    SliceOfSuffix(s, t, r);
    SpaceAfterSlice(s, t, r);
    assert r != [] ==> r[0] == t[0];
  }

  /** White space that ends a suffix of `s` ends `s`. */
  lemma SpaceAfterSlice(s: string, t: string, r: string)
    requires |t| <= |s| && t == s[|s| - |t|..]
    requires |r| <= |t|
    requires forall i :: |r| <= i < |t| ==> IsSpace(t[i])
    ensures forall i :: |s| - |t| + |r| <= i < |s| ==> IsSpace(s[i])
  {
    var a := |s| - |t|;
    forall i | a + |r| <= i < |s| ensures IsSpace(s[i]) {
      assert s[i] == t[i - a];
    }
  }

  /** Only one string is the trim of `s`: `Trim` is the unique string with
      the `IsTrimOf` property. */
  lemma TrimUnique(s: string, r: string)
    requires IsTrimOf(s, r)
    ensures r == Trim(s)
  {
    var t := Trim(s);
    var a :| SpaceAround(s, r, a);
    var b :| SpaceAround(s, t, b);
    if r == [] || t == [] {
      EmptyTrims(s, r, a, t, b);
    } else {
      SameTrims(s, r, a, t, b);
    }
  }

  /** Two trims of `s`, one of them empty, are both empty. */
  lemma EmptyTrims(s: string, r: string, a: int, t: string, b: int)
    requires SpaceAround(s, r, a) && (r == [] || !IsSpace(r[0]))
    requires SpaceAround(s, t, b) && (t == [] || !IsSpace(t[0]))
    requires r == [] || t == []
    ensures r == [] && t == []
  {
  }

  /** Two non-empty trims of `s` start at the first non-space character,
      end at the last one, and so are equal. */
  lemma SameTrims(s: string, r: string, a: int, t: string, b: int)
    requires SpaceAround(s, r, a) && r != [] && !IsSpace(r[0]) && !IsSpace(r[|r| - 1])
    requires SpaceAround(s, t, b) && t != [] && !IsSpace(t[0]) && !IsSpace(t[|t| - 1])
    ensures r == t
  {
    OccursAtChars(s, r, a);
    OccursAtChars(s, t, b);
    assert a == b by {
      assert s[a] == r[0] && s[b] == t[0];
    }
    assert |r| == |t| by {
      assert s[a + |r| - 1] == r[|r| - 1] && s[b + |t| - 1] == t[|t| - 1];
    }
  }

  /** A prefix of a suffix of `s` occurs in `s` where the suffix starts. */
  lemma SliceOfSuffix(s: string, t: string, r: string)
    requires |t| <= |s| && t == s[|s| - |t|..]
    requires r <= t
    ensures OccursAt(s, r, |s| - |t|)
  {
    var a := |s| - |t|;
    assert r == t[..|r|];
    assert s[a..a + |r|] == t[..|r|];
  }

  /** Trimming a string that has no white space at either end changes nothing. */
  lemma TrimTrimmed(s: string)
    requires s == [] || (!IsSpace(s[0]) && !IsSpace(s[|s| - 1]))
    ensures Trim(s) == s
  {
  }

  /** `trim` is idempotent. */
  lemma TrimIdempotent(s: string)
    ensures Trim(Trim(s)) == Trim(s)
  {
    TrimTrimmed(Trim(s));
  }

  /** Lower-casing is idempotent. */
  lemma ToLowerIdempotent(s: string)
    ensures ToLower(ToLower(s)) == ToLower(s)
  {
  }

  /** Lower-casing neither creates nor removes white space. */
  lemma LowerCharSpace(c: char)
    ensures IsSpace(LowerChar(c)) == IsSpace(c)
  {
  }

  /** `s.startsWith(p)`. */
  predicate StartsWith(s: string, p: string) {
    p <= s
  }

  /** `s.includes(p)`, computed by scanning the start positions. */
  predicate Includes(s: string, p: string)
    decreases |s|
  {
    p <= s || (s != [] && Includes(s[1..], p))
  }

  /** `p` occurs in `s` at some position. */
  ghost predicate OccursAt(s: string, p: string, i: int) {
    0 <= i && i + |p| <= |s| && s[i..i + |p|] == p
  }

  /** Each character of an occurrence is the character of `s` it covers. */
  lemma OccursAtChars(s: string, p: string, i: int)
    requires OccursAt(s, p, i)
    ensures forall k :: 0 <= k < |p| ==> p[k] == s[i + k]
  {
    forall k | 0 <= k < |p| ensures p[k] == s[i + k] {
      assert s[i..i + |p|][k] == s[i + k];
    }
  }

  /** The scanning `Includes` agrees with the positional definition. */
  lemma {:induction false} IncludesIff(s: string, p: string)
    ensures Includes(s, p) <==> exists i :: OccursAt(s, p, i)
    decreases |s|
  {
    if p <= s {
      assert OccursAt(s, p, 0);
    } else if s == [] {
      assert forall i :: !OccursAt(s, p, i);
    } else {
      IncludesIff(s[1..], p);
      if Includes(s[1..], p) {
        var i :| OccursAt(s[1..], p, i);
        assert s[i + 1..i + 1 + |p|] == s[1..][i..i + |p|];
        assert OccursAt(s, p, i + 1);
      } else {
        forall i | OccursAt(s, p, i) ensures i != 0 && OccursAt(s[1..], p, i - 1) {
          if i != 0 {
            assert s[1..][i - 1..i - 1 + |p|] == s[i..i + |p|];
          }
        }
      }
    }
  }

  /** The empty string is included in every string. */
  lemma IncludesEmpty(s: string)
    ensures Includes(s, "")
  {
  }

  /** Code-point order, as the comparison of two strings: negative, zero or
      positive. */
  function Compare(a: string, b: string): (r: int)
    ensures r == 0 <==> a == b
    ensures -1 <= r <= 1
    decreases |a|
  {
    if a == [] && b == [] then 0
    else if a == [] then -1
    else if b == [] then 1
    else if a[0] < b[0] then -1
    else if a[0] > b[0] then 1
    else
      var r := Compare(a[1..], b[1..]);
      assert r == 0 ==> a == [a[0]] + a[1..] == [b[0]] + b[1..] == b;
      assert a == b ==> a[1..] == b[1..];
      r
  }

  /** Swapping the arguments negates the comparison. */
  lemma {:induction false} CompareAntisymmetric(a: string, b: string)
    ensures Compare(b, a) == -Compare(a, b)
    decreases |a|
  {
    if a != [] && b != [] && a[0] == b[0] {
      CompareAntisymmetric(a[1..], b[1..]);
    }
  }

  /** Code-point order is transitive. */
  lemma {:induction false} CompareTransitive(a: string, b: string, c: string)
    requires Compare(a, b) <= 0 && Compare(b, c) <= 0
    ensures Compare(a, c) <= 0
    decreases |a|
  {
    if a != [] && b != [] && c != [] && a[0] == b[0] && b[0] == c[0] {
      CompareTransitive(a[1..], b[1..], c[1..]);
    }
  }
}

=== FILE: transaction_box.dfy ===
/** The transaction list: the rows the search bar's filters let through,
    sorted by the chosen column, with check boxes and the running total of
    the selected values. */
module TransactionBox {
  import opened Collections
  import Text
  import Ordering
  import Calendar
  import Ledger
  import Selection

  type Transaction = Ledger.Transaction

  /** The four filter values the list receives from the search bar. */
  datatype Filters = Filters(macrotype: string, category: string, subcategory: string, search: string)

  /** Every filter switched off, as the search bar starts out. */
  const NoFilters := Filters("all", "", "", "")

  /** The macrotype filter: "all" and "" let every row through. */
  predicate MacrotypeOk(f: Filters, t: Transaction) {
    f.macrotype == "all" || f.macrotype == "" || t.macrotype == f.macrotype
  }

  /** `category ? t.category?.name === category : true`. */
  predicate CategoryOk(f: Filters, t: Transaction) {
    f.category == "" || (t.category.Named? && t.category.name == f.category)
  }

  predicate SubcategoryOk(f: Filters, t: Transaction) {
    f.subcategory == "" || (t.subcategory.Named? && t.subcategory.name == f.subcategory)
  }

  /** A case-insensitive substring search of the description. */
  predicate SearchOk(f: Filters, t: Transaction) {
    f.search == "" || Text.Includes(Text.ToLower(t.description), Text.ToLower(f.search))
  }

  predicate Visible(f: Filters, t: Transaction) {
    MacrotypeOk(f, t) && CategoryOk(f, t) && SubcategoryOk(f, t) && SearchOk(f, t)
  }

  /** `filteredTransactions`: the rows every filter lets through, in the
      order they came. */
  function FilterTransactions(rows: seq<Transaction>, f: Filters): (r: seq<Transaction>)
    ensures IsSubseq(r, rows)
    ensures forall t :: t in r <==> t in rows && Visible(f, t)
    ensures forall t :: multiset(r)[t] == if Visible(f, t) then multiset(rows)[t] else 0
  {
    var keep := (t: Transaction) => Visible(f, t);
    FilterSubseq(rows, keep);
    Filter(rows, keep)
  }

  /** The four chained `.filter` calls of the source are this one filter. */
  lemma FilterTransactionsIsChain(rows: seq<Transaction>, f: Filters)
    ensures FilterTransactions(rows, f) ==
      Filter(Filter(Filter(Filter(rows,
        (t: Transaction) => MacrotypeOk(f, t)),
        (t: Transaction) => CategoryOk(f, t)),
        (t: Transaction) => SubcategoryOk(f, t)),
        (t: Transaction) => SearchOk(f, t))
  {
    var p1 := (t: Transaction) => MacrotypeOk(f, t);
    var p2 := (t: Transaction) => CategoryOk(f, t);
    var p3 := (t: Transaction) => SubcategoryOk(f, t);
    var p4 := (t: Transaction) => SearchOk(f, t);
    var p12 := (t: Transaction) => MacrotypeOk(f, t) && CategoryOk(f, t);
    var p123 := (t: Transaction) => MacrotypeOk(f, t) && CategoryOk(f, t) && SubcategoryOk(f, t);
    FilterFuse(rows, p1, p2, p12);
    FilterFuse(rows, p12, p3, p123);
    FilterFuse(rows, p123, p4, (t: Transaction) => Visible(f, t));
  }

  /** With every filter off the whole list is shown. */
  lemma NoFiltersShowsAll(rows: seq<Transaction>)
    ensures FilterTransactions(rows, NoFilters) == rows
  {
    FilterAll(rows, (t: Transaction) => Visible(NoFilters, t));
  }

  /** The sortable columns; `Other` is any other `sortBy` value, which
      compares every pair as equal. */
  datatype Column = ByType | ByBank | ByDate | ByDescription | ByValue | ByCategory | BySubcategory | Other

  /** The column a row is compared on. Dates compare as days. */
  function SortKey(c: Column): Transaction -> Ordering.Key {
    (t: Transaction) =>
      match c
      case ByType => Ordering.StrKey(t.subtype)
      case ByBank => Ordering.StrKey(t.bank)
      case ByDate => Ordering.IntKey(Calendar.DayOrdinal(t.date))
      case ByDescription => Ordering.StrKey(t.description)
      case ByValue => Ordering.IntKey(t.value)
      case ByCategory => Ordering.StrKey(Ledger.RefName(t.category))
      case BySubcategory => Ordering.StrKey(Ledger.RefName(t.subcategory))
      case Other => Ordering.NoKey
  }

  /** The list's sort state, `value` / `desc` to begin with. */
  datatype SortState = SortState(column: Column, dir: Ordering.Direction)

  const DefaultSort := SortState(ByValue, Ordering.Desc)

  /** `sortedTransactions`: the filtered rows, sorted. */
  function Shown(rows: seq<Transaction>, f: Filters, s: SortState): (r: seq<Transaction>)
    ensures multiset(r) == multiset(FilterTransactions(rows, f))
    ensures Ordering.SortedBy(r, SortKey(s.column), s.dir)
    ensures forall k :: Ordering.WithKey(r, SortKey(s.column), k) == Ordering.WithKey(FilterTransactions(rows, f), SortKey(s.column), k)
  {
    Ordering.SortBy(FilterTransactions(rows, f), SortKey(s.column), s.dir)
  }

  /** Every shown row is a row of the list that the filters let through. */
  lemma ShownRows(rows: seq<Transaction>, f: Filters, s: SortState)
    ensures forall t :: t in Shown(rows, f, s) <==> t in rows && Visible(f, t)
  {
    var r := Shown(rows, f, s);
    forall t ensures t in r <==> t in FilterTransactions(rows, f) {
      assert t in r <==> t in multiset(r);
    }
  }

  /** By default the largest value comes first. */
  lemma DefaultSortLargestFirst(rows: seq<Transaction>, f: Filters)
    ensures forall i, j :: 0 <= i < j < |Shown(rows, f, DefaultSort)| ==>
      Shown(rows, f, DefaultSort)[i].value >= Shown(rows, f, DefaultSort)[j].value
  {
    var r := Shown(rows, f, DefaultSort);
    forall i, j | 0 <= i < j < |r| ensures r[i].value >= r[j].value {
      assert Ordering.Le(Ordering.Desc, SortKey(ByValue)(r[i]), SortKey(ByValue)(r[j]));
    }
  }

  /** An unknown column keeps the filtered order. */
  lemma OtherColumnKeepsOrder(rows: seq<Transaction>, f: Filters, dir: Ordering.Direction)
    ensures Shown(rows, f, SortState(Other, dir)) == FilterTransactions(rows, f)
  {
    Ordering.SortByNoKeyKeepsOrder(FilterTransactions(rows, f), SortKey(Other), dir);
  }

  function Ids(rows: seq<Transaction>): (r: seq<string>)
    ensures |r| == |rows|
    ensures forall i :: 0 <= i < |rows| ==> r[i] == rows[i].id
  {
    Map(rows, (t: Transaction) => t.id)
  }

  /** The header check box: every shown row, or none. */
  function SelectAllChange(shown: seq<Transaction>, checked: bool): (r: seq<string>)
    ensures checked ==> r == Ids(shown)
    ensures !checked ==> r == []
  {
    if checked then Ids(shown) else []
  }

  /** A row's check box. */
  function ToggleSelected(ids: seq<string>, id: string): (r: seq<string>)
    ensures id in r <==> id !in ids
    ensures forall x :: x != id ==> (x in r <==> x in ids)
  {
    Selection.Toggle(ids, id)
  }

  /** `transactions.find(t => t._id === id)?.value || 0`. */
  function ValueOf(rows: seq<Transaction>, id: string): (r: int)
    ensures (forall t :: t in rows ==> t.id != id) ==> r == 0
    ensures (exists t :: t in rows && t.id == id) ==>
      exists i :: 0 <= i < |rows| && rows[i].id == id && r == rows[i].value
                  && forall j :: 0 <= j < i ==> rows[j].id != id
  {
    match Find(rows, (t: Transaction) => t.id == id)
    case Some(t) => t.value
    case None => 0
  }

  /** `totalSelectedValue`: the selected rows' values added up, looked up
      in the whole list (not only the shown rows). An id that names no row
      adds 0, and a single id gives its row's value. */
  function TotalSelected(rows: seq<Transaction>, ids: seq<string>): (r: int)
    ensures (forall id :: id in ids ==> forall t :: t in rows ==> t.id != id) ==> r == 0
    ensures |ids| == 1 ==> r == ValueOf(rows, ids[0])
  {
    UnknownIdsAddNothing(rows, ids);
    SumOver(ids, id => ValueOf(rows, id))
  }

  /** Ids that name no row add nothing to the total. */
  lemma UnknownIdsAddNothing(rows: seq<Transaction>, ids: seq<string>)
    ensures (forall id :: id in ids ==> forall t :: t in rows ==> t.id != id) ==>
      SumOver(ids, id => ValueOf(rows, id)) == 0
  {
    if forall id :: id in ids ==> forall t :: t in rows ==> t.id != id {
      SumOverZero(ids, id => ValueOf(rows, id));
    }
  }

  ghost predicate UniqueIds(rows: seq<Transaction>) {
    NoDups(Ids(rows))
  }

  /** With unique ids, looking a row's id up finds that row. */
  lemma ValueOfRow(rows: seq<Transaction>, t: Transaction)
    requires UniqueIds(rows) && t in rows
    ensures ValueOf(rows, t.id) == t.value
  {
    var i :| 0 <= i < |rows| && rows[i] == t;
    var j :| 0 <= j < |rows| && rows[j].id == t.id && ValueOf(rows, t.id) == rows[j].value;
    assert Ids(rows)[i] == Ids(rows)[j];
  }

  /** After "select all" the total is the sum of the shown values. */
  lemma SelectAllTotal(rows: seq<Transaction>, f: Filters, s: SortState)
    requires UniqueIds(rows)
    ensures TotalSelected(rows, SelectAllChange(Shown(rows, f, s), true)) ==
      SumOver(FilterTransactions(rows, f), (t: Transaction) => t.value)
  {
    var shown := Shown(rows, f, s);
    var value := (t: Transaction) => t.value;
    forall t | t in shown ensures value(t) == ValueOf(rows, t.id) {
      assert t in multiset(shown);
      ValueOfRow(rows, t);
    }
    SumOverMap(shown, (t: Transaction) => t.id, id => ValueOf(rows, id), value);
    SumOverPermutation(shown, FilterTransactions(rows, f), value);
  }

  /** Ticking a row adds its value to the total. */
  lemma ToggleOnAdds(rows: seq<Transaction>, ids: seq<string>, id: string)
    requires id !in ids
    ensures TotalSelected(rows, ToggleSelected(ids, id)) == TotalSelected(rows, ids) + ValueOf(rows, id)
  {
    SumOverAppend(ids, [id], id => ValueOf(rows, id));
  }

  /** Unticking a row of a duplicate-free selection takes its value away. */
  lemma ToggleOffSubtracts(rows: seq<Transaction>, ids: seq<string>, id: string)
    requires id in ids && NoDups(ids)
    ensures TotalSelected(rows, ToggleSelected(ids, id)) == TotalSelected(rows, ids) - ValueOf(rows, id)
  {
    SumOverFilterOut(ids, id, id => ValueOf(rows, id));
  }

  /** Removing the one occurrence of `x` removes its term. */
  lemma {:induction false} SumOverFilterOut(s: seq<string>, x: string, f: string -> int)
    requires x in s && NoDups(s)
    ensures SumOver(Filter(s, y => y != x), f) == SumOver(s, f) - f(x)
    decreases |s|
  {
    var tail := s[1..];
    assert NoDups(tail) by {
      forall i, j | 0 <= i < j < |tail| ensures tail[i] != tail[j] {
        assert tail[i] == s[i + 1] && tail[j] == s[j + 1];
      }
    }
    if s[0] == x {
      assert x !in tail by {
        forall j | 0 <= j < |tail| ensures tail[j] != x {
          assert tail[j] == s[j + 1];
        }
      }
      FilterAll(tail, y => y != x);
    } else {
      SumOverFilterOut(tail, x, f);
    }
  }
}
